=== FILE: README.md ===
# Wi-Fi security scanner: decision logic in Dafny

This project models the pure decision logic of an Android/Flutter Wi-Fi security
scanner that looks for man-in-the-middle (MITM) attacks. The Kotlin app asks the
platform about the network, then fuses what it learns into one verdict. It reads
the neighbour (ARP) table, sweeps the subnet with pings and times TCP connects
to the gateway. It resolves four well-known names, inspects the TLS certificates
of two sites, and reads the Wi-Fi connection details. Every one of those
platform answers is an **input** here: a probe outcome, a list of samples, an
optional field. Everything the app computes from them is a total function over
immutable datatypes, with contracts and lemmas about what it computes.

Modules follow the Kotlin classes:

- `Base`: an optional value, the four threat levels and integer clamping.
- `Text`: the string helpers the app takes from the Kotlin library: `contains`, `split`, whitespace tokenising, `toIntOrNull`, `joinToString` and case folding of ASCII letters.
- `NetworkInfo` (`MainActivity`): little-endian `Int` to dotted quad, netmask to prefix length by popcount, DNS list filtering, the encryption label and SSID clean-up.
- `ArpTable` (`ArpScanner`): row parsing, header skipping, the three-valued permission flag (`Boolean?`), duplicate-MAC grouping, changed-MAC diffing, the spoofing verdict and the gateway check.
- `Grouping`: the `getOrPut` grouping by key, shared by both duplicate-MAC finders.
- `LocalScan` (`NetworkScanner`): the 254-host sweep as a filter over probe outcomes, subnet and gateway text, and `detectSuspiciousDevices`.
- `Gateway` (`EnhancedNetworkScanner`):
  - the warm-up stopping rule, as a method with a loop;
  - the 15-probe statistics with two-sigma outlier filtering;
  - the routing-anomaly comparison;
  - the score ladder of `performComprehensiveScan`.
- `Hybrid` (`HybridNetworkScanner`): the passive-then-active scan policy, device mapping, and `detectMitmThreats` scoring.
- `DnsCheck` (`DnsChecker`): resolver trust, the suspicious-answer predicate, the hijacking rule, the success rate and the DNS verdict.
- `Certs` (`CertificateValidator`): certificate validation over leaf fields, result mapping with exceptions as network errors, stripping detection and the SSL verdict.
- `Fusion` (`NetworkSecurityPlugin`):
  - the DNS score;
  - the combined score and the network-down override;
  - the `mitmDetected` disjunction and the detection-type priority;
  - the ordered reason list and its text;
  - the device snapshot carried from one cycle to the next.

Notes on the model:

- **Latency statistics.** Samples are whole milliseconds (`nat`) and the statistics are exact reals. A standard deviation is never taken. "Within two standard deviations" is stated as `(x - mean)^2 <= 4 * variance`, and "deviation above 40" as `variance > 1600`. The analysis record stores the variance in place of the standard deviation.
- **The raw-sample fall-back never changes the result.** `analyzeGateway` keeps the raw samples when fewer than three survive the filter. With exact arithmetic the filter drops either nothing or fewer than a quarter of the samples (Chebyshev's inequality). So whenever there are three or more samples, at least three survive, and the fall-back can never change the final samples (`Gateway.FilterKeepsEnough`).
- **ISP resolvers are never recognised.** `isIspDns` uses `String.matches`, which must match the whole string. A pattern such as `^10\.` therefore accepts only the literal text `10.`, and no real address. The model keeps this behaviour as written (`DnsCheck.IsIspDns`) and proves that no rendered IPv4 address is ever recognised. The prefix reading the patterns were evidently meant to have exists separately (`DnsCheck.IsIspDnsPrefix`). `DnsCheck.PrivateResolverMissed` exhibits an address that the prefix reading accepts and the code rejects. As a result, trust is decided by the six-address allow list alone (`DnsCheck.TrustOfAddressesIsAllowList`).
- **An empty ARP table always falls back to the active sweep.** The class comment (`HybridNetworkScanner.kt:10`) says the fallback happens when ARP is unavailable. The code (`HybridNetworkScanner.kt:45-55`) falls back whenever the device list is empty, which includes a readable but empty table. The model follows the code (`Hybrid.ScanNetwork`, `Hybrid.EmptyTableFallsBack`).
- **A DNS outage on a quiet network reads as an attack.** A total DNS failure adds at least 50 points. If the network score is below 25, the combined score falls in the alert band [50, 90), so `detectMitm` reports an attack of type network anomaly (`Fusion.DnsOutageOnQuietNetworkIsAnomaly`). The outage override needs a network score of at least 60. Once that holds, the clamped score is always 100 (`Fusion.OutageIff`).
- **The gateway score is never capped.** It never exceeds 95, so the clamp in `performComprehensiveScan` never changes it (`Gateway.ScoreNeverCapped`). The hybrid score is not clamped at all.

## Model

| member | source | states |
|---|---|---|
| NetworkInfo.Octets | android/app/src/main/kotlin/com/example/android_wifi_scanner/MainActivity.kt:342-350 | the four octets printed by `intToIp` are bytes, least significant first, and they rebuild the unsigned 32-bit pattern of the address, negative `Int`s included |
| NetworkInfo.IntToIp | android/app/src/main/kotlin/com/example/android_wifi_scanner/MainActivity.kt:342-350 | the text is `"%d.%d.%d.%d"` of the four octets, least significant byte first: their decimal texts joined by dots |
| NetworkInfo.IntToIpReadsBack | android/app/src/main/kotlin/com/example/android_wifi_scanner/MainActivity.kt:342-350 | the printed address splits at its dots into exactly four pieces, and `toIntOrNull` reads each piece back as its octet |
| NetworkInfo.OctetsOfUnsigned | android/app/src/main/kotlin/com/example/android_wifi_scanner/MainActivity.kt:342-350 | octet k, taken as `(ip shr 8k) and 0xff` on the signed value, is byte k of the unsigned pattern |
| NetworkInfo.SubnetThenHost | android/app/src/main/kotlin/com/example/android_wifi_scanner/NetworkScanner.kt:105-110 | the three-octet subnet text followed by a dot and the last octet is exactly the full dotted address |
| NetworkInfo.SplitDotted | android/app/src/main/kotlin/com/example/android_wifi_scanner/MainActivity.kt:352-353 | splitting dotted decimal text at the dots gives back the decimal text of each number |
| NetworkInfo.NetmaskToCidr | android/app/src/main/kotlin/com/example/android_wifi_scanner/MainActivity.kt:352-362 | any mask without exactly four dot-separated parts yields 24; a four-part mask yields the sum of its parts' one-bit counts; the result never exceeds 4 x 32 |
| NetworkInfo.PartBits | android/app/src/main/kotlin/com/example/android_wifi_scanner/MainActivity.kt:357-358 | a numeric part contributes `bitCount` of its value; a part contributes 0 exactly when it is not a number or is zero |
| NetworkInfo.PartBitsOfOctet | android/app/src/main/kotlin/com/example/android_wifi_scanner/MainActivity.kt:357-358 | a part that is the decimal text of a byte contributes exactly that byte's one bits |
| NetworkInfo.PopcountOfOctets | android/app/src/main/kotlin/com/example/android_wifi_scanner/MainActivity.kt:358 | the one bits of a 32-bit pattern are the one bits of its four bytes together |
| NetworkInfo.NetmaskOfRenderedMask | android/app/src/main/kotlin/com/example/android_wifi_scanner/MainActivity.kt:342-362 | converting a mask to dotted text and then to a prefix length gives the number of one bits of the mask, at most 32 |
| NetworkInfo.ZeroAddressText | android/app/src/main/kotlin/com/example/android_wifi_scanner/MainActivity.kt:309-311 | an address prints as `0.0.0.0` if and only if it is zero |
| NetworkInfo.DnsServerList | android/app/src/main/kotlin/com/example/android_wifi_scanner/MainActivity.kt:305-311 | the DNS list is dns1 then dns2, each kept exactly when it is not the all-zero address |
| NetworkInfo.EncryptionLabel | android/app/src/main/kotlin/com/example/android_wifi_scanner/MainActivity.kt:292-298 | the reported label occurs in the capability string and no stronger label does (WPA3 over WPA2 over WPA over WEP); otherwise Open |
| NetworkInfo.OpenIffNoWpaNoWep | android/app/src/main/kotlin/com/example/android_wifi_scanner/MainActivity.kt:292-298 | Open is reported exactly when neither WPA nor WEP occurs in the capabilities |
| NetworkInfo.RemoveSurroundingQuotes | android/app/src/main/kotlin/com/example/android_wifi_scanner/MainActivity.kt:240 | a quoted name loses exactly its two quotes; anything else comes back unchanged |
| NetworkInfo.CurrentNetwork | android/app/src/main/kotlin/com/example/android_wifi_scanner/MainActivity.kt:240-246 | there is no network name exactly when the SSID is missing, or is empty or the unknown-SSID placeholder once one pair of surrounding quotes is removed; a reported name is the SSID itself or the SSID without its quotes |
| NetworkInfo.NoNetworkOfPlaceholders | android/app/src/main/kotlin/com/example/android_wifi_scanner/MainActivity.kt:240-242 | an empty SSID and the placeholder mean no network, quoted or bare |
| NetworkInfo.CurrentNetworkOfQuoted | android/app/src/main/kotlin/com/example/android_wifi_scanner/MainActivity.kt:240-246 | every real name, quoted or bare, is reported as itself |
| Text.ParseIntOfIntToString | android/app/src/main/kotlin/com/example/android_wifi_scanner/MainActivity.kt:357 | `toIntOrNull` reads back every 32-bit integer from its decimal text |
| Text.ParseInt | android/app/src/main/kotlin/com/example/android_wifi_scanner/MainActivity.kt:357 | `toIntOrNull` yields a value only for an optional sign followed by decimal digits, and only within the 32-bit range |
| Text.SplitJoin | android/app/src/main/kotlin/com/example/android_wifi_scanner/MainActivity.kt:353 | `split` undoes joining pieces that do not contain the delimiter |
| Text.Split | android/app/src/main/kotlin/com/example/android_wifi_scanner/MainActivity.kt:353 | `split` always yields at least one piece |
| Text.SplitWithoutDelimiter | android/app/src/main/kotlin/com/example/android_wifi_scanner/MainActivity.kt:353 | text without the delimiter splits into itself alone |
| Text.SplitAfterPiece | android/app/src/main/kotlin/com/example/android_wifi_scanner/MainActivity.kt:353 | a piece without the delimiter, the delimiter and more text split into that piece followed by the pieces of the rest |
| Text.TokensJoinThenMore | android/app/src/main/kotlin/com/example/android_wifi_scanner/ArpScanner.kt:94 | splitting trimmed text at runs of white space gives back the words that were joined, followed by the words of whatever follows |
| Text.Fields | android/app/src/main/kotlin/com/example/android_wifi_scanner/ArpScanner.kt:94 | a line with words splits into exactly its words; an all-blank line gives one empty field |
| Text.TokensOfSpaced | android/app/src/main/kotlin/com/example/android_wifi_scanner/ArpScanner.kt:94 | words laid out with any non-empty runs of white space between them, any indentation and any trailing white space split back into exactly those words |
| ArpTable.ParseArpLine | android/app/src/main/kotlin/com/example/android_wifi_scanner/ArpScanner.kt:93-113 | a row with fewer than six fields is rejected; a row with six or more is rejected exactly when its fourth field is the all-zero MAC, and otherwise gives the entry of its first six fields in column order; the fields are single words |
| ArpTable.ParseRenderedLine | android/app/src/main/kotlin/com/example/android_wifi_scanner/ArpScanner.kt:93-113 | a row built from an entry parses back to that entry, trailing extra columns ignored, unless its MAC is the all-zero one |
| ArpTable.ParsePaddedLine | android/app/src/main/kotlin/com/example/android_wifi_scanner/ArpScanner.kt:93-113 | a row as the kernel prints it, with columns padded by runs of white space, indentation, extra columns and trailing white space, parses back to its entry unless its MAC is the all-zero one |
| ArpTable.ParseArpTable | android/app/src/main/kotlin/com/example/android_wifi_scanner/ArpScanner.kt:49-62 | the header line is never parsed; the entries are the parsed rows after it, and contain exactly the accepted rows |
| ArpTable.ParseRowsAppend | android/app/src/main/kotlin/com/example/android_wifi_scanner/ArpScanner.kt:56-61 | the entries follow the rows: parsing distributes over concatenation, giving one entry per accepted row in table order, repeats kept |
| ArpTable.ParseRowsCons | android/app/src/main/kotlin/com/example/android_wifi_scanner/ArpScanner.kt:56-61 | a row gives its entry when it is accepted and nothing otherwise |
| ArpTable.ParseRows | android/app/src/main/kotlin/com/example/android_wifi_scanner/ArpScanner.kt:56-61 | at most one entry per row, and no row lost exactly when every row is accepted |
| ArpTable.ParseRowsSound | android/app/src/main/kotlin/com/example/android_wifi_scanner/ArpScanner.kt:56-61 | every entry is the parse of some row |
| ArpTable.ParseRowsComplete | android/app/src/main/kotlin/com/example/android_wifi_scanner/ArpScanner.kt:56-61 | every accepted row's entry is among the entries |
| ArpTable.ScanArpTable | android/app/src/main/kotlin/com/example/android_wifi_scanner/ArpScanner.kt:33-86 | after a scan the permission is known; it is granted exactly when the table could be read, a missing or unopenable table gives no entries, and rows read before a failure are kept |
| ArpTable.IsArpScanAvailable | android/app/src/main/kotlin/com/example/android_wifi_scanner/ArpScanner.kt:246-252 | an unknown permission is settled by one test scan, a known one is kept, and scanning is available exactly when the permission is granted |
| ArpTable.FindDuplicateMacs | android/app/src/main/kotlin/com/example/android_wifi_scanner/ArpScanner.kt:170-182 | some MAC is reported exactly when two entries share one; every MAC on two or more entries is reported; each reported MAC lists exactly its entries' addresses, and no MAC is reported twice |
| ArpTable.DuplicateRowsReported | android/app/src/main/kotlin/com/example/android_wifi_scanner/ArpScanner.kt:170-182 | for any two rows with the same MAC, that MAC is reported and its list holds both rows' addresses |
| ArpTable.MacAt | android/app/src/main/kotlin/com/example/android_wifi_scanner/ArpScanner.kt:188-189 | the lookup by address finds nothing exactly when no row has that address |
| ArpTable.MacAtIsLastRow | android/app/src/main/kotlin/com/example/android_wifi_scanner/ArpScanner.kt:188-189 | a hardware address found for an address is the one on the last row for that address |
| ArpTable.ChangesFor | android/app/src/main/kotlin/com/example/android_wifi_scanner/ArpScanner.kt:193-206 | every change record is for a listed address present in both snapshots with different MACs, and every such address gets one |
| ArpTable.FindChangedMacs | android/app/src/main/kotlin/com/example/android_wifi_scanner/ArpScanner.kt:187-209 | an address is reported as changed exactly when it appears in both snapshots with different MACs, each such address once; new or vanished addresses are never reported |
| ArpTable.DetectArpSpoofing | android/app/src/main/kotlin/com/example/android_wifi_scanner/ArpScanner.kt:119-165 | a denied permission gives the safe result flagged as denied; otherwise the duplicates are `FindDuplicateMacs` of the table, the changes are `FindChangedMacs` against the earlier snapshot (none without one), and spoofing is detected exactly when a MAC is shared or, with an earlier snapshot, a MAC moved |
| ArpTable.GatewayMac | android/app/src/main/kotlin/com/example/android_wifi_scanner/ArpScanner.kt:214-217 | the gateway's MAC is that of the first entry with the gateway address, or none |
| ArpTable.IsGatewayCompromised | android/app/src/main/kotlin/com/example/android_wifi_scanner/ArpScanner.kt:223-241 | the gateway is compromised exactly when the permission is not denied, both MACs are known and they differ |
| Grouping.KeysInOrder | android/app/src/main/kotlin/com/example/android_wifi_scanner/ArpScanner.kt:171-176 | the keys of the grouping map are exactly the keys that occur, each once |
| Grouping.Repeated | android/app/src/main/kotlin/com/example/android_wifi_scanner/ArpScanner.kt:179-181 | a key keeps its group exactly when at least two entries carry it, with its members in input order |
| Grouping.MembersOfAppend | android/app/src/main/kotlin/com/example/android_wifi_scanner/ArpScanner.kt:176 | a key's list collects its values in input order, repeats kept: it distributes over concatenation |
| Grouping.MembersOfSnoc | android/app/src/main/kotlin/com/example/android_wifi_scanner/ArpScanner.kt:176 | a pair adds its value to the end of its key's list and to no other |
| Grouping.MembersComplete | android/app/src/main/kotlin/com/example/android_wifi_scanner/ArpScanner.kt:176 | every value paired with a key is on that key's list |
| Grouping.MembersAtLeastTwo | android/app/src/main/kotlin/com/example/android_wifi_scanner/ArpScanner.kt:180 | a key has two members exactly when two different positions carry it |
| Grouping.SomeRepeatedIff | android/app/src/main/kotlin/com/example/android_wifi_scanner/ArpScanner.kt:179-181 | some group survives the filter exactly when two positions share a key |
| LocalScan.HostAddressInjective | android/app/src/main/kotlin/com/example/android_wifi_scanner/NetworkScanner.kt:46-49 | different last octets give different host addresses in the same subnet |
| LocalScan.Subnet | android/app/src/main/kotlin/com/example/android_wifi_scanner/NetworkScanner.kt:98-117 | the subnet text exists exactly when the address does, and it is the address without its last octet |
| LocalScan.GatewayIp | android/app/src/main/kotlin/com/example/android_wifi_scanner/NetworkScanner.kt:122-139 | the gateway text is the dotted rendering of the gateway address when it is available |
| LocalScan.SweepFrom | android/app/src/main/kotlin/com/example/android_wifi_scanner/NetworkScanner.kt:46-54 | the sweep keeps exactly the reachable hosts, each at its own address in the subnet, with no address twice |
| LocalScan.ScanNetwork | android/app/src/main/kotlin/com/example/android_wifi_scanner/NetworkScanner.kt:34-58 | no subnet gives no devices; otherwise exactly the reachable hosts 1 to 254 of the subnet, at most 254 and each address once |
| LocalScan.UnseenMembers | android/app/src/main/kotlin/com/example/android_wifi_scanner/NetworkScanner.kt:154-162 | the new devices are exactly those whose address the earlier snapshot lacks |
| LocalScan.UnseenAppend | android/app/src/main/kotlin/com/example/android_wifi_scanner/NetworkScanner.kt:154-162 | the new devices keep the current order and repeats: the filter distributes over concatenation |
| LocalScan.UnseenCons | android/app/src/main/kotlin/com/example/android_wifi_scanner/NetworkScanner.kt:154-162 | one device is kept exactly when its address is not among the earlier snapshot's |
| LocalScan.FastResponders | android/app/src/main/kotlin/com/example/android_wifi_scanner/NetworkScanner.kt:166 | the fast responders are exactly the devices answering in under 5 ms |
| LocalScan.FastRespondersAppend | android/app/src/main/kotlin/com/example/android_wifi_scanner/NetworkScanner.kt:166 | the fast responders keep the sweep order and repeats: the filter distributes over concatenation, so their count is the number of fast answers |
| LocalScan.FastRespondersCons | android/app/src/main/kotlin/com/example/android_wifi_scanner/NetworkScanner.kt:166 | one device is kept exactly when it answered in under 5 ms |
| LocalScan.OtherThan | android/app/src/main/kotlin/com/example/android_wifi_scanner/NetworkScanner.kt:168-173 | the flagged addresses are exactly the addresses of the given devices other than the gateway |
| LocalScan.OtherThanAppend | android/app/src/main/kotlin/com/example/android_wifi_scanner/NetworkScanner.kt:168-173 | dropping the gateway distributes over concatenation, so the flagged addresses keep the devices' order and repeats |
| LocalScan.OtherThanCons | android/app/src/main/kotlin/com/example/android_wifi_scanner/NetworkScanner.kt:168-173 | one device contributes its address exactly when it is not the gateway |
| LocalScan.DetectSuspiciousDevices | android/app/src/main/kotlin/com/example/android_wifi_scanner/NetworkScanner.kt:145-185 | no earlier snapshot means no new devices, and with one the new devices are the unseen current devices in order; the flagged devices are the fast responders other than the gateway when the gateway is known and more than one device is fast, and none otherwise; a threat is reported exactly when there are flagged devices, which happens exactly when the gateway is known, more than one device is fast and some fast device is not the gateway |
| Gateway.WarmUp | android/app/src/main/kotlin/com/example/android_wifi_scanner/EnhancedNetworkScanner.kt:199-218 | warm-up sends between one and five probes, stops at the first one under 2000 ms, and reports the chip awake exactly when such a probe exists |
| Gateway.Samples | android/app/src/main/kotlin/com/example/android_wifi_scanner/EnhancedNetworkScanner.kt:221-230 | the samples are the completed probes; there are none exactly when every probe failed |
| Gateway.SamplesAppend | android/app/src/main/kotlin/com/example/android_wifi_scanner/EnhancedNetworkScanner.kt:221-230 | the samples are the completed probes' latencies in probe order, one per completed probe: the collection distributes over concatenation |
| Gateway.SamplesSnoc | android/app/src/main/kotlin/com/example/android_wifi_scanner/EnhancedNetworkScanner.kt:221-230 | a completed probe adds its latency at the end, a failed one adds nothing |
| Gateway.Kept | android/app/src/main/kotlin/com/example/android_wifi_scanner/EnhancedNetworkScanner.kt:259 | the filtered samples are exactly the raw samples within two standard deviations of the mean |
| Gateway.KeptAppend | android/app/src/main/kotlin/com/example/android_wifi_scanner/EnhancedNetworkScanner.kt:259 | the filter keeps sample order and repeats (it distributes over concatenation), so mean and variance see each kept sample as often as it occurred |
| Gateway.KeptSnoc | android/app/src/main/kotlin/com/example/android_wifi_scanner/EnhancedNetworkScanner.kt:259 | a sample is kept exactly when it lies within two standard deviations of the mean |
| Gateway.MeanBetween | android/app/src/main/kotlin/com/example/android_wifi_scanner/EnhancedNetworkScanner.kt:268-270 | the average lies between the minimum and the maximum |
| Gateway.Mean | android/app/src/main/kotlin/com/example/android_wifi_scanner/EnhancedNetworkScanner.kt:257 | the mean is never negative, and the mean times the number of samples is their sum, as `average()` gives it |
| Gateway.Variance | android/app/src/main/kotlin/com/example/android_wifi_scanner/EnhancedNetworkScanner.kt:258 | the variance (the squared `stdDev`) is never negative, and times the number of samples it is the sum of squared deviations from the mean |
| Gateway.DeviationsZero | android/app/src/main/kotlin/com/example/android_wifi_scanner/EnhancedNetworkScanner.kt:258 | the squared deviations from `m` vanish exactly when every sample equals `m` |
| Gateway.VarianceZero | android/app/src/main/kotlin/com/example/android_wifi_scanner/EnhancedNetworkScanner.kt:258 | the variance is 0 exactly when every sample equals the mean |
| Gateway.WithinTwoSigma | android/app/src/main/kotlin/com/example/android_wifi_scanner/EnhancedNetworkScanner.kt:259 | a sample can pass only when the variance is non-negative, and a sample equal to the mean passes exactly then |
| Gateway.TwoSigmaIsDistance | android/app/src/main/kotlin/com/example/android_wifi_scanner/EnhancedNetworkScanner.kt:259 | for `sd` the non-negative root of the variance, the squared test is exactly `abs(x - mean) <= 2 * sd` |
| Gateway.DroppedFewerThanQuarter | android/app/src/main/kotlin/com/example/android_wifi_scanner/EnhancedNetworkScanner.kt:256-259 | the two-sigma filter drops nothing or fewer than a quarter of the samples |
| Gateway.FilterKeepsEnough | android/app/src/main/kotlin/com/example/android_wifi_scanner/EnhancedNetworkScanner.kt:259-266 | with three or more samples the filter keeps at least three, and with fewer it keeps them all, so the raw fall-back never changes the final samples |
| Gateway.FinalSamples | android/app/src/main/kotlin/com/example/android_wifi_scanner/EnhancedNetworkScanner.kt:266 | the final samples are never empty and are the two-sigma filtered ones |
| Gateway.AnalyzeGateway | android/app/src/main/kotlin/com/example/android_wifi_scanner/EnhancedNetworkScanner.kt:194-298 | an analysis exists exactly when the gateway is known; all probes failing gives the unreachable result with every statistic zero; a partial failure means 1 to 11 of 15 probes completed; min <= avg <= max; high latency means avg > 100 and high variance means standard deviation > 40 |
| Gateway.RoutingAnomaly | android/app/src/main/kotlin/com/example/android_wifi_scanner/EnhancedNetworkScanner.kt:325-348 | an anomaly is reported exactly when the gateway is known, both latencies were measured and the gateway latency exceeds 0.8 times the external one |
| Gateway.Truncate | android/app/src/main/kotlin/com/example/android_wifi_scanner/EnhancedNetworkScanner.kt:94 | `toInt` truncates toward zero |
| Gateway.Ladder | android/app/src/main/kotlin/com/example/android_wifi_scanner/EnhancedNetworkScanner.kt:79-102 | the latency ladder yields at most one finding: unreachable, else intermittent, else very high latency (> 150 ms), else high latency, the first that applies |
| Gateway.GatewayFindings | android/app/src/main/kotlin/com/example/android_wifi_scanner/EnhancedNetworkScanner.kt:79-115 | at most one ladder finding, inconsistent performance exactly with high variance, the combined MITM note exactly with high latency and high variance, no finding twice |
| Gateway.Findings | android/app/src/main/kotlin/com/example/android_wifi_scanner/EnhancedNetworkScanner.kt:79-126 | the gateway findings, or the analysis-failure note when there is no analysis, followed by the routing note exactly when routing is anomalous |
| Gateway.ComprehensiveScan | android/app/src/main/kotlin/com/example/android_wifi_scanner/EnhancedNetworkScanner.kt:68-143 | the score is the points of the findings clamped to [0,100], a threat is detected exactly when the score is at least 50, and the messages are the findings' messages in order |
| Gateway.TotalPointsAppend | android/app/src/main/kotlin/com/example/android_wifi_scanner/EnhancedNetworkScanner.kt:83-125 | the points of consecutive findings add up |
| Gateway.GatewayPointsBound | android/app/src/main/kotlin/com/example/android_wifi_scanner/EnhancedNetworkScanner.kt:79-115 | a consistent analysis scores between 0 and 75 points |
| Gateway.ScoreNeverCapped | android/app/src/main/kotlin/com/example/android_wifi_scanner/EnhancedNetworkScanner.kt:129 | the raw total is at most 95, so the clamp to 100 never changes it |
| Gateway.UnreachableGatewayIsThreat | android/app/src/main/kotlin/com/example/android_wifi_scanner/EnhancedNetworkScanner.kt:81-83 | an unreachable gateway alone crosses the threat threshold |
| Gateway.NoGatewayIsNoThreat | android/app/src/main/kotlin/com/example/android_wifi_scanner/EnhancedNetworkScanner.kt:116-137 | without a gateway the scan scores 30 and reports no threat |
| Hybrid.TryArpScan | android/app/src/main/kotlin/com/example/android_wifi_scanner/HybridNetworkScanner.kt:122-147 | the ARP devices are the table entries in order, each with its MAC, no host name and the ARP method |
| Hybrid.TryNetworkScan | android/app/src/main/kotlin/com/example/android_wifi_scanner/HybridNetworkScanner.kt:152-168 | the active devices are the swept devices in order, each without a MAC and with the active method; a failed sweep gives none |
| Hybrid.ScanNetwork | android/app/src/main/kotlin/com/example/android_wifi_scanner/HybridNetworkScanner.kt:39-56 | a non-empty table gives exactly the ARP devices, all carrying a MAC; an empty table, readable or not, falls back to the active sweep |
| Hybrid.EmptyTableFallsBack | android/app/src/main/kotlin/com/example/android_wifi_scanner/HybridNetworkScanner.kt:39-56 | a readable table holding only its header is read with permission granted, and still sends the scan to the active sweep |
| Hybrid.MacPairs | android/app/src/main/kotlin/com/example/android_wifi_scanner/HybridNetworkScanner.kt:177-181 | the grouped pairs are exactly the (MAC, address) of devices that have a MAC |
| Hybrid.SharedMacRepeats | android/app/src/main/kotlin/com/example/android_wifi_scanner/HybridNetworkScanner.kt:174-186 | two devices sharing a MAC give a repeated key among the grouped pairs |
| Hybrid.RepeatsShareMac | android/app/src/main/kotlin/com/example/android_wifi_scanner/HybridNetworkScanner.kt:174-186 | a repeated key among the grouped pairs comes from two devices sharing a MAC |
| Hybrid.FindDuplicateMacs | android/app/src/main/kotlin/com/example/android_wifi_scanner/HybridNetworkScanner.kt:174-186 | some group is reported exactly when two devices share a non-null MAC, every group having at least two addresses |
| Hybrid.MacPairsOfWithMac | android/app/src/main/kotlin/com/example/android_wifi_scanner/HybridNetworkScanner.kt:76-78 | dropping MAC-less devices before grouping changes nothing |
| Hybrid.NewDevices | android/app/src/main/kotlin/com/example/android_wifi_scanner/HybridNetworkScanner.kt:88-89 | the new devices are exactly the current ones whose address the earlier snapshot lacks |
| Hybrid.NewDevicesAppend | android/app/src/main/kotlin/com/example/android_wifi_scanner/HybridNetworkScanner.kt:88-89 | the new devices keep the current order and repeats (the filter distributes over concatenation), so their count is the number of new entries |
| Hybrid.NewDevicesCons | android/app/src/main/kotlin/com/example/android_wifi_scanner/HybridNetworkScanner.kt:88-89 | one device is kept exactly when no earlier device had its address |
| Hybrid.WithMac | android/app/src/main/kotlin/com/example/android_wifi_scanner/HybridNetworkScanner.kt:76 | the devices kept are exactly those with a MAC |
| Hybrid.DetectMitmThreats | android/app/src/main/kotlin/com/example/android_wifi_scanner/HybridNetworkScanner.kt:61-117 | the score is the enhanced score plus 40 for a shared MAC plus 15 for more than three new devices, unclamped; a threat exactly at 40 or more; the notes follow the enhanced threats in that order; the ARP method exactly when some device has a MAC |
| Hybrid.MaclessDeviceAddsNothing | android/app/src/main/kotlin/com/example/android_wifi_scanner/HybridNetworkScanner.kt:76-84 | a device without a MAC never changes the duplicate groups or the shared-MAC test, whatever the earlier snapshot; with no earlier snapshot the score is unchanged |
| Hybrid.MacPairsOfMacless | android/app/src/main/kotlin/com/example/android_wifi_scanner/HybridNetworkScanner.kt:76-78 | a device without a MAC adds no pair to group |
| DnsCheck.IsIspDns | android/app/src/main/kotlin/com/example/android_wifi_scanner/DnsChecker.kt:85-89 | as written, with the whole-string match, every accepted text ends with a dot, so a complete address never matches |
| DnsCheck.IspDnsTexts | android/app/src/main/kotlin/com/example/android_wifi_scanner/DnsChecker.kt:85-89 | as written, the texts recognised are exactly the eight fixed prefixes themselves and `172.16.` to `172.31.` |
| DnsCheck.AddressIsNeverIspDns | android/app/src/main/kotlin/com/example/android_wifi_scanner/DnsChecker.kt:85-89 | no text ending in a digit, hence no address, matches an ISP pattern as a whole string |
| DnsCheck.DottedQuadIsNeverIspDns | android/app/src/main/kotlin/com/example/android_wifi_scanner/DnsChecker.kt:85-89 | no rendered IPv4 address is ever recognised as ISP DNS |
| DnsCheck.WholeMatchIsPrefixMatch | android/app/src/main/kotlin/com/example/android_wifi_scanner/DnsChecker.kt:85-89 | the whole-string reading accepts nothing the prefix reading rejects |
| DnsCheck.PrivateResolverMissed | android/app/src/main/kotlin/com/example/android_wifi_scanner/DnsChecker.kt:27 | a private resolver such as 10.0.0.1 matches the pattern as a prefix but not as written |
| DnsCheck.AreDnsServersTrusted | android/app/src/main/kotlin/com/example/android_wifi_scanner/DnsChecker.kt:95-104 | an empty list is never trusted; a list is trusted exactly when some entry is in the six-address set or matches an ISP pattern |
| DnsCheck.TrustOfAddressesIsAllowList | android/app/src/main/kotlin/com/example/android_wifi_scanner/DnsChecker.kt:95-104 | for real addresses trust reduces to the six-address allow list |
| DnsCheck.CurrentDnsServers | android/app/src/main/kotlin/com/example/android_wifi_scanner/DnsChecker.kt:62-80 | an unknown link gives no resolvers; otherwise the list is the link's entries kept when present and non-empty, in link order with repeats (`NonEmptyAddresses`), so it holds exactly those addresses |
| DnsCheck.NonEmptyAddresses | android/app/src/main/kotlin/com/example/android_wifi_scanner/DnsChecker.kt:70-80 | the kept addresses are exactly the present, non-empty ones |
| DnsCheck.NonEmptyAddressesAppend | android/app/src/main/kotlin/com/example/android_wifi_scanner/DnsChecker.kt:70-80 | the filter distributes over concatenation, so link order and repeats are kept |
| DnsCheck.NonEmptyAddressesCons | android/app/src/main/kotlin/com/example/android_wifi_scanner/DnsChecker.kt:70-80 | one entry contributes its address exactly when it is present and non-empty, and nothing otherwise |
| DnsCheck.Classify | android/app/src/main/kotlin/com/example/android_wifi_scanner/DnsChecker.kt:115-155 | successes, suspicious records and failures add up to the names; every suspicious record is a name whose own lookup returned that suspicious answer, and every such name is recorded |
| DnsCheck.ClassifyCounts | android/app/src/main/kotlin/com/example/android_wifi_scanner/DnsChecker.kt:115-155 | the success count and the number of suspicious records are exactly how many names came out clean and suspicious |
| DnsCheck.ClassifyNames | android/app/src/main/kotlin/com/example/android_wifi_scanner/DnsChecker.kt:135-142 | every recorded name is one of the names looked up |
| DnsCheck.ClassifyNoneClean | android/app/src/main/kotlin/com/example/android_wifi_scanner/DnsChecker.kt:144-147 | nothing is counted as a success exactly when no name resolved to a clean answer |
| DnsCheck.ClassifyDistinct | android/app/src/main/kotlin/com/example/android_wifi_scanner/DnsChecker.kt:115-155 | over distinct names, no name is recorded as suspicious twice |
| DnsCheck.Outcomes | android/app/src/main/kotlin/com/example/android_wifi_scanner/DnsChecker.kt:118-154 | each name has exactly one outcome, clean, suspicious or unresolved, decided by its own lookup |
| DnsCheck.TestDnsResolution | android/app/src/main/kotlin/com/example/android_wifi_scanner/DnsChecker.kt:110-179 | four tests; successes, suspicious records and failures add up to the four; every resolved test name with a suspicious answer is recorded, and every record is a test name with a suspicious answer; hijacking exactly when at least two records exist, or some do and nothing succeeded |
| DnsCheck.TestOutcomes | android/app/src/main/kotlin/com/example/android_wifi_scanner/DnsChecker.kt:115-171 | the successes are exactly the clean test names and the records exactly the suspicious ones, so the hijacking verdict is decided by the four lookups' outcomes |
| DnsCheck.TestRecords | android/app/src/main/kotlin/com/example/android_wifi_scanner/DnsChecker.kt:135-142 | each suspicious test name is recorded once, with the answer its own lookup returned |
| DnsCheck.PrivateAnswerForTestDomain | android/app/src/main/kotlin/com/example/android_wifi_scanner/DnsChecker.kt:125-133 | an answer in 192.168. or 10. is always suspicious for the test domains |
| DnsCheck.SuspiciousAddress | android/app/src/main/kotlin/com/example/android_wifi_scanner/DnsChecker.kt:125-133 | for a name containing `local` an answer is suspicious exactly when it is empty or starts with `127.` or `0.0.0.`; for any other name also when it starts with `192.168.` or `10.`; the separate `0.0.0.0` test adds nothing |
| DnsCheck.SuspiciousRenderedAddress | android/app/src/main/kotlin/com/example/android_wifi_scanner/DnsChecker.kt:125-133 | a printed address is suspicious exactly when its first octet is 127, or its first three octets are 0, or, for a name without `local`, it is in 192.168 or 10 |
| DnsCheck.NoLocalInTestDomain | android/app/src/main/kotlin/com/example/android_wifi_scanner/DnsChecker.kt:39-44 | no test domain contains `local` |
| DnsCheck.AllFailedIsNotHijack | android/app/src/main/kotlin/com/example/android_wifi_scanner/DnsChecker.kt:149-171 | when every lookup fails there is no success, no suspicious domain and no hijacking |
| DnsCheck.LastSuccessRate | android/app/src/main/kotlin/com/example/android_wifi_scanner/DnsChecker.kt:54-57 | the rate is 1 before any test, otherwise successes over tests, within [0,1] |
| DnsCheck.RateAfterTest | android/app/src/main/kotlin/com/example/android_wifi_scanner/DnsChecker.kt:157-159 | after a test the rate lies in [0,1] and is zero exactly when no test domain resolved cleanly |
| DnsCheck.PerformDnsSecurityCheck | android/app/src/main/kotlin/com/example/android_wifi_scanner/DnsChecker.kt:184-220 | Critical exactly for hijacking with a non-empty untrusted list, High for other hijacking, Medium for a non-empty untrusted list alone, Low otherwise; a threat exactly for hijacking with an untrusted list or with three suspicious domains |
| DnsCheck.ThreatImpliesHijack | android/app/src/main/kotlin/com/example/android_wifi_scanner/DnsChecker.kt:204-211 | a DNS threat is never reported without hijacking |
| DnsCheck.TrustedResolverCapsVerdict | android/app/src/main/kotlin/com/example/android_wifi_scanner/DnsChecker.kt:192-211 | with an allow-listed resolver the level is Low or High and a threat needs three suspicious domains |
| Certs.ValidateCertificate | android/app/src/main/kotlin/com/example/android_wifi_scanner/CertificateValidator.kt:109-148 | expired exactly outside [notBefore, notAfter]; self-signed exactly when issuer equals subject; hostname match as the three alternatives; valid exactly when neither expired nor self-signed; error priority expired, self-signed, mismatch |
| Certs.HostnameNeverAffectsValidity | android/app/src/main/kotlin/com/example/android_wifi_scanner/CertificateValidator.kt:137-139 | the host name never changes validity |
| Certs.WildcardMatchesEveryHost | android/app/src/main/kotlin/com/example/android_wifi_scanner/CertificateValidator.kt:126-128 | a wildcard subject matches every host |
| Certs.CheckCertificate | android/app/src/main/kotlin/com/example/android_wifi_scanner/CertificateValidator.kt:34-104 | an exception is a network error, reported valid with no self-signed verdict; an empty chain or a non-X.509 leaf is invalid and not a network error; otherwise the leaf's validation decides |
| Certs.StripTallyOf | android/app/src/main/kotlin/com/example/android_wifi_scanner/CertificateValidator.kt:159-173 | a URL is suspicious exactly when its probe showed a self-signed leaf, and successes and suspicious sites together never outnumber the sites |
| Certs.StripTallySuccesses | android/app/src/main/kotlin/com/example/android_wifi_scanner/CertificateValidator.kt:159-173 | every site counts as a success exactly when every leaf is sound and in date, and none does exactly when no leaf is |
| Certs.DetectSslStripping | android/app/src/main/kotlin/com/example/android_wifi_scanner/CertificateValidator.kt:154-186 | two tests; stripping exactly when some probe shows a self-signed leaf; a URL is suspicious exactly when its probe shows a self-signed leaf; both sites succeed exactly when both leaves are sound, and neither does exactly when neither is |
| Certs.StrippingPerSite | android/app/src/main/kotlin/com/example/android_wifi_scanner/CertificateValidator.kt:159-173 | each site adds one success for a sound leaf and its URL for a self-signed one, in site order |
| Certs.StripTallyOfPair | android/app/src/main/kotlin/com/example/android_wifi_scanner/CertificateValidator.kt:159-173 | over two sites, each adds its own success or suspicious URL |
| Certs.InvalidCount | android/app/src/main/kotlin/com/example/android_wifi_scanner/CertificateValidator.kt:203-205 | the invalid count ignores network errors and is zero exactly when every result is valid or a network error |
| Certs.SelfSignedAlsoInvalid | android/app/src/main/kotlin/com/example/android_wifi_scanner/CertificateValidator.kt:203-208 | every self-signed result is also counted as invalid |
| Certs.PerformSslSecurityCheck | android/app/src/main/kotlin/com/example/android_wifi_scanner/CertificateValidator.kt:198-231 | each site is checked once, in order; no invalid certificate exactly when every site threw or has a sound leaf, two exactly when neither does; a threat exactly when some leaf is self-signed; Critical for self-signed, High for stripping, Medium for two invalid, Low otherwise |
| Certs.SslCountsPerSite | android/app/src/main/kotlin/com/example/android_wifi_scanner/CertificateValidator.kt:203-208 | a site that neither threw nor has a sound leaf adds one invalid certificate, and a self-signed leaf adds one self-signed certificate |
| Certs.ResultCounts | android/app/src/main/kotlin/com/example/android_wifi_scanner/CertificateValidator.kt:199-208 | the invalid and self-signed counts of the two checks, site by site, and the zero and two cases they give |
| Certs.CountsOfPair | android/app/src/main/kotlin/com/example/android_wifi_scanner/CertificateValidator.kt:203-208 | over two results, each adds to the invalid and self-signed counts on its own |
| Certs.CheckAll | android/app/src/main/kotlin/com/example/android_wifi_scanner/CertificateValidator.kt:199 | the certificate results of the two test sites, in order |
| Certs.NetworkErrorsAreNeverFindings | android/app/src/main/kotlin/com/example/android_wifi_scanner/CertificateValidator.kt:86-103 | when every probe throws there is no threat and the level is Low |
| Fusion.DnsThreatScore | android/app/src/main/kotlin/com/example/android_wifi_scanner/NetworkSecurityPlugin.kt:99-125 | the DNS score lies in [0,65], is at least 50 on total failure, and is zero exactly when the rate is at least 0.75 and the resolver is accepted or the rate is 1 |
| Fusion.DnsScoreOfSuccesses | android/app/src/main/kotlin/com/example/android_wifi_scanner/NetworkSecurityPlugin.kt:103-125 | the DNS score for each possible number of successes out of four |
| Fusion.DnsBand | android/app/src/main/kotlin/com/example/android_wifi_scanner/NetworkSecurityPlugin.kt:291-301 | one DNS band line exactly when the rate is below 0.75, of rank 0, and the complete-failure line with the test counts exactly at rate 0 |
| Fusion.LaterReasonsMembers | android/app/src/main/kotlin/com/example/android_wifi_scanner/NetworkSecurityPlugin.kt:308-322 | each later reason is present exactly when its condition holds: hijacking, an untrusted resolver with 0 < rate < 1, self-signed certificates with their count, stripping |
| Fusion.LaterReasonsOrdered | android/app/src/main/kotlin/com/example/android_wifi_scanner/NetworkSecurityPlugin.kt:308-322 | the later reasons come in the order hijacking, untrusted resolver, certificates, stripping |
| Fusion.ReasonsBand | android/app/src/main/kotlin/com/example/android_wifi_scanner/NetworkSecurityPlugin.kt:288-301 | some band line is among the reasons exactly when the rate is below 0.75, and the complete-failure line, with the test counts, exactly at rate 0 |
| Fusion.ReasonsLater | android/app/src/main/kotlin/com/example/android_wifi_scanner/NetworkSecurityPlugin.kt:308-322 | among the full reason list, each later reason is present exactly when its condition holds |
| Fusion.Reasons | android/app/src/main/kotlin/com/example/android_wifi_scanner/NetworkSecurityPlugin.kt:288-322 | the reasons come in rank order: DNS band, network threats, hijacking, untrusted resolver, certificates, stripping |
| Fusion.ReasonsCarryNetworkThreats | android/app/src/main/kotlin/com/example/android_wifi_scanner/NetworkSecurityPlugin.kt:304-306 | the network lines among the reasons are exactly the hybrid scanner's threats when it reports a threat, and none otherwise |
| Fusion.ReasonString | android/app/src/main/kotlin/com/example/android_wifi_scanner/NetworkSecurityPlugin.kt:275-329 | an outage has its own text; no reasons give the all-clear text; otherwise the text starts with the first reason's text and contains the text of every reason |
| Fusion.NoReasonsIffQuiet | android/app/src/main/kotlin/com/example/android_wifi_scanner/NetworkSecurityPlugin.kt:288-328 | the all-clear text appears exactly when the rate is at least 0.75, there are no network threats, no hijacking, no untrusted failing resolver, no self-signed certificate and no stripping |
| Fusion.PrimaryType | android/app/src/main/kotlin/com/example/android_wifi_scanner/NetworkSecurityPlugin.kt:159-165 | each detection type holds exactly when it is the first applicable in the order outage, hijacking, anomaly, self-signed |
| Fusion.DetectMitm | android/app/src/main/kotlin/com/example/android_wifi_scanner/NetworkSecurityPlugin.kt:99-165 | the combined score is clamped to [0,100]; an outage exactly at score >= 90, rate 0 and network score >= 60, and then never an attack; an attack exactly by the five-way disjunction; the detection type by priority |
| Fusion.OutageIff | android/app/src/main/kotlin/com/example/android_wifi_scanner/NetworkSecurityPlugin.kt:139-141 | an outage happens exactly when the rate is 0 and the network score is at least 60, and then the score is 100 |
| Fusion.DnsOutageOnQuietNetworkIsAnomaly | android/app/src/main/kotlin/com/example/android_wifi_scanner/NetworkSecurityPlugin.kt:150-163 | every lookup failing on a network that scores below 25, without hijacking, is reported as an attack of type network anomaly |
| Fusion.QuietCycleIsSecure | android/app/src/main/kotlin/com/example/android_wifi_scanner/NetworkSecurityPlugin.kt:150-165 | a fully clean cycle is not an attack, has no detection type and reads as the all-clear |
| Fusion.Cycle | android/app/src/main/kotlin/com/example/android_wifi_scanner/NetworkSecurityPlugin.kt:80-101 | after a cycle the remembered devices are this cycle's devices; the score combines this cycle's network and DNS scores; the DNS rate is that of this cycle's test |
| Fusion.FirstCycleHasNoChurn | android/app/src/main/kotlin/com/example/android_wifi_scanner/NetworkSecurityPlugin.kt:86-88 | the first cycle has no earlier snapshot, so churn never counts and the network score is the enhanced score plus 40 for a shared MAC |
| Fusion.SecondCycleDiffsFirst | android/app/src/main/kotlin/com/example/android_wifi_scanner/NetworkSecurityPlugin.kt:86-88 | the second cycle is compared with exactly the first cycle's devices, and the state after it depends on the second cycle alone |
| Fusion.TotalDnsFailureWithDeadGatewayIsOutage | android/app/src/main/kotlin/com/example/android_wifi_scanner/NetworkSecurityPlugin.kt:99-165 | every lookup failing while the gateway scan scores 60 or more makes an outage, not an attack |

## Left out

- Platform I/O is not modelled; its outcomes are inputs. This covers:
  - socket connects and the port 80 to 443 retry in `measureLatency`;
  - `InetAddress` reachability, host names and lookups;
  - `HttpsURLConnection`;
  - reading `/proc/net/arp`;
  - the `WifiManager` and `ConnectivityManager` queries.
- Coroutines are not modelled. The parallel sweep of 254 hosts is a filter over one probe outcome per host, and the collected order is host order.
- Threads, Flutter `MethodChannel` handlers, response maps, notifications, and joining or leaving networks are not modelled: they carry no decision logic.
- The Wi-Fi scan-results receiver in `MainActivity` is not modelled. It only copies platform fields into a map.
- Logging is not modelled. MitmDebugLogger.kt is not part of this model: it only writes logs, and its verdict is never returned.
- VpnDetectionPlugin.kt, scan_arp.py and the Gradle build files are not part of this model. They are a platform query, an external packet sniffer and build configuration.
- `EnhancedNetworkScanner.scanNetwork` is not modelled: its only effect on the result is the device count, which is an input of `Gateway.ComprehensiveScan`.
- Floating point is not modelled: rates and latency statistics are exact reals, and the model takes the exact-real reading of every comparison. IEEE double rounding can decide ties differently. The two-sigma test compares a rounded square root, so a sample lying exactly at two standard deviations (for instance 129 among 20, 20, 20, 20, 129) is kept in exact arithmetic but can be dropped in doubles, which then changes the final deviation and the score. The same holds for a standard deviation of exactly 40. The routing comparison `g > 0.8 * e` becomes `5g > 4e`.
- Certificate probes are two independent input lists, because the app runs `checkCertificate` twice: once in `detectSslStripping` and once in `performSslSecurityCheck`.
- Dates are whole numbers, and X.500 names are their string form. Comparing principals for equality becomes comparing those strings.
- `Certs.ValidateCertificate`: takes the time as a parameter `now`, and one reading is shared by all four certificate checks of a cycle. The source reads the clock (`Date()`) afresh in each `validateCertificate` call (`CertificateValidator.kt:110`). A certificate whose `notAfter` falls between two of those readings may be judged differently by the source than by the model.
- URL parsing is not modelled. Each test URL carries its host as a constant.
- `Certs.CheckCertificate`: the error texts that embed an exception's message are modelled only as far as the exception kind. The fields copied from the leaf certificate are kept.
- `DnsCheck.TestDnsResolution`: the `expectedPrefixes` and `error` fields of a suspicious resolution are left out, because they are always empty or unset.
- `ArpTable.ParseArpLine`: Kotlin's `trim()` removes all Unicode white space, while the model trims only the six characters of the `\s` class (space, tab, line feed, vertical tab, form feed, carriage return). The two differ only on other white-space characters.
- `NetworkInfo.EncryptionLabel`: the label is chosen only for the scan result whose SSID matches. Finding that scan result is a platform query, and so is the "Unknown" the app reports when no scan result matches or the query throws; neither is modelled.
- `NetworkInfo.CurrentNetwork`: the platform's own quoting rules are not modelled. An SSID is any string.
- `NetworkInfo.IntToIp`: `String.format("%d.%d.%d.%d", ...)` uses the default locale, which prints non-ASCII digits under some locales (Arabic, Persian). The model assumes ASCII digits. Under such a locale the `"0.0.0.0"` test on DNS entries would never match.
- `LocalScan.Subnet`: the same locale assumption as `NetworkInfo.IntToIp`.
- `LocalScan.GatewayIp`: the same locale assumption as `NetworkInfo.IntToIp`.
- `Text.ParseInt`: Kotlin's `toIntOrNull` accepts any Unicode decimal digit, while the model reads ASCII digits only.
- `Text.ContainsIgnoreCase`: case folding covers ASCII letters only. Kotlin's `ignoreCase` also folds characters such as the dotless i, the long s and the Kelvin sign. The text searched for is `CN=` followed by `www.google.com`, `www.cloudflare.com` or `*.`, which contains none of the letters i, k and s that those characters fold to. In any case the host match never changes validity (`Certs.HostnameNeverAffectsValidity`), so `Certs.ValidateCertificate` only differs in its reported mismatch.
- `Fusion.ReasonString`: the contract pins the all-clear and outage texts exactly, but for a non-empty reason list it only states that the text starts with the first reason and contains every reason's text, not the exact `"; "`-joined string. `Fusion.Reasons`, `Fusion.ReasonsBand` and `Fusion.ReasonsLater` state the order and content of the list.

=== FILE: arp_table.dfy ===
/**
 * The kernel neighbour (ARP) table reader and the spoofing checks built on
 * it. Reading `/proc/net/arp` is an input (`ArpSource`); the three-valued
 * permission flag the scanner keeps between calls is `Permission`.
 */
module ArpTable {
  import opened Base
  import opened Text
  import Grouping

  /** The scanner's `hasArpPermission: Boolean?`. */
  datatype Permission = Unknown | Granted | Denied

  datatype ArpEntry = ArpEntry(ipAddress: string, hwType: string, flags: string,
                               macAddress: string, mask: string, device: string)

  /** What happened when the table file was read; `lines` include the header. */
  datatype ArpSource =
    | NotFound                              // the file does not exist
    | OpenFailed                            // opening threw (permission, I/O, other)
    | ReadFailed(linesRead: seq<string>)    // a read threw after these lines
    | Read(lines: seq<string>)              // the whole file

  datatype ArpScan = ArpScan(entries: seq<ArpEntry>, permission: Permission)

  datatype DuplicateMac = DuplicateMac(macAddress: string, ipAddresses: seq<string>)
  datatype ChangedMac = ChangedMac(ipAddress: string, oldMac: string, newMac: string)

  datatype ArpSpoofingResult = ArpSpoofingResult(
    spoofingDetected: bool,
    duplicateMacs: seq<DuplicateMac>,
    changedMacs: seq<ChangedMac>,
    totalEntries: nat,
    permissionDenied: bool)

  /** An unresolved neighbour: the kernel has no hardware address yet. */
  const IncompleteMac := "00:00:00:00:00:00"

  // ------------------------------------------------------------ parsing

  /** One row of the table: six whitespace-separated columns, extras ignored. */
  function ParseArpLine(line: string): (r: Option<ArpEntry>)
    ensures |Fields(line)| < 6 ==> r == None
    ensures |Fields(line)| >= 6 ==>
              r == (if Fields(line)[3] == IncompleteMac then None
                    else Some(ArpEntry(Fields(line)[0], Fields(line)[1], Fields(line)[2],
                                       Fields(line)[3], Fields(line)[4], Fields(line)[5])))
    ensures r.Some? ==> r.value.macAddress != IncompleteMac
    ensures r.Some? ==> IsWord(r.value.ipAddress) && IsWord(r.value.macAddress) && IsWord(r.value.device)
  {
    var parts := Fields(line);
    if |parts| < 6 then None
    else if parts[3] == IncompleteMac then None
    else
      assert |Tokens(line)| > 0;
      Some(ArpEntry(parts[0], parts[1], parts[2], parts[3], parts[4], parts[5]))
  }

  /** The row the kernel prints for an entry (single spaces between columns). */
  function RenderArpLine(e: ArpEntry): string
  {
    Join([e.ipAddress, e.hwType, e.flags, e.macAddress, e.mask, e.device], " ")
  }

  predicate WellFormedEntry(e: ArpEntry)
  {
    IsWord(e.ipAddress) && IsWord(e.hwType) && IsWord(e.flags)
    && IsWord(e.macAddress) && IsWord(e.mask) && IsWord(e.device)
  }

  /**
   * Parsing a printed row gives the entry back, whatever trailing columns
   * follow it, unless the row is an unresolved one.
   */
  lemma ParseRenderedLine(e: ArpEntry, extra: string)
    requires WellFormedEntry(e)
    ensures ParseArpLine(RenderArpLine(e)) == (if e.macAddress == IncompleteMac then None else Some(e))
    ensures ParseArpLine(RenderArpLine(e) + " " + extra) == (if e.macAddress == IncompleteMac then None else Some(e))
  {
    var words := [e.ipAddress, e.hwType, e.flags, e.macAddress, e.mask, e.device];
    TokensJoin(words);
    TokensJoinThenMore(words, extra);
    var more := words + Tokens(extra);
    assert more[..6] == words;
  }

  /** The six columns of an entry, in the order the kernel prints them. */
  function Columns(e: ArpEntry): seq<string>
  {
    [e.ipAddress, e.hwType, e.flags, e.macAddress, e.mask, e.device]
  }

  /**
   * The rows the kernel actually prints: columns padded with runs of
   * white space, possibly indented, possibly followed by extra columns and
   * trailing white space. Such a row parses to its entry unless it is an
   * unresolved one.
   */
  lemma ParsePaddedLine(e: ArpEntry, extra: seq<string>, lead: string, gaps: seq<string>)
    requires WellFormedEntry(e)
    requires forall i :: 0 <= i < |extra| ==> IsWord(extra[i])
    requires IsBlank(lead)
    requires Separators(gaps, 6 + |extra|)
    ensures ParseArpLine(lead + Spaced(Columns(e) + extra, gaps)) ==
              (if e.macAddress == IncompleteMac then None else Some(e))
  {
    var words := Columns(e) + extra;
    forall i | 0 <= i < |words|
      ensures IsWord(words[i])
    {
      if i >= 6 {
        assert words[i] == extra[i - 6];
      }
    }
    TokensOfSpaced(lead, words, gaps);
    assert Tokens(lead + Spaced(words, gaps))[..6] == Columns(e);
  }

  /**
   * Every row, parsed, with the rejected rows dropped: one entry per row at
   * most, and no row lost exactly when every row is accepted.
   */
  function ParseRows(rows: seq<string>): (r: seq<ArpEntry>)
    ensures |r| <= |rows|
    ensures |r| == |rows| <==> forall i :: 0 <= i < |rows| ==> ParseArpLine(rows[i]).Some?
    decreases |rows|
  {
    if |rows| == 0 then []
    else
      assert forall i :: 1 <= i < |rows| ==> rows[1..][i - 1] == rows[i];
      match ParseArpLine(rows[0])
      case Some(e) => [e] + ParseRows(rows[1..])
      case None => ParseRows(rows[1..])
  }

  /**
   * `ParseRows` keeps the accepted rows in table order, one entry each: it
   * distributes over concatenation (and `ParseRowsCons` decides each row).
   */
  lemma {:induction false} ParseRowsAppend(a: seq<string>, b: seq<string>)
    ensures ParseRows(a + b) == ParseRows(a) + ParseRows(b)
    decreases |a|
  {
    if |a| == 0 {
      assert a + b == b;
    } else {
      assert a + b == [a[0]] + (a[1..] + b);
      ParseRowsCons(a[0], a[1..] + b);
      ParseRowsAppend(a[1..], b);
    }
  }

  /** A row gives its entry when it is accepted and nothing otherwise. */
  lemma ParseRowsCons(x: string, rest: seq<string>)
    ensures ParseRows([x] + rest) == (if ParseArpLine(x).Some? then [ParseArpLine(x).value] else []) + ParseRows(rest)
  {
    assert ([x] + rest)[1..] == rest;
  }

  /** Every parsed entry comes from some row. */
  lemma {:induction false} ParseRowsSound(rows: seq<string>)
    ensures forall e :: e in ParseRows(rows) ==> exists i :: 0 <= i < |rows| && ParseArpLine(rows[i]) == Some(e)
    decreases |rows|
  {
    if |rows| > 0 {
      var rest := ParseRows(rows[1..]);
      ParseRowsSound(rows[1..]);
      forall e | e in ParseRows(rows)
        ensures exists i :: 0 <= i < |rows| && ParseArpLine(rows[i]) == Some(e)
      {
        if e in rest {
          var i :| 0 <= i < |rows[1..]| && ParseArpLine(rows[1..][i]) == Some(e);
          assert ParseArpLine(rows[i + 1]) == Some(e);
        } else {
          assert ParseArpLine(rows[0]) == Some(e);
        }
      }
    }
  }

  /** Every accepted row gives an entry. */
  lemma {:induction false} ParseRowsComplete(rows: seq<string>)
    ensures forall i :: 0 <= i < |rows| && ParseArpLine(rows[i]).Some? ==> ParseArpLine(rows[i]).value in ParseRows(rows)
    decreases |rows|
  {
    if |rows| > 0 {
      ParseRowsComplete(rows[1..]);
      forall i | 0 <= i < |rows| && ParseArpLine(rows[i]).Some?
        ensures ParseArpLine(rows[i]).value in ParseRows(rows)
      {
        if i > 0 {
          assert rows[i] == rows[1..][i - 1];
        }
      }
    }
  }

  /** The header line is skipped unread; an empty file yields nothing. */
  function ParseArpTable(lines: seq<string>): (r: seq<ArpEntry>)
    ensures |lines| <= 1 ==> r == []
    ensures |lines| >= 1 ==> r == ParseRows(lines[1..])
    ensures forall e :: e in r ==> exists i :: 1 <= i < |lines| && ParseArpLine(lines[i]) == Some(e)
    ensures forall i :: 1 <= i < |lines| && ParseArpLine(lines[i]).Some? ==> ParseArpLine(lines[i]).value in r
  {
    if |lines| == 0 then []
    else
      var r := ParseRows(lines[1..]);
      ParseRowsSound(lines[1..]);
      ParseRowsComplete(lines[1..]);
      assert forall i :: 1 <= i < |lines| ==> lines[i] == lines[1..][i - 1];
      assert forall e :: e in r ==> exists i :: 1 <= i < |lines| && ParseArpLine(lines[i]) == Some(e) by {
        forall e | e in r
          ensures exists i :: 1 <= i < |lines| && ParseArpLine(lines[i]) == Some(e)
        {
          var i :| 0 <= i < |lines[1..]| && ParseArpLine(lines[1..][i]) == Some(e);
          assert ParseArpLine(lines[i + 1]) == Some(e);
        }
      }
      r
  }

  /**
   * `scanArpTable`: the flag ends up decided on every path; it is granted
   * exactly when the file was opened and read to the end. Rows parsed before
   * a read failure are still returned.
   */
  function ScanArpTable(src: ArpSource): (r: ArpScan)
    ensures r.permission != Unknown
    ensures r.permission == Granted <==> src.Read?
    ensures (src.NotFound? || src.OpenFailed?) ==> r.entries == []
    ensures src.Read? ==> r.entries == ParseArpTable(src.lines)
    ensures src.ReadFailed? ==> r.entries == ParseArpTable(src.linesRead)
  {
    match src
    case NotFound => ArpScan([], Denied)
    case OpenFailed => ArpScan([], Denied)
    case ReadFailed(lines) => ArpScan(ParseArpTable(lines), Denied)
    case Read(lines) => ArpScan(ParseArpTable(lines), Granted)
  }

  /**
   * `isArpScanAvailable`: an undecided flag is settled by a trial scan of
   * `src`; the answer is the settled flag together with its value.
   */
  function IsArpScanAvailable(perm: Permission, src: ArpSource): (r: (bool, Permission))
    ensures perm != Unknown ==> r.1 == perm
    ensures r.1 != Unknown
    ensures r.0 <==> (perm == Granted || (perm == Unknown && src.Read?))
  {
    var settled := if perm == Unknown then ScanArpTable(src).permission else perm;
    (settled == Granted, settled)
  }

  // ------------------------------------------------------- comparisons

  function MacPairs(entries: seq<ArpEntry>): (r: seq<(string, string)>)
    ensures |r| == |entries|
    ensures forall i :: 0 <= i < |entries| ==> r[i] == (entries[i].macAddress, entries[i].ipAddress)
  {
    seq(|entries|, i requires 0 <= i < |entries| => (entries[i].macAddress, entries[i].ipAddress))
  }

  function IpPairs(entries: seq<ArpEntry>): (r: seq<(string, string)>)
    ensures |r| == |entries|
    ensures forall i :: 0 <= i < |entries| ==> r[i] == (entries[i].ipAddress, entries[i].macAddress)
  {
    seq(|entries|, i requires 0 <= i < |entries| => (entries[i].ipAddress, entries[i].macAddress))
  }

  /** Two rows carry the same hardware address. */
  predicate SharesMac(entries: seq<ArpEntry>)
  {
    exists i, j :: 0 <= i < j < |entries| && entries[i].macAddress == entries[j].macAddress
  }

  function ToDuplicates(gs: seq<Grouping.Group>): (r: seq<DuplicateMac>)
    ensures |r| == |gs|
    ensures forall i :: 0 <= i < |gs| ==> r[i] == DuplicateMac(gs[i].key, gs[i].members)
  {
    seq(|gs|, i requires 0 <= i < |gs| => DuplicateMac(gs[i].key, gs[i].members))
  }

  /**
   * The hardware addresses seen on two or more rows, each listed once with
   * every address it answers for, in table order.
   */
  function FindDuplicateMacs(entries: seq<ArpEntry>): (r: seq<DuplicateMac>)
    ensures |r| > 0 <==> SharesMac(entries)
    ensures forall d :: d in r ==> |d.ipAddresses| >= 2 && d.ipAddresses == Grouping.MembersOf(MacPairs(entries), d.macAddress)
    ensures forall i, j :: 0 <= i < j < |r| ==> r[i].macAddress != r[j].macAddress
    ensures forall m :: |Grouping.MembersOf(MacPairs(entries), m)| >= 2 ==> exists d :: d in r && d.macAddress == m
  {
    var gs := Grouping.Repeated(MacPairs(entries));
    Grouping.SomeRepeatedIff(MacPairs(entries));
    SharesMacIff(entries);
    DuplicatesFromGroups(gs);
    forall m | |Grouping.MembersOf(MacPairs(entries), m)| >= 2
      ensures exists d :: d in ToDuplicates(gs) && d.macAddress == m
    {
      var g :| g in gs && g.key == m;
      var i :| 0 <= i < |gs| && gs[i] == g;
      assert ToDuplicates(gs)[i] in ToDuplicates(gs);
    }
    ToDuplicates(gs)
  }

  /**
   * Two rows with the same hardware address: that address is reported, and
   * its list holds both rows' addresses.
   */
  lemma DuplicateRowsReported(entries: seq<ArpEntry>, i: int, j: int)
    requires 0 <= i < j < |entries| && entries[i].macAddress == entries[j].macAddress
    ensures exists d :: d in FindDuplicateMacs(entries) && d.macAddress == entries[i].macAddress
              && entries[i].ipAddress in d.ipAddresses && entries[j].ipAddress in d.ipAddresses
  {
    var pairs := MacPairs(entries);
    var m := entries[i].macAddress;
    Grouping.MembersAtLeastTwo(pairs, m);
    assert 0 <= i < j < |pairs| && pairs[i].0 == m && pairs[j].0 == m;
    assert |Grouping.MembersOf(pairs, m)| >= 2;
    Grouping.MembersComplete(pairs, m);
    var r := FindDuplicateMacs(entries);
    assert exists d :: d in r && d.macAddress == m;
    var d :| d in r && d.macAddress == m;
    assert d.ipAddresses == Grouping.MembersOf(pairs, m);
  }

  lemma SharesMacIff(entries: seq<ArpEntry>)
    ensures SharesMac(entries) <==>
              exists i, j :: 0 <= i < j < |MacPairs(entries)| && MacPairs(entries)[i].0 == MacPairs(entries)[j].0
  {
    var pairs := MacPairs(entries);
    if SharesMac(entries) {
      var i, j :| 0 <= i < j < |entries| && entries[i].macAddress == entries[j].macAddress;
      assert pairs[i].0 == pairs[j].0;
    }
  }

  lemma DuplicatesFromGroups(gs: seq<Grouping.Group>)
    ensures forall d :: d in ToDuplicates(gs) ==> exists i :: 0 <= i < |gs| && d == DuplicateMac(gs[i].key, gs[i].members)
  {
    var r := ToDuplicates(gs);
    forall d | d in r
      ensures exists i :: 0 <= i < |gs| && d == DuplicateMac(gs[i].key, gs[i].members)
    {
      var i :| 0 <= i < |r| && r[i] == d;
      assert d == DuplicateMac(gs[i].key, gs[i].members);
    }
  }

  /** Row `i` is the last row of the table for `ip`. */
  predicate LastRow(entries: seq<ArpEntry>, ip: string, i: int)
  {
    0 <= i < |entries| && entries[i].ipAddress == ip
    && forall j :: i < j < |entries| ==> entries[j].ipAddress != ip
  }

  /** `associateBy { it.ipAddress }[ip]?.macAddress`: the last row for `ip` wins. */
  function MacAt(entries: seq<ArpEntry>, ip: string): (r: Option<string>)
    ensures r.None? <==> forall i :: 0 <= i < |entries| ==> entries[i].ipAddress != ip
    decreases |entries|
  {
    if |entries| == 0 then None
    else
      var last := entries[|entries| - 1];
      if last.ipAddress == ip then Some(last.macAddress)
      else
        var r := MacAt(entries[..|entries| - 1], ip);
        assert forall i :: 0 <= i < |entries| - 1 ==> entries[..|entries| - 1][i] == entries[i];
        r
  }

  /** A hardware address found for `ip` is the one on the last row for `ip`. */
  lemma {:induction false} MacAtIsLastRow(entries: seq<ArpEntry>, ip: string)
    ensures MacAt(entries, ip).Some? ==>
              exists i :: LastRow(entries, ip, i) && entries[i].macAddress == MacAt(entries, ip).value
    decreases |entries|
  {
    if |entries| > 0 {
      var n := |entries| - 1;
      if entries[n].ipAddress == ip {
        assert LastRow(entries, ip, n);
      } else {
        var init := entries[..n];
        MacAtIsLastRow(init, ip);
        if MacAt(init, ip).Some? {
          var i :| LastRow(init, ip, i) && init[i].macAddress == MacAt(init, ip).value;
          assert LastRow(entries, ip, i);
        }
      }
    }
  }

  /** For each address of `ips` in turn, a change record when its hardware address moved. */
  function ChangesFor(ips: seq<string>, current: seq<ArpEntry>, previous: seq<ArpEntry>): (r: seq<ChangedMac>)
    ensures forall c :: c in r ==> c.ipAddress in ips
    ensures forall c :: c in r ==> MacAt(current, c.ipAddress) == Some(c.newMac)
                                    && MacAt(previous, c.ipAddress) == Some(c.oldMac) && c.oldMac != c.newMac
    ensures forall ip :: (ip in ips && MacAt(current, ip).Some? && MacAt(previous, ip).Some?
                          && MacAt(current, ip) != MacAt(previous, ip)) ==> exists c :: c in r && c.ipAddress == ip
    decreases |ips|
  {
    if |ips| == 0 then []
    else
      var rest := ChangesFor(ips[1..], current, previous);
      var ip := ips[0];
      match (MacAt(current, ip), MacAt(previous, ip))
      case (Some(now), Some(before)) =>
        if now != before then [ChangedMac(ip, before, now)] + rest else rest
      case _ => rest
  }

  /** Change records for distinct addresses are for distinct addresses. */
  lemma {:induction false} ChangesForDistinct(ips: seq<string>, current: seq<ArpEntry>, previous: seq<ArpEntry>)
    requires forall i, j :: 0 <= i < j < |ips| ==> ips[i] != ips[j]
    ensures forall i, j :: 0 <= i < j < |ChangesFor(ips, current, previous)| ==>
              ChangesFor(ips, current, previous)[i].ipAddress != ChangesFor(ips, current, previous)[j].ipAddress
    decreases |ips|
  {
    if |ips| > 0 {
      ChangesForDistinct(ips[1..], current, previous);
      assert ips[0] !in ips[1..];
      var rest := ChangesFor(ips[1..], current, previous);
      forall j | 0 <= j < |rest|
        ensures rest[j].ipAddress != ips[0]
      {
        assert rest[j] in rest;
      }
    }
  }

  /**
   * Addresses present in both snapshots whose hardware address differs,
   * each reported once.
   */
  function FindChangedMacs(current: seq<ArpEntry>, previous: seq<ArpEntry>): (r: seq<ChangedMac>)
    ensures forall c :: c in r ==> MacAt(current, c.ipAddress) == Some(c.newMac)
                                    && MacAt(previous, c.ipAddress) == Some(c.oldMac) && c.oldMac != c.newMac
    ensures forall i :: 0 <= i < |current| && MacAt(previous, current[i].ipAddress).Some?
                        && MacAt(previous, current[i].ipAddress) != MacAt(current, current[i].ipAddress)
                        ==> exists c :: c in r && c.ipAddress == current[i].ipAddress
    ensures forall i, j :: 0 <= i < j < |r| ==> r[i].ipAddress != r[j].ipAddress
  {
    var pairs := IpPairs(current);
    var ips := Grouping.KeysInOrder(pairs);
    ChangesForDistinct(ips, current, previous);
    forall i | 0 <= i < |current|
      ensures current[i].ipAddress in ips && MacAt(current, current[i].ipAddress).Some?
    {
      assert pairs[i].0 == current[i].ipAddress;
      assert Grouping.HasKey(pairs, current[i].ipAddress);
    }
    ChangesFor(ips, current, previous)
  }

  /** Some address present in both snapshots moved to another hardware address. */
  predicate SomeMacMoved(current: seq<ArpEntry>, previous: seq<ArpEntry>)
  {
    exists i :: 0 <= i < |current| && MacAt(previous, current[i].ipAddress).Some?
                && MacAt(previous, current[i].ipAddress) != MacAt(current, current[i].ipAddress)
  }

  /**
   * `detectArpSpoofing`: a table that could not be read is never evidence;
   * otherwise spoofing is flagged exactly for a shared hardware address or,
   * when there is an earlier snapshot, a moved one.
   */
  function DetectArpSpoofing(perm: Permission, current: seq<ArpEntry>, previous: Option<seq<ArpEntry>>)
    : (r: ArpSpoofingResult)
    ensures perm == Denied ==> r == ArpSpoofingResult(false, [], [], 0, true)
    ensures perm != Denied ==> !r.permissionDenied && r.totalEntries == |current|
    ensures perm != Denied ==>
              (r.spoofingDetected <==> SharesMac(current) || (previous.Some? && SomeMacMoved(current, previous.value)))
    ensures previous.None? ==> r.changedMacs == []
    ensures perm != Denied ==> r.duplicateMacs == FindDuplicateMacs(current)
    ensures perm != Denied && previous.Some? ==> r.changedMacs == FindChangedMacs(current, previous.value)
    ensures r.spoofingDetected <==> |r.duplicateMacs| > 0 || |r.changedMacs| > 0
  {
    if perm == Denied then ArpSpoofingResult(false, [], [], 0, true)
    else if |current| == 0 then ArpSpoofingResult(false, [], [], 0, false)
    else
      var dups := FindDuplicateMacs(current);
      var changed := if previous.Some? then FindChangedMacs(current, previous.value) else [];
      assert previous.Some? && SomeMacMoved(current, previous.value) ==> |changed| > 0 by {
        if previous.Some? && SomeMacMoved(current, previous.value) {
          var i :| 0 <= i < |current| && MacAt(previous.value, current[i].ipAddress).Some?
                   && MacAt(previous.value, current[i].ipAddress) != MacAt(current, current[i].ipAddress);
          var c :| c in changed && c.ipAddress == current[i].ipAddress;
        }
      }
      assert |changed| > 0 ==> previous.Some? && SomeMacMoved(current, previous.value) by {
        if |changed| > 0 {
          assert changed[0] in changed;
          var c := changed[0];
          var k :| 0 <= k < |current| && current[k].ipAddress == c.ipAddress;
        }
      }
      ArpSpoofingResult(|dups| > 0 || |changed| > 0, dups, changed, |current|, false)
  }

  /** `getGatewayMac`: the hardware address on the first row for the gateway. */
  function GatewayMac(entries: seq<ArpEntry>, gatewayIp: string): (r: Option<string>)
    ensures r.None? <==> forall i :: 0 <= i < |entries| ==> entries[i].ipAddress != gatewayIp
    ensures r.Some? ==> exists i :: 0 <= i < |entries| && entries[i].ipAddress == gatewayIp && entries[i].macAddress == r.value
                                    && forall j :: 0 <= j < i ==> entries[j].ipAddress != gatewayIp
    decreases |entries|
  {
    if |entries| == 0 then None
    else if entries[0].ipAddress == gatewayIp then Some(entries[0].macAddress)
    else
      var r := GatewayMac(entries[1..], gatewayIp);
      assert forall i :: 1 <= i < |entries| ==> entries[1..][i - 1] == entries[i];
      assert r.Some? ==> exists i :: 0 <= i < |entries| && entries[i].ipAddress == gatewayIp && entries[i].macAddress == r.value
                                    && forall j :: 0 <= j < i ==> entries[j].ipAddress != gatewayIp by {
        if r.Some? {
          var i :| 0 <= i < |entries[1..]| && entries[1..][i].ipAddress == gatewayIp && entries[1..][i].macAddress == r.value
                   && forall j :: 0 <= j < i ==> entries[1..][j].ipAddress != gatewayIp;
          assert entries[i + 1].ipAddress == gatewayIp;
        }
      }
      r
  }

  /**
   * `isGatewayCompromised`: only a known, different gateway hardware address
   * on a readable table counts.
   */
  function IsGatewayCompromised(perm: Permission, current: Option<string>, known: Option<string>): (r: bool)
    ensures r ==> perm != Denied && current.Some? && known.Some?
    ensures perm != Denied && current.Some? && known.Some? ==> (r <==> current.value != known.value)
  {
    if perm == Denied then false
    else if current.None? || known.None? then false
    else current.value != known.value
  }
}

=== FILE: base.dfy ===
/**
 * Small vocabulary shared by every checker: optional values (the source's
 * nullable types), the four severity levels, and Kotlin's `coerceIn`.
 */
module Base {

  /** A Kotlin nullable value: `None` stands for `null`. */
  datatype Option<+T> = None | Some(value: T)

  /** Severity levels reported by the DNS and certificate checkers. */
  datatype Level = Low | Medium | High | Critical

  /** Kotlin's `Int.coerceIn(lo, hi)`. */
  function Clamp(x: int, lo: int, hi: int): (r: int)
    requires lo <= hi
    ensures lo <= r <= hi
    ensures lo <= x <= hi ==> r == x
    ensures x < lo ==> r == lo
    ensures hi < x ==> r == hi
  {
    if x < lo then lo else if hi < x then hi else x
  }
}

=== FILE: certs.dfy ===
/**
 * The certificate checker (`CertificateValidator`): the verdict on one
 * server's leaf certificate, the stripping probe over the test sites and
 * the aggregate level. Connections, handshakes and the clock are inputs;
 * names are the distinguished-name texts and dates are epoch milliseconds.
 */
module Certs {
  import opened Base
  import opened Text

  /** A test site and the host its URL names. */
  datatype Target = Target(url: string, host: string)

  const TestTargets: seq<Target> := [
    Target("https://www.google.com", "www.google.com"),
    Target("https://www.cloudflare.com", "www.cloudflare.com")]

  datatype Certificate = Certificate(issuer: string, subject: string, notBefore: int, notAfter: int)

  /** The first certificate the server sent: an X.509 one, or some other kind. */
  datatype Leaf = X509(cert: Certificate) | OtherType

  /** What connecting produced: an exception (with its message text), or the server's chain. */
  datatype Probe = Threw(ioError: bool, message: string) | Connected(chain: seq<Leaf>)

  const ExpiredMessage := "Certificate expired or not yet valid"
  const SelfSignedMessage := "Self-signed certificate (CRITICAL - possible MITM)"
  const MismatchMessage := "Certificate hostname mismatch (might be CDN)"
  const NoCertificatesMessage := "No certificates found"
  const InvalidTypeMessage := "Invalid certificate type"

  datatype CertificateValidation = CertificateValidation(
    isValid: bool,
    isSelfSigned: bool,
    isExpired: bool,
    hostnameMatches: bool,
    error: Option<string>)

  /** The clock lies outside `[notBefore, notAfter]`; both ends are still valid. */
  predicate Expired(c: Certificate, now: int)
  {
    now > c.notAfter || now < c.notBefore
  }

  predicate SelfSigned(c: Certificate)
  {
    c.issuer == c.subject
  }

  /**
   * `validateCertificate`: validity rests on dates and self-signing only;
   * the hostname (an empty one, a matching common name or any wildcard
   * common name passes) only chooses the message, which names the first
   * problem in the order expired, self-signed, mismatch.
   */
  function ValidateCertificate(c: Certificate, host: string, now: int): (r: CertificateValidation)
    ensures r.isExpired <==> Expired(c, now)
    ensures r.isSelfSigned <==> SelfSigned(c)
    ensures r.hostnameMatches <==>
              host == "" || ContainsIgnoreCase(c.subject, "CN=" + host) || ContainsIgnoreCase(c.subject, "CN=*.")
    ensures r.isValid <==> !Expired(c, now) && !SelfSigned(c)
    ensures r.error == Some(ExpiredMessage) <==> Expired(c, now)
    ensures r.error == Some(SelfSignedMessage) <==> !Expired(c, now) && SelfSigned(c)
    ensures r.error == Some(MismatchMessage) <==> r.isValid && !r.hostnameMatches
    ensures r.error.None? <==> r.isValid && r.hostnameMatches
  {
    var expired := now > c.notAfter || now < c.notBefore;
    var selfSigned := c.issuer == c.subject;
    var matches := |host| == 0 || ContainsIgnoreCase(c.subject, "CN=" + host) || ContainsIgnoreCase(c.subject, "CN=*.");
    var error :=
      if expired then Some(ExpiredMessage)
      else if selfSigned then Some(SelfSignedMessage)
      else if !matches then Some(MismatchMessage)
      else None;
    CertificateValidation(!expired && !selfSigned, selfSigned, expired, matches, error)
  }

  /** A hostname mismatch never changes validity. */
  lemma HostnameNeverAffectsValidity(c: Certificate, host1: string, host2: string, now: int)
    ensures ValidateCertificate(c, host1, now).isValid == ValidateCertificate(c, host2, now).isValid
  {
  }

  /** A wildcard common name matches every host. */
  lemma WildcardMatchesEveryHost(c: Certificate, host: string, now: int)
    requires Contains(Lower(c.subject), "cn=*.")
    ensures ValidateCertificate(c, host, now).hostnameMatches
  {
    assert Lower("CN=*.") == "cn=*.";
  }

  datatype CertificateCheckResult = CertificateCheckResult(
    url: string,
    isValid: bool,
    issuer: Option<string>,
    subject: Option<string>,
    notBefore: Option<int>,
    notAfter: Option<int>,
    isSelfSigned: Option<bool>,
    isExpired: Option<bool>,
    error: Option<string>,
    isNetworkError: bool)

  /** A result carrying only the URL, the verdict and the message. */
  function Bare(url: string, valid: bool, error: string, networkError: bool): CertificateCheckResult
  {
    CertificateCheckResult(url, valid, None, None, None, None, None, None, Some(error), networkError)
  }

  /** The probe reached an X.509 leaf that signed itself. */
  predicate SelfSignedLeaf(p: Probe)
  {
    p.Connected? && |p.chain| > 0 && p.chain[0].X509? && SelfSigned(p.chain[0].cert)
  }

  /** The probe reached an X.509 leaf that is in date and not self-signed. */
  predicate SoundLeaf(p: Probe, now: int)
  {
    p.Connected? && |p.chain| > 0 && p.chain[0].X509? && !SelfSigned(p.chain[0].cert) && !Expired(p.chain[0].cert, now)
  }

  /**
   * `checkCertificate`: any exception is a network error and counts as
   * valid, with no self-signing verdict; an empty chain or a leaf that is
   * not X.509 is invalid but not a network error; otherwise the leaf's
   * validation.
   */
  function CheckCertificate(t: Target, p: Probe, now: int): (r: CertificateCheckResult)
    ensures r.url == t.url
    ensures r.isNetworkError <==> p.Threw?
    ensures p.Threw? ==> r.isValid && r.isSelfSigned.None?
    ensures p == Connected([]) ==> !r.isValid && r.error == Some(NoCertificatesMessage)
    ensures p.Connected? && |p.chain| > 0 && p.chain[0].OtherType? ==> !r.isValid && r.error == Some(InvalidTypeMessage)
    ensures r.isValid <==> p.Threw? || SoundLeaf(p, now)
    ensures r.isSelfSigned == Some(true) <==> SelfSignedLeaf(p)
    ensures r.isSelfSigned.Some? <==> p.Connected? && |p.chain| > 0 && p.chain[0].X509?
  {
    match p
    case Threw(io, msg) =>
      if io then Bare(t.url, true, "Network error (not a security issue): " + msg, true)
      else Bare(t.url, true, "Check failed (not necessarily a threat): " + msg, true)
    case Connected(chain) =>
      if |chain| == 0 then Bare(t.url, false, NoCertificatesMessage, false)
      else
        match chain[0]
        case OtherType => Bare(t.url, false, InvalidTypeMessage, false)
        case X509(c) =>
          var v := ValidateCertificate(c, t.host, now);
          CertificateCheckResult(t.url, v.isValid, Some(c.issuer), Some(c.subject), Some(c.notBefore), Some(c.notAfter),
                                 Some(v.isSelfSigned), Some(v.isExpired), v.error, false)
  }

  // ---------------------------------------------------------- stripping

  datatype SslStrippingResult = SslStrippingResult(
    strippingDetected: bool,
    suspiciousConnections: seq<string>,
    totalTests: nat,
    httpsSuccessful: nat)

  /** Successes and suspicious URLs over `targets`, probed in order. */
  datatype StripTally = StripTally(suspicious: seq<string>, successful: nat)

  function StripTallyOf(targets: seq<Target>, probes: seq<Probe>, now: int): (r: StripTally)
    requires |targets| == |probes|
    ensures r.successful + |r.suspicious| <= |targets|
    ensures forall u :: u in r.suspicious <==>
              exists i :: 0 <= i < |targets| && targets[i].url == u && SelfSignedLeaf(probes[i])
    decreases |targets|
  {
    if |targets| == 0 then StripTally([], 0)
    else
      var rest := StripTallyOf(targets[1..], probes[1..], now);
      assert forall i :: 1 <= i < |targets| ==> targets[i] == targets[1..][i - 1] && probes[i] == probes[1..][i - 1];
      var c := CheckCertificate(targets[0], probes[0], now);
      if c.isValid && !c.isNetworkError then StripTally(rest.suspicious, rest.successful + 1)
      else if c.isSelfSigned == Some(true) then StripTally([targets[0].url] + rest.suspicious, rest.successful)
      else rest
  }

  /** Every site is a success exactly when every leaf is sound, and none is exactly when none is. */
  lemma {:induction false} StripTallySuccesses(targets: seq<Target>, probes: seq<Probe>, now: int)
    requires |targets| == |probes|
    ensures StripTallyOf(targets, probes, now).successful == |targets| <==>
              forall i :: 0 <= i < |targets| ==> SoundLeaf(probes[i], now)
    ensures StripTallyOf(targets, probes, now).successful == 0 <==>
              forall i :: 0 <= i < |targets| ==> !SoundLeaf(probes[i], now)
    decreases |targets|
  {
    if |targets| > 0 {
      StripTallySuccesses(targets[1..], probes[1..], now);
      assert forall i :: 1 <= i < |targets| ==> probes[i] == probes[1..][i - 1];
    }
  }

  /** Over two sites, each one adds its own success or suspicious URL. */
  lemma StripTallyOfPair(targets: seq<Target>, probes: seq<Probe>, now: int)
    requires |targets| == |probes| == 2
    ensures StripTallyOf(targets, probes, now).successful ==
              (if SoundLeaf(probes[0], now) then 1 else 0) + (if SoundLeaf(probes[1], now) then 1 else 0)
    ensures StripTallyOf(targets, probes, now).suspicious ==
              (if SelfSignedLeaf(probes[0]) then [targets[0].url] else [])
              + (if SelfSignedLeaf(probes[1]) then [targets[1].url] else [])
  {
    assert targets[1..][1..] == [] && probes[1..][1..] == [];
  }

  /**
   * `detectSslStripping`: a site is suspicious exactly when its leaf signed
   * itself, and stripping is reported exactly when some site is; failed
   * connections are neither successes nor suspicious.
   */
  function DetectSslStripping(probes: seq<Probe>, now: int): (r: SslStrippingResult)
    requires |probes| == |TestTargets|
    ensures r.totalTests == 2 && r.httpsSuccessful + |r.suspiciousConnections| <= r.totalTests
    ensures r.strippingDetected <==> exists i :: 0 <= i < 2 && SelfSignedLeaf(probes[i])
    ensures forall u :: u in r.suspiciousConnections <==>
              exists i :: 0 <= i < 2 && TestTargets[i].url == u && SelfSignedLeaf(probes[i])
    ensures r.httpsSuccessful == 2 <==> forall i :: 0 <= i < 2 ==> SoundLeaf(probes[i], now)
    ensures r.httpsSuccessful == 0 <==> forall i :: 0 <= i < 2 ==> !SoundLeaf(probes[i], now)
  {
    var t := StripTallyOf(TestTargets, probes, now);
    StripTallySuccesses(TestTargets, probes, now);
    assert (exists i :: 0 <= i < 2 && SelfSignedLeaf(probes[i])) ==> TestTargets[0].url in t.suspicious || TestTargets[1].url in t.suspicious;
    SslStrippingResult(|t.suspicious| > 0, t.suspicious, |TestTargets|, t.successful)
  }

  /** Each site adds one success for a sound leaf and its URL for a self-signed one, in site order. */
  lemma StrippingPerSite(probes: seq<Probe>, now: int)
    requires |probes| == |TestTargets|
    ensures var r := DetectSslStripping(probes, now);
            && r.httpsSuccessful == (if SoundLeaf(probes[0], now) then 1 else 0) + (if SoundLeaf(probes[1], now) then 1 else 0)
            && r.suspiciousConnections ==
                 (if SelfSignedLeaf(probes[0]) then [TestTargets[0].url] else [])
                 + (if SelfSignedLeaf(probes[1]) then [TestTargets[1].url] else [])
  {
    StripTallyOfPair(TestTargets, probes, now);
  }

  // ---------------------------------------------------------- aggregate

  /** Results that failed for a security reason rather than a network one. */
  function InvalidCount(rs: seq<CertificateCheckResult>): (n: nat)
    ensures n <= |rs|
    ensures n == 0 <==> forall i :: 0 <= i < |rs| ==> rs[i].isValid || rs[i].isNetworkError
    decreases |rs|
  {
    if |rs| == 0 then 0
    else
      assert forall i :: 1 <= i < |rs| ==> rs[i] == rs[1..][i - 1];
      (if !rs[0].isValid && !rs[0].isNetworkError then 1 else 0) + InvalidCount(rs[1..])
  }

  function SelfSignedCount(rs: seq<CertificateCheckResult>): (n: nat)
    ensures n <= |rs|
    ensures n == 0 <==> forall i :: 0 <= i < |rs| ==> rs[i].isSelfSigned != Some(true)
    decreases |rs|
  {
    if |rs| == 0 then 0
    else
      assert forall i :: 1 <= i < |rs| ==> rs[i] == rs[1..][i - 1];
      (if rs[0].isSelfSigned == Some(true) then 1 else 0) + SelfSignedCount(rs[1..])
  }

  /** Over two results, each one adds to the counts on its own. */
  lemma CountsOfPair(rs: seq<CertificateCheckResult>)
    requires |rs| == 2
    ensures InvalidCount(rs) == (if !rs[0].isValid && !rs[0].isNetworkError then 1 else 0)
                                + (if !rs[1].isValid && !rs[1].isNetworkError then 1 else 0)
    ensures SelfSignedCount(rs) == (if rs[0].isSelfSigned == Some(true) then 1 else 0)
                                   + (if rs[1].isSelfSigned == Some(true) then 1 else 0)
  {
    assert rs[1..][1..] == [];
  }

  /** A self-signed result is never valid and never a network error, so it is also counted invalid. */
  lemma {:induction false} SelfSignedAlsoInvalid(rs: seq<CertificateCheckResult>)
    requires forall i :: 0 <= i < |rs| && rs[i].isSelfSigned == Some(true) ==> !rs[i].isValid && !rs[i].isNetworkError
    ensures SelfSignedCount(rs) <= InvalidCount(rs)
    decreases |rs|
  {
    if |rs| > 0 {
      assert forall i :: 1 <= i < |rs| ==> rs[i] == rs[1..][i - 1];
      SelfSignedAlsoInvalid(rs[1..]);
    }
  }

  /** The certificate results of the two test sites, as `TEST_URLS.map { checkCertificate(it) }` gives them. */
  function CheckAll(certProbes: seq<Probe>, now: int): (rs: seq<CertificateCheckResult>)
    requires |certProbes| == |TestTargets|
    ensures |rs| == 2 && forall i :: 0 <= i < 2 ==> rs[i] == CheckCertificate(TestTargets[i], certProbes[i], now)
  {
    [CheckCertificate(TestTargets[0], certProbes[0], now), CheckCertificate(TestTargets[1], certProbes[1], now)]
  }

  /** Each site adds one invalid count unless it threw or is sound, and one self-signed count for a self-signed leaf. */
  lemma ResultCounts(certProbes: seq<Probe>, now: int)
    requires |certProbes| == |TestTargets|
    ensures InvalidCount(CheckAll(certProbes, now)) ==
              (if certProbes[0].Threw? || SoundLeaf(certProbes[0], now) then 0 else 1)
              + (if certProbes[1].Threw? || SoundLeaf(certProbes[1], now) then 0 else 1)
    ensures SelfSignedCount(CheckAll(certProbes, now)) ==
              (if SelfSignedLeaf(certProbes[0]) then 1 else 0) + (if SelfSignedLeaf(certProbes[1]) then 1 else 0)
    ensures SelfSignedCount(CheckAll(certProbes, now)) > 0 <==> exists i :: 0 <= i < 2 && SelfSignedLeaf(certProbes[i])
    ensures SelfSignedCount(CheckAll(certProbes, now)) <= InvalidCount(CheckAll(certProbes, now)) <= 2
    ensures InvalidCount(CheckAll(certProbes, now)) == 0 <==>
              forall i :: 0 <= i < 2 ==> certProbes[i].Threw? || SoundLeaf(certProbes[i], now)
    ensures InvalidCount(CheckAll(certProbes, now)) >= 2 <==>
              forall i :: 0 <= i < 2 ==> !(certProbes[i].Threw? || SoundLeaf(certProbes[i], now))
  {
    CountsOfPair(CheckAll(certProbes, now));
  }

  datatype SslSecurityResult = SslSecurityResult(
    threatDetected: bool,
    threatLevel: Level,
    certificateResults: seq<CertificateCheckResult>,
    strippingResult: SslStrippingResult,
    selfSignedCount: nat,
    invalidCertCount: nat)

  /**
   * `performSslSecurityCheck`: only a self-signed leaf is a threat. The
   * level is Critical for one, High for stripping, Medium for two security
   * failures, else Low. The certificate pass and the stripping pass probe
   * the sites separately, so they are separate inputs.
   */
  function PerformSslSecurityCheck(certProbes: seq<Probe>, strippingProbes: seq<Probe>, now: int): (r: SslSecurityResult)
    requires |certProbes| == |TestTargets| && |strippingProbes| == |TestTargets|
    ensures |r.certificateResults| == 2
    ensures forall i :: 0 <= i < 2 ==> r.certificateResults[i] == CheckCertificate(TestTargets[i], certProbes[i], now)
    ensures r.strippingResult == DetectSslStripping(strippingProbes, now)
    ensures r.selfSignedCount > 0 <==> exists i :: 0 <= i < 2 && SelfSignedLeaf(certProbes[i])
    ensures r.selfSignedCount <= r.invalidCertCount <= 2
    ensures r.invalidCertCount == 0 <==> forall i :: 0 <= i < 2 ==> certProbes[i].Threw? || SoundLeaf(certProbes[i], now)
    ensures r.invalidCertCount >= 2 <==> forall i :: 0 <= i < 2 ==> !(certProbes[i].Threw? || SoundLeaf(certProbes[i], now))
    ensures r.threatDetected <==> r.selfSignedCount > 0
    ensures r.threatLevel == Critical <==> r.selfSignedCount > 0
    ensures r.threatLevel == High <==> r.selfSignedCount == 0 && r.strippingResult.strippingDetected
    ensures r.threatLevel == Medium <==>
              r.selfSignedCount == 0 && !r.strippingResult.strippingDetected && r.invalidCertCount >= 2
    ensures r.threatLevel == Low <==>
              r.selfSignedCount == 0 && !r.strippingResult.strippingDetected && r.invalidCertCount < 2
  {
    var results := CheckAll(certProbes, now);
    var stripping := DetectSslStripping(strippingProbes, now);
    var invalid := InvalidCount(results);
    var selfSigned := SelfSignedCount(results);
    ResultCounts(certProbes, now);
    var level :=
      if selfSigned > 0 then Critical
      else if stripping.strippingDetected then High
      else if invalid >= 2 then Medium
      else Low;
    SslSecurityResult(selfSigned > 0, level, results, stripping, selfSigned, invalid)
  }

  /** The counts site by site: a site that neither threw nor has a sound leaf is invalid, a self-signed leaf is self-signed. */
  lemma SslCountsPerSite(certProbes: seq<Probe>, strippingProbes: seq<Probe>, now: int)
    requires |certProbes| == |TestTargets| && |strippingProbes| == |TestTargets|
    ensures var r := PerformSslSecurityCheck(certProbes, strippingProbes, now);
            && r.invalidCertCount == (if certProbes[0].Threw? || SoundLeaf(certProbes[0], now) then 0 else 1)
                                     + (if certProbes[1].Threw? || SoundLeaf(certProbes[1], now) then 0 else 1)
            && r.selfSignedCount == (if SelfSignedLeaf(certProbes[0]) then 1 else 0) + (if SelfSignedLeaf(certProbes[1]) then 1 else 0)
  {
    ResultCounts(certProbes, now);
  }

  /** When every connection throws, nothing is a threat and the level is Low. */
  lemma NetworkErrorsAreNeverFindings(certProbes: seq<Probe>, strippingProbes: seq<Probe>, now: int)
    requires |certProbes| == |TestTargets| && |strippingProbes| == |TestTargets|
    requires forall i :: 0 <= i < 2 ==> certProbes[i].Threw? && strippingProbes[i].Threw?
    ensures !PerformSslSecurityCheck(certProbes, strippingProbes, now).threatDetected
    ensures PerformSslSecurityCheck(certProbes, strippingProbes, now).threatLevel == Low
  {
  }
}

=== FILE: dns_check.dfy ===
/**
 * The DNS integrity checker (`DnsChecker`): whether the configured
 * resolvers are on an allow-list, whether four well-known names resolve to
 * plausible addresses, and the hijacking verdict built from both. The
 * system resolver and the lookups are inputs.
 */
module DnsCheck {
  import opened Base
  import opened Text
  import NetworkInfo

  /** Public resolvers trusted outright. */
  const TrustedDnsServers: set<string> :=
    {"8.8.8.8", "8.8.4.4", "1.1.1.1", "1.0.0.1", "208.67.222.222", "208.67.220.220"}

  /** The names resolved by every test, in order. */
  const TestDomains: seq<string> := ["google.com", "cloudflare.com", "wikipedia.org", "github.com"]

  // -------------------------------------------------------- ISP patterns

  /**
   * One of the ISP address patterns: a fixed text such as `^10\.`, or the
   * private block `^172\.(1[6-9]|2[0-9]|3[0-1])\.`.
   */
  datatype IspPattern = Exactly(text: string) | Private172

  const IspDnsPatterns: seq<IspPattern> := [
    Exactly("10."), Private172, Exactly("192.168."), Exactly("203.80."), Exactly("202.188."),
    Exactly("210.195."), Exactly("218.111."), Exactly("124.217."), Exactly("61.6.")]

  /** The seven-character texts `"172.16."` to `"172.31."`. */
  predicate Is172Block(s: string)
  {
    |s| == 7 && s[..4] == "172." && s[6] == '.'
    && ((s[4] == '1' && '6' <= s[5] <= '9') || (s[4] == '2' && IsDigit(s[5])) || (s[4] == '3' && '0' <= s[5] <= '1'))
  }

  /**
   * `String.matches(Regex)`: the pattern must cover the WHOLE string, so
   * `^10\.` accepts exactly `"10."` and nothing longer.
   */
  predicate MatchesWhole(p: IspPattern, s: string)
  {
    match p
    case Exactly(t) => s == t
    case Private172 => Is172Block(s)
  }

  /** The reading the pattern list was evidently written for: the address starts with the pattern. */
  predicate MatchesPrefix(p: IspPattern, s: string)
  {
    match p
    case Exactly(t) => t <= s
    case Private172 => |s| >= 7 && Is172Block(s[..7])
  }

  /**
   * `isIspDns` as written: some pattern matches the whole string. Every
   * pattern text ends with a dot, so every accepted text does too.
   */
  predicate IsIspDns(s: string)
    ensures IsIspDns(s) ==> |s| > 0 && s[|s| - 1] == '.'
  {
    PatternTextsEndWithDot();
    exists i :: 0 <= i < |IspDnsPatterns| && MatchesWhole(IspDnsPatterns[i], s)
  }

  /** The prefix reading of `isIspDns`; the model keeps the whole-string behaviour. */
  predicate IsIspDnsPrefix(s: string)
  {
    exists i :: 0 <= i < |IspDnsPatterns| && MatchesPrefix(IspDnsPatterns[i], s)
  }

  /**
   * As written, the texts recognised are exactly the eight fixed prefixes
   * themselves and the sixteen texts `"172.16."` to `"172.31."`.
   */
  lemma IspDnsTexts(s: string)
    ensures IsIspDns(s) <==>
              s in ["10.", "192.168.", "203.80.", "202.188.", "210.195.", "218.111.", "124.217.", "61.6."]
              || Is172Block(s)
  {
    if s in ["10.", "192.168.", "203.80.", "202.188.", "210.195.", "218.111.", "124.217.", "61.6."] || Is172Block(s) {
      if Is172Block(s) {
        assert MatchesWhole(IspDnsPatterns[1], s);
      } else if s == "10." {
        assert MatchesWhole(IspDnsPatterns[0], s);
      } else if s == "192.168." {
        assert MatchesWhole(IspDnsPatterns[2], s);
      } else if s == "203.80." {
        assert MatchesWhole(IspDnsPatterns[3], s);
      } else if s == "202.188." {
        assert MatchesWhole(IspDnsPatterns[4], s);
      } else if s == "210.195." {
        assert MatchesWhole(IspDnsPatterns[5], s);
      } else if s == "218.111." {
        assert MatchesWhole(IspDnsPatterns[6], s);
      } else if s == "124.217." {
        assert MatchesWhole(IspDnsPatterns[7], s);
      } else {
        assert MatchesWhole(IspDnsPatterns[8], s);
      }
    }
  }

  /** Every fixed pattern text ends with a dot. */
  lemma PatternTextsEndWithDot()
    ensures forall i :: 0 <= i < |IspDnsPatterns| && IspDnsPatterns[i].Exactly? ==>
              |IspDnsPatterns[i].text| > 0 && IspDnsPatterns[i].text[|IspDnsPatterns[i].text| - 1] == '.'
  {
  }

  /** So an address whose last character is a digit is never an ISP resolver as written. */
  lemma AddressIsNeverIspDns(s: string)
    requires |s| > 0 && IsDigit(s[|s| - 1])
    ensures !IsIspDns(s)
  {
  }

  /** In particular no dotted-quad address built from a `DhcpInfo` word matches. */
  lemma DottedQuadIsNeverIspDns(ip: NetworkInfo.Int32)
    ensures !IsIspDns(NetworkInfo.IntToIp(ip))
  {
    var o := NetworkInfo.Octets(ip);
    assert o == [o[0], o[1], o[2], o[3]];
    NetworkInfo.DottedFour(o[0], o[1], o[2], o[3]);
    var last := NatToString(o[3]);
    var s := NetworkInfo.IntToIp(ip);
    assert s[|s| - 1] == last[|last| - 1];
    AddressIsNeverIspDns(s);
  }

  /** A whole-string match is also a prefix match: the prefix reading only adds addresses. */
  lemma WholeMatchIsPrefixMatch(s: string)
    requires IsIspDns(s)
    ensures IsIspDnsPrefix(s)
  {
    var i :| 0 <= i < |IspDnsPatterns| && MatchesWhole(IspDnsPatterns[i], s);
    assert MatchesPrefix(IspDnsPatterns[i], s);
  }

  /** The private address `10.0.0.1` shows the gap between the two readings. */
  lemma PrivateResolverMissed()
    ensures IsIspDnsPrefix("10.0.0.1") && !IsIspDns("10.0.0.1")
  {
    assert MatchesPrefix(IspDnsPatterns[0], "10.0.0.1");
    AddressIsNeverIspDns("10.0.0.1");
  }

  // -------------------------------------------------------- trust check

  /** One resolver is acceptable: on the allow-list or matching an ISP pattern. */
  predicate AcceptedResolver(dns: string)
  {
    dns in TrustedDnsServers || IsIspDns(dns)
  }

  /** `areDnsServersTrusted`: no resolvers is never trusted; otherwise any acceptable one suffices. */
  function AreDnsServersTrusted(currentDns: seq<string>): (r: bool)
    ensures |currentDns| == 0 ==> !r
    ensures r <==> exists i :: 0 <= i < |currentDns| && AcceptedResolver(currentDns[i])
    decreases |currentDns|
  {
    if |currentDns| == 0 then false
    else if AcceptedResolver(currentDns[0]) then true
    else
      var rest := AreDnsServersTrusted(currentDns[1..]);
      assert forall i :: 1 <= i < |currentDns| ==> currentDns[i] == currentDns[1..][i - 1];
      rest
  }

  /** For resolvers given as plain addresses, trust comes from the allow-list alone. */
  lemma TrustOfAddressesIsAllowList(currentDns: seq<string>)
    requires forall i :: 0 <= i < |currentDns| ==> |currentDns[i]| > 0 && IsDigit(currentDns[i][|currentDns[i]| - 1])
    ensures AreDnsServersTrusted(currentDns) <==> exists i :: 0 <= i < |currentDns| && currentDns[i] in TrustedDnsServers
  {
    forall i | 0 <= i < |currentDns|
      ensures !IsIspDns(currentDns[i])
    {
      AddressIsNeverIspDns(currentDns[i]);
    }
  }

  /**
   * `getCurrentDnsServers`: the host addresses of the active link's
   * resolvers (a missing one reads as `""`), without empty entries; no link
   * properties, or a failure reading them, gives no resolvers.
   */
  function CurrentDnsServers(linkDns: Option<seq<Option<string>>>): (r: seq<string>)
    ensures forall s :: s in r ==> s != ""
    ensures linkDns.None? ==> r == []
    ensures linkDns.Some? ==> forall s :: s in r <==> s != "" && Some(s) in linkDns.value
    ensures linkDns.Some? ==> r == NonEmptyAddresses(linkDns.value)
  {
    match linkDns
    case None => []
    case Some(addrs) => NonEmptyAddresses(addrs)
  }

  /** The resolver addresses that are present and non-empty, in link order. */
  function NonEmptyAddresses(addrs: seq<Option<string>>): (r: seq<string>)
    ensures forall s :: s in r <==> s != "" && Some(s) in addrs
    decreases |addrs|
  {
    if |addrs| == 0 then []
    else
      var rest := NonEmptyAddresses(addrs[1..]);
      assert forall a :: a in addrs <==> a == addrs[0] || a in addrs[1..];
      match addrs[0]
      case Some(s) => if s != "" then [s] + rest else rest
      case None => rest
  }

  /**
   * The filter keeps the link's order and repeats: it distributes over
   * concatenation, and `NonEmptyAddressesCons` decides each entry.
   */
  lemma {:induction false} NonEmptyAddressesAppend(a: seq<Option<string>>, b: seq<Option<string>>)
    ensures NonEmptyAddresses(a + b) == NonEmptyAddresses(a) + NonEmptyAddresses(b)
    decreases |a|
  {
    if |a| == 0 {
      assert a + b == b;
    } else {
      assert a + b == [a[0]] + (a[1..] + b);
      NonEmptyAddressesCons(a[0], a[1..] + b);
      NonEmptyAddressesAppend(a[1..], b);
    }
  }

  /** One entry contributes its address exactly when it is present and non-empty. */
  lemma NonEmptyAddressesCons(x: Option<string>, rest: seq<Option<string>>)
    ensures NonEmptyAddresses([x] + rest) ==
              (if x.Some? && x.value != "" then [x.value] else []) + NonEmptyAddresses(rest)
  {
    assert ([x] + rest)[1..] == rest;
  }

  // -------------------------------------------------------- resolution test

  /** The outcome of resolving one name: an exception, or the addresses returned. */
  datatype Lookup = Failed | Resolved(ips: seq<string>)

  datatype SuspiciousResolution = SuspiciousResolution(domain: string, resolvedIps: seq<string>)

  datatype DnsTestResult = DnsTestResult(
    hijackingDetected: bool,
    suspiciousResolutions: seq<SuspiciousResolution>,
    totalTests: nat,
    successfulTests: nat)

  /**
   * An answer no public name should get: loopback, `0.0.0.*`, empty, or a
   * private `192.168.*`/`10.*` address for a name that does not mention
   * "local".
   */
  predicate SuspiciousAddress(domain: string, ip: string)
    ensures Contains(domain, "local") ==>
              (SuspiciousAddress(domain, ip) <==> ip == "" || "127." <= ip || "0.0.0." <= ip)
    ensures !Contains(domain, "local") ==>
              (SuspiciousAddress(domain, ip) <==>
                 ip == "" || "127." <= ip || "0.0.0." <= ip || "192.168." <= ip || "10." <= ip)
  {
    "127." <= ip || "0.0.0." <= ip || ip == "0.0.0.0"
    || ("192.168." <= ip && !Contains(domain, "local"))
    || ("10." <= ip && !Contains(domain, "local"))
    || ip == ""
  }

  /**
   * For an address printed from its four octets the text tests read as
   * octet tests: loopback `127.*`, the `0.0.0.*` block, and, for a name
   * without "local", the private `192.168.*` and `10.*` ranges.
   */
  lemma SuspiciousRenderedAddress(domain: string, ip: NetworkInfo.Int32)
    ensures var o := NetworkInfo.Octets(ip);
            SuspiciousAddress(domain, NetworkInfo.IntToIp(ip)) <==>
              o[0] == 127 || (o[0] == 0 && o[1] == 0 && o[2] == 0)
              || (!Contains(domain, "local") && ((o[0] == 192 && o[1] == 168) || o[0] == 10))
  {
    var o := NetworkInfo.Octets(ip);
    assert o == [o[0], o[1], o[2], o[3]];
    NetworkInfo.DottedFour(o[0], o[1], o[2], o[3]);
    var r2 := NatToString(o[2]) + "." + NatToString(o[3]);
    var r1 := NatToString(o[1]) + "." + r2;
    var s := NetworkInfo.IntToIp(ip);
    assert s == NatToString(o[0]) + "." + r1;
    LoopbackAndTenTexts(o[0], r1);
    PrivateBlockText(o[0], o[1], r1, r2);
    ZeroBlockText(o[0], o[1], o[2], r1, r2, NatToString(o[3]));
    if s == "0.0.0.0" {
      assert "0.0.0." <= s;
    }
  }

  /** The decimal texts of the octets the answer tests mention. */
  lemma OctetTexts()
    ensures NatToString(0) == "0" && NatToString(10) == "10" && NatToString(127) == "127"
    ensures NatToString(192) == "192" && NatToString(168) == "168"
  {
  }

  /** The `127.` and `10.` tests on dotted text, as tests on its first octet. */
  lemma LoopbackAndTenTexts(a: nat, r1: string)
    ensures "127." <= NatToString(a) + "." + r1 <==> a == 127
    ensures "10." <= NatToString(a) + "." + r1 <==> a == 10
  {
    OctetTexts();
    assert "127." == NatToString(127) + "." + "";
    assert "10." == NatToString(10) + "." + "";
    NetworkInfo.StartsWithNumber(a, r1, 127, "");
    NetworkInfo.StartsWithNumber(a, r1, 10, "");
  }

  /** The `192.168.` test on dotted text, as a test on its first two octets. */
  lemma PrivateBlockText(a: nat, b: nat, r1: string, r2: string)
    requires r1 == NatToString(b) + "." + r2
    ensures "192.168." <= NatToString(a) + "." + r1 <==> a == 192 && b == 168
  {
    OctetTexts();
    assert "192.168." == NatToString(192) + "." + "168.";
    assert "168." == NatToString(168) + "." + "";
    NetworkInfo.StartsWithNumber(a, r1, 192, "168.");
    NetworkInfo.StartsWithNumber(b, r2, 168, "");
  }

  /** The `0.0.0.` test on dotted text, as a test on its first three octets. */
  lemma ZeroBlockText(a: nat, b: nat, c: nat, r1: string, r2: string, r3: string)
    requires r1 == NatToString(b) + "." + r2 && r2 == NatToString(c) + "." + r3
    ensures "0.0.0." <= NatToString(a) + "." + r1 <==> a == 0 && b == 0 && c == 0
  {
    OctetTexts();
    assert "0.0.0." == NatToString(0) + "." + "0.0.";
    assert "0.0." == NatToString(0) + "." + "0.";
    assert "0." == NatToString(0) + "." + "";
    NetworkInfo.StartsWithNumber(a, r1, 0, "0.0.");
    NetworkInfo.StartsWithNumber(b, r2, 0, "0.");
    NetworkInfo.StartsWithNumber(c, r3, 0, "");
  }

  predicate SuspiciousAnswer(domain: string, ips: seq<string>)
  {
    exists ip :: ip in ips && SuspiciousAddress(domain, ip)
  }

  /** How many lookups raised an exception. */
  function Failures(lookups: seq<Lookup>): (n: nat)
    ensures n <= |lookups|
    ensures n == 0 <==> forall i :: 0 <= i < |lookups| ==> lookups[i].Resolved?
    decreases |lookups|
  {
    if |lookups| == 0 then 0
    else
      var rest := Failures(lookups[1..]);
      assert forall i :: 1 <= i < |lookups| ==> lookups[i] == lookups[1..][i - 1];
      (if lookups[0].Failed? then 1 else 0) + rest
  }

  /** What one lookup says about its name: exactly one of these. */
  datatype Outcome = Clean | Suspicious | Unresolved

  function OutcomeOf(domain: string, lookup: Lookup): Outcome
  {
    match lookup
    case Failed => Unresolved
    case Resolved(ips) => if SuspiciousAnswer(domain, ips) then Suspicious else Clean
  }

  /** The outcome of each name, position by position. */
  function Outcomes(domains: seq<string>, lookups: seq<Lookup>): (r: seq<Outcome>)
    requires |domains| == |lookups|
    ensures |r| == |domains|
    ensures forall i :: 0 <= i < |domains| ==> r[i] == OutcomeOf(domains[i], lookups[i])
    decreases |domains|
  {
    if |domains| == 0 then []
    else
      assert forall i :: 1 <= i < |domains| ==> domains[i] == domains[1..][i - 1] && lookups[i] == lookups[1..][i - 1];
      [OutcomeOf(domains[0], lookups[0])] + Outcomes(domains[1..], lookups[1..])
  }

  /** No name occurs twice. */
  predicate DistinctNames(domains: seq<string>)
  {
    forall i, j :: 0 <= i < j < |domains| ==> domains[i] != domains[j]
  }

  /** The suspicious resolutions and the count of clean ones over `domains`. */
  datatype Tally = Tally(suspicious: seq<SuspiciousResolution>, successful: nat)

  /**
   * The loop of `testDnsResolution` over `domains`: the clean names are
   * counted, the suspicious ones recorded with their answers, the failed
   * ones dropped.
   */
  function Classify(domains: seq<string>, lookups: seq<Lookup>): (r: Tally)
    requires |domains| == |lookups|
    ensures r.successful + |r.suspicious| + Failures(lookups) == |domains|
    ensures forall s :: s in r.suspicious ==>
              exists i :: 0 <= i < |domains| && s.domain == domains[i]
                          && lookups[i] == Resolved(s.resolvedIps) && SuspiciousAnswer(domains[i], s.resolvedIps)
    ensures forall i :: 0 <= i < |domains| && lookups[i].Resolved? && SuspiciousAnswer(domains[i], lookups[i].ips) ==>
              SuspiciousResolution(domains[i], lookups[i].ips) in r.suspicious
    ensures r.successful == |domains| <==>
              forall i :: 0 <= i < |domains| ==> lookups[i].Resolved? && !SuspiciousAnswer(domains[i], lookups[i].ips)
    decreases |domains|
  {
    if |domains| == 0 then Tally([], 0)
    else
      var rest := Classify(domains[1..], lookups[1..]);
      assert forall i :: 1 <= i < |domains| ==> domains[i] == domains[1..][i - 1] && lookups[i] == lookups[1..][i - 1];
      match lookups[0]
      case Failed => rest
      case Resolved(ips) =>
        if SuspiciousAnswer(domains[0], ips) then
          Tally([SuspiciousResolution(domains[0], ips)] + rest.suspicious, rest.successful)
        else
          Tally(rest.suspicious, rest.successful + 1)
  }

  /** The clean count and the number of suspicious records are how often each outcome occurs. */
  lemma {:induction false} ClassifyCounts(domains: seq<string>, lookups: seq<Lookup>)
    requires |domains| == |lookups|
    ensures Classify(domains, lookups).successful == multiset(Outcomes(domains, lookups))[Clean]
    ensures |Classify(domains, lookups).suspicious| == multiset(Outcomes(domains, lookups))[Suspicious]
    decreases |domains|
  {
    if |domains| > 0 {
      ClassifyCounts(domains[1..], lookups[1..]);
      var o := Outcomes(domains, lookups);
      assert o == [OutcomeOf(domains[0], lookups[0])] + Outcomes(domains[1..], lookups[1..]);
      assert multiset(o) == multiset{OutcomeOf(domains[0], lookups[0])} + multiset(Outcomes(domains[1..], lookups[1..]));
    }
  }

  /** No success is counted exactly when no name came out clean. */
  lemma {:induction false} ClassifyNoneClean(domains: seq<string>, lookups: seq<Lookup>)
    requires |domains| == |lookups|
    ensures Classify(domains, lookups).successful == 0 <==>
              forall i :: 0 <= i < |domains| ==> !(lookups[i].Resolved? && !SuspiciousAnswer(domains[i], lookups[i].ips))
    decreases |domains|
  {
    if |domains| > 0 {
      ClassifyNoneClean(domains[1..], lookups[1..]);
      assert forall i :: 1 <= i < |domains| ==> domains[i] == domains[1..][i - 1] && lookups[i] == lookups[1..][i - 1];
    }
  }

  /** Every recorded name is one of the names looked up. */
  lemma {:induction false} ClassifyNames(domains: seq<string>, lookups: seq<Lookup>)
    requires |domains| == |lookups|
    ensures forall s :: s in Classify(domains, lookups).suspicious ==> s.domain in domains
    decreases |domains|
  {
    if |domains| > 0 {
      ClassifyNames(domains[1..], lookups[1..]);
      assert forall x :: x in domains[1..] ==> x in domains;
    }
  }

  /** No name is recorded twice. */
  predicate DistinctRecords(rs: seq<SuspiciousResolution>)
  {
    forall a, b :: 0 <= a < b < |rs| ==> rs[a].domain != rs[b].domain
  }

  /** Over distinct names, no name is recorded as suspicious twice. */
  lemma {:induction false} ClassifyDistinct(domains: seq<string>, lookups: seq<Lookup>)
    requires |domains| == |lookups| && DistinctNames(domains)
    ensures DistinctRecords(Classify(domains, lookups).suspicious)
    decreases |domains|
  {
    if |domains| > 0 {
      var tail := domains[1..];
      var rest := Classify(tail, lookups[1..]);
      assert DistinctNames(tail);
      ClassifyDistinct(tail, lookups[1..]);
      assert DistinctRecords(rest.suspicious);
      ClassifyNames(tail, lookups[1..]);
      assert forall k :: 0 <= k < |tail| ==> tail[k] == domains[k + 1];
      assert domains[0] !in tail;
      var r := Classify(domains, lookups);
      if lookups[0].Resolved? && SuspiciousAnswer(domains[0], lookups[0].ips) {
        assert r.suspicious == [SuspiciousResolution(domains[0], lookups[0].ips)] + rest.suspicious;
        DistinctRecordsCons(SuspiciousResolution(domains[0], lookups[0].ips), rest.suspicious);
      } else {
        assert r.suspicious == rest.suspicious;
      }
    }
  }

  /** A record whose name none of `rest` has keeps the records distinct. */
  lemma DistinctRecordsCons(x: SuspiciousResolution, rest: seq<SuspiciousResolution>)
    requires DistinctRecords(rest) && forall s :: s in rest ==> s.domain != x.domain
    ensures DistinctRecords([x] + rest)
  {
    var rs := [x] + rest;
    forall a, b | 0 <= a < b < |rs|
      ensures rs[a].domain != rs[b].domain
    {
      assert rs[b] == rest[b - 1];
      if a > 0 {
        assert rs[a] == rest[a - 1];
      } else {
        assert rs[b] in rest;
      }
    }
  }

  /** Hijacking: two suspicious names, or one with no clean name at all. */
  predicate Hijacked(suspicious: nat, successful: nat)
  {
    suspicious >= 2 || (suspicious > 0 && successful == 0)
  }

  /**
   * `testDnsResolution`: each test name is clean, suspicious or failed;
   * only clean ones count as successes. `TestOutcomes` pins the counts and
   * the records to the lookups.
   */
  function TestDnsResolution(lookups: seq<Lookup>): (r: DnsTestResult)
    requires |lookups| == |TestDomains|
    ensures r.totalTests == 4
    ensures r.successfulTests + |r.suspiciousResolutions| + Failures(lookups) == r.totalTests
    ensures r.successfulTests + |r.suspiciousResolutions| <= r.totalTests
    ensures forall i :: 0 <= i < 4 && lookups[i].Resolved? && SuspiciousAnswer(TestDomains[i], lookups[i].ips) ==>
              SuspiciousResolution(TestDomains[i], lookups[i].ips) in r.suspiciousResolutions
    ensures forall s :: s in r.suspiciousResolutions ==> s.domain in TestDomains && SuspiciousAnswer(s.domain, s.resolvedIps)
    ensures r.hijackingDetected <==>
              |r.suspiciousResolutions| >= 2 || (|r.suspiciousResolutions| > 0 && r.successfulTests == 0)
  {
    var t := Classify(TestDomains, lookups);
    DnsTestResult(Hijacked(|t.suspicious|, t.successful), t.suspicious, |TestDomains|, t.successful)
  }

  /**
   * The test's counts are how often each outcome occurs, so the hijacking
   * verdict is decided by the outcomes of the four lookups.
   */
  lemma TestOutcomes(lookups: seq<Lookup>)
    requires |lookups| == |TestDomains|
    ensures TestDnsResolution(lookups).successfulTests == multiset(Outcomes(TestDomains, lookups))[Clean]
    ensures |TestDnsResolution(lookups).suspiciousResolutions| == multiset(Outcomes(TestDomains, lookups))[Suspicious]
    ensures TestDnsResolution(lookups).hijackingDetected <==>
              Hijacked(multiset(Outcomes(TestDomains, lookups))[Suspicious], multiset(Outcomes(TestDomains, lookups))[Clean])
  {
    ClassifyCounts(TestDomains, lookups);
  }

  /** Each suspicious test name is recorded once, with the answer its own lookup returned. */
  lemma TestRecords(lookups: seq<Lookup>)
    requires |lookups| == |TestDomains|
    ensures DistinctRecords(TestDnsResolution(lookups).suspiciousResolutions)
    ensures forall s :: s in TestDnsResolution(lookups).suspiciousResolutions ==>
              exists i :: 0 <= i < 4 && s.domain == TestDomains[i]
                          && lookups[i] == Resolved(s.resolvedIps) && SuspiciousAnswer(s.domain, s.resolvedIps)
  {
    assert DistinctNames(TestDomains);
    ClassifyDistinct(TestDomains, lookups);
  }

  /** When every lookup fails nothing is suspicious, nothing succeeds and nothing is hijacked. */
  lemma AllFailedIsNotHijack(lookups: seq<Lookup>)
    requires |lookups| == |TestDomains|
    requires forall i :: 0 <= i < |lookups| ==> lookups[i].Failed?
    ensures TestDnsResolution(lookups).successfulTests == 0
    ensures TestDnsResolution(lookups).suspiciousResolutions == []
    ensures !TestDnsResolution(lookups).hijackingDetected
  {
    FailuresAll(lookups);
  }

  lemma {:induction false} FailuresAll(lookups: seq<Lookup>)
    requires forall i :: 0 <= i < |lookups| ==> lookups[i].Failed?
    ensures Failures(lookups) == |lookups|
    decreases |lookups|
  {
    if |lookups| > 0 {
      FailuresAll(lookups[1..]);
    }
  }

  /** None of the test names mentions "local", so a private answer for any of them is suspicious. */
  lemma PrivateAnswerForTestDomain(k: nat, ip: string)
    requires k < |TestDomains| && ("192.168." <= ip || "10." <= ip)
    ensures SuspiciousAddress(TestDomains[k], ip)
  {
    var d := TestDomains[k];
    if Contains(d, "local") {
      NoLocalInTestDomain(k);
    }
  }

  /** No test name has an "o" followed by a "c", which "local" would need. */
  lemma NoLocalInTestDomain(k: nat)
    requires k < |TestDomains|
    ensures !Contains(TestDomains[k], "local")
  {
    var d := TestDomains[k];
    assert forall i :: 0 <= i < |d| - 1 ==> d[i] != 'o' || d[i + 1] != 'c';
    PairRulesOut(d, "local", 1);
  }

  // -------------------------------------------------------- success rate

  /** What the checker remembers of its last test. */
  datatype DnsStats = DnsStats(lastSuccessfulQueries: nat, lastTotalQueries: nat)

  const NoTestYet := DnsStats(0, 0)

  /** `getLastSuccessRate`: 1 before any test, else the share of clean names. */
  function LastSuccessRate(st: DnsStats): (r: real)
    ensures st.lastTotalQueries == 0 ==> r == 1.0
    ensures st.lastTotalQueries > 0 ==> r * st.lastTotalQueries as real == st.lastSuccessfulQueries as real
    ensures st.lastSuccessfulQueries <= st.lastTotalQueries ==> 0.0 <= r <= 1.0
  {
    if st.lastTotalQueries == 0 then 1.0
    else st.lastSuccessfulQueries as real / st.lastTotalQueries as real
  }

  /** The state a test leaves behind. */
  function Record(t: DnsTestResult): (st: DnsStats)
    ensures st.lastSuccessfulQueries == t.successfulTests && st.lastTotalQueries == t.totalTests
  {
    DnsStats(t.successfulTests, t.totalTests)
  }

  /**
   * After a test the rate lies in [0, 1]; it is 0 exactly when no name was
   * clean and 1 exactly when all four were.
   */
  lemma RateAfterTest(lookups: seq<Lookup>)
    requires |lookups| == |TestDomains|
    ensures var rate := LastSuccessRate(Record(TestDnsResolution(lookups)));
            0.0 <= rate <= 1.0
            && (rate == 0.0 <==> TestDnsResolution(lookups).successfulTests == 0)
            && (rate == 0.0 <==> forall i :: 0 <= i < 4 ==> !(lookups[i].Resolved? && !SuspiciousAnswer(TestDomains[i], lookups[i].ips)))
            && (rate == 1.0 <==> forall i :: 0 <= i < 4 ==> lookups[i].Resolved? && !SuspiciousAnswer(TestDomains[i], lookups[i].ips))
  {
    var t := TestDnsResolution(lookups);
    var c := Classify(TestDomains, lookups);
    assert t.successfulTests == c.successful;
    var rate := LastSuccessRate(Record(t));
    assert rate * 4.0 == t.successfulTests as real;
    ClassifyNoneClean(TestDomains, lookups);
  }

  // -------------------------------------------------------- verdict

  datatype DnsSecurityResult = DnsSecurityResult(
    threatDetected: bool,
    threatLevel: Level,
    currentDnsServers: seq<string>,
    dnsAreTrusted: bool,
    testResult: DnsTestResult)

  /** Some resolver is configured and none is acceptable. */
  predicate HasUntrustedDns(currentDns: seq<string>)
  {
    |currentDns| > 0 && !AreDnsServersTrusted(currentDns)
  }

  /**
   * `performDnsSecurityCheck`: Critical for hijacking through an untrusted
   * resolver, High for hijacking alone, Medium for an untrusted resolver
   * alone, else Low; a threat needs hijacking together with an untrusted
   * resolver or at least three suspicious names.
   */
  function PerformDnsSecurityCheck(linkDns: Option<seq<Option<string>>>, lookups: seq<Lookup>): (r: DnsSecurityResult)
    requires |lookups| == |TestDomains|
    ensures r.currentDnsServers == CurrentDnsServers(linkDns) && r.testResult == TestDnsResolution(lookups)
    ensures r.dnsAreTrusted <==> exists i :: 0 <= i < |r.currentDnsServers| && AcceptedResolver(r.currentDnsServers[i])
    ensures r.threatLevel == Critical <==> r.testResult.hijackingDetected && !r.dnsAreTrusted && |r.currentDnsServers| > 0
    ensures r.threatLevel == High <==> r.testResult.hijackingDetected && (r.dnsAreTrusted || |r.currentDnsServers| == 0)
    ensures r.threatLevel == Medium <==> !r.testResult.hijackingDetected && !r.dnsAreTrusted && |r.currentDnsServers| > 0
    ensures r.threatLevel == Low <==> !r.testResult.hijackingDetected && (r.dnsAreTrusted || |r.currentDnsServers| == 0)
    ensures r.threatDetected <==>
              r.testResult.hijackingDetected
              && ((!r.dnsAreTrusted && |r.currentDnsServers| > 0) || |r.testResult.suspiciousResolutions| >= 3)
  {
    var currentDns := CurrentDnsServers(linkDns);
    var trusted := AreDnsServersTrusted(currentDns);
    var test := TestDnsResolution(lookups);
    var untrusted := !trusted && |currentDns| > 0;
    var threat := untrusted && test.hijackingDetected;
    var level :=
      if threat && test.hijackingDetected then Critical
      else if test.hijackingDetected then High
      else if untrusted then Medium
      else Low;
    var actual :=
      if test.hijackingDetected && untrusted then true
      else if test.hijackingDetected && |test.suspiciousResolutions| >= 3 then true
      else false;
    DnsSecurityResult(actual, level, currentDns, trusted, test)
  }

  /** A DNS threat is always a hijacking. */
  lemma ThreatImpliesHijack(linkDns: Option<seq<Option<string>>>, lookups: seq<Lookup>)
    requires |lookups| == |TestDomains|
    ensures PerformDnsSecurityCheck(linkDns, lookups).threatDetected ==> TestDnsResolution(lookups).hijackingDetected
  {
  }

  /**
   * With an acceptable resolver configured, the level is never above High
   * and only three or more suspicious names make a threat.
   */
  lemma TrustedResolverCapsVerdict(linkDns: Option<seq<Option<string>>>, lookups: seq<Lookup>, k: nat)
    requires |lookups| == |TestDomains|
    requires k < |CurrentDnsServers(linkDns)| && CurrentDnsServers(linkDns)[k] in TrustedDnsServers
    ensures PerformDnsSecurityCheck(linkDns, lookups).threatLevel in {Low, High}
    ensures PerformDnsSecurityCheck(linkDns, lookups).threatDetected ==>
              |TestDnsResolution(lookups).suspiciousResolutions| >= 3
  {
    var r := PerformDnsSecurityCheck(linkDns, lookups);
    assert AcceptedResolver(r.currentDnsServers[k]);
  }
}

=== FILE: fusion.dfy ===
/**
 * The MITM verdict (`NetworkSecurityPlugin.detectMitm`): the device scan,
 * the DNS check and the certificate check are fused into one score, one
 * yes/no answer, one primary detection type and one reason text. The
 * plugin remembers the device list between cycles.
 */
module Fusion {
  import opened Base
  import opened Text
  import ArpTable
  import LocalScan
  import Gateway
  import Hybrid
  import DnsCheck
  import Certs

  /** Combined scores from here up to the outage threshold are alerts. */
  const DetectionThreshold: int := 50
  /** Combined scores from here on may be an outage rather than an attack. */
  const NetworkDownThreshold: int := 90

  datatype DetectionType = NetworkDown | DnsHijacking | NetworkAnomaly | SslStripping | NoDetection

  // ---------------------------------------------------------- DNS score

  /** The DNS success rate as the checker reports it after its test. */
  function DnsRate(dns: DnsCheck.DnsSecurityResult): real
  {
    DnsCheck.LastSuccessRate(DnsCheck.Record(dns.testResult))
  }

  /**
   * The DNS part of the score: 50, 35, 20 or 0 by success-rate band, and
   * 15 more when no resolver is accepted and some name failed.
   */
  function DnsThreatScore(rate: real, trusted: bool): (r: int)
    ensures 0 <= r <= 65
    ensures rate == 0.0 ==> r >= 50
    ensures r == 0 <==> rate >= 0.75 && (trusted || rate >= 1.0)
  {
    var band := if rate == 0.0 then 50 else if rate < 0.5 then 35 else if rate < 0.75 then 20 else 0;
    band + (if !trusted && rate < 1.0 then 15 else 0)
  }

  /** Over the four test names the score depends only on how many resolved cleanly. */
  lemma DnsScoreOfSuccesses(successful: nat, trusted: bool)
    requires successful <= 4
    ensures DnsThreatScore(successful as real / 4.0, trusted) ==
              [50, 35, 20, 0, 0][successful] + (if !trusted && successful < 4 then 15 else 0)
  {
  }

  // ---------------------------------------------------------- reasons

  /** One line of the reason text. */
  datatype Reason =
    | CompleteDnsFailure(successful: nat, total: nat)
    | MajorityDnsFailed(successful: nat, total: nat)
    | SomeDnsFailed(successful: nat, total: nat)
    | NetworkFinding(message: string)
    | SuspiciousDns
    | UntrustedFailingDns
    | SelfSignedCerts(count: nat)
    | PossibleStripping

  /** The position of each kind of reason in the text. */
  function Rank(x: Reason): nat
  {
    match x
    case CompleteDnsFailure(_, _) => 0
    case MajorityDnsFailed(_, _) => 0
    case SomeDnsFailed(_, _) => 0
    case NetworkFinding(_) => 1
    case SuspiciousDns => 2
    case UntrustedFailingDns => 3
    case SelfSignedCerts(_) => 4
    case PossibleStripping => 5
  }

  const SuccessfulText: string := " successful)"
  const CompleteFailureText: string := "Complete DNS failure - all queries blocked/hijacked "
  const MajorityFailedText: string := "Majority of DNS queries failed "
  const SomeFailedText: string := "Some DNS queries failed "
  const SuspiciousDnsText: string := "DNS resolution showing suspicious patterns"
  const UntrustedFailingText: string := "Untrusted DNS servers with failing queries"
  const SelfSignedText: string := " self-signed certificate(s) detected"
  const StrippingText: string := "Possible SSL stripping attack"

  function Tally(successful: nat, total: nat): string
  {
    "(" + NatToString(successful) + "/" + NatToString(total) + SuccessfulText
  }

  function ReasonText(x: Reason): string
  {
    match x
    case CompleteDnsFailure(s, t) => CompleteFailureText + Tally(s, t)
    case MajorityDnsFailed(s, t) => MajorityFailedText + Tally(s, t)
    case SomeDnsFailed(s, t) => SomeFailedText + Tally(s, t)
    case NetworkFinding(m) => m
    case SuspiciousDns => SuspiciousDnsText
    case UntrustedFailingDns => UntrustedFailingText
    case SelfSignedCerts(n) => NatToString(n) + SelfSignedText
    case PossibleStripping => StrippingText
  }

  /** The messages of the network findings among `xs`, in order. */
  function NetworkMessages(xs: seq<Reason>): seq<string>
  {
    if |xs| == 0 then []
    else (if xs[0].NetworkFinding? then [xs[0].message] else []) + NetworkMessages(xs[1..])
  }

  lemma {:induction false} NetworkMessagesAppend(a: seq<Reason>, b: seq<Reason>)
    ensures NetworkMessages(a + b) == NetworkMessages(a) + NetworkMessages(b)
    decreases |a|
  {
    if |a| > 0 {
      assert (a + b)[0] == a[0] && (a + b)[1..] == a[1..] + b;
      NetworkMessagesAppend(a[1..], b);
    } else {
      assert a + b == b;
    }
  }

  /** One network-finding line per message, in order. */
  function Findings(ms: seq<string>): seq<Reason>
  {
    seq(|ms|, i requires 0 <= i < |ms| => NetworkFinding(ms[i]))
  }

  lemma {:induction false} NetworkMessagesOfFindings(ms: seq<string>)
    ensures NetworkMessages(Findings(ms)) == ms
    decreases |ms|
  {
    if |ms| > 0 {
      assert Findings(ms)[1..] == Findings(ms[1..]);
      NetworkMessagesOfFindings(ms[1..]);
    }
  }

  lemma {:induction false} NetworkMessagesNone(xs: seq<Reason>)
    requires forall x :: x in xs ==> !x.NetworkFinding?
    ensures NetworkMessages(xs) == []
    decreases |xs|
  {
    if |xs| > 0 {
      assert xs[0] in xs;
      assert forall x :: x in xs[1..] ==> x in xs;
      NetworkMessagesNone(xs[1..]);
    }
  }

  /**
   * The failure band line for the DNS rate: at most one line, present
   * exactly below 0.75 and always of rank 0, and the complete-failure line,
   * with the test counts, exactly at rate 0.
   */
  function DnsBand(rate: real, test: DnsCheck.DnsTestResult): (r: seq<Reason>)
    ensures |r| <= 1 && (|r| == 1 <==> rate < 0.75)
    ensures forall x :: x in r ==> Rank(x) == 0
    ensures forall s, t :: CompleteDnsFailure(s, t) in r <==>
              rate == 0.0 && s == test.successfulTests && t == test.totalTests
  {
    var s := test.successfulTests;
    var t := test.totalTests;
    if rate == 0.0 then [CompleteDnsFailure(s, t)]
    else if rate < 0.5 then [MajorityDnsFailed(s, t)]
    else if rate < 0.75 then [SomeDnsFailed(s, t)]
    else []
  }

  /** One reason line per network threat, when the hybrid detector reports a threat. */
  function NetFindings(network: Hybrid.MitmThreatResult): seq<Reason>
  {
    Findings(if network.threatDetected then network.threats else [])
  }

  lemma NetFindingsAreFindings(network: Hybrid.MitmThreatResult)
    ensures forall x :: x in NetFindings(network) ==> x.NetworkFinding?
  {
  }

  /** Reasons never go down in rank from left to right. */
  predicate Ordered(xs: seq<Reason>)
  {
    forall i, j :: 0 <= i < j < |xs| ==> Rank(xs[i]) <= Rank(xs[j])
  }

  /** The one-element sequence `[x]` when `b` holds, else the empty one. */
  function Opt(b: bool, x: Reason): (r: seq<Reason>)
    ensures forall y :: y in r <==> b && y == x
    ensures |r| <= 1
  {
    if b then [x] else []
  }

  lemma MembersOfFour(a: seq<Reason>, b: seq<Reason>, c: seq<Reason>, d: seq<Reason>)
    ensures forall x :: x in a + b + c + d <==> x in a || x in b || x in c || x in d
  {
    assert forall x :: x in a + b <==> x in a || x in b;
    assert forall x :: x in a + b + c <==> x in a + b || x in c;
  }

  lemma MembersOfThree(a: seq<Reason>, b: seq<Reason>, c: seq<Reason>)
    ensures forall x :: x in a + b + c <==> x in a || x in b || x in c
  {
    assert forall x :: x in a + b <==> x in a || x in b;
  }

  /** Two ordered runs split at rank `k` concatenate to an ordered run. */
  lemma OrderedJoin(a: seq<Reason>, k: nat, b: seq<Reason>)
    requires Ordered(a) && Ordered(b)
    requires forall x :: x in a ==> Rank(x) <= k
    requires forall y :: y in b ==> k <= Rank(y)
    ensures Ordered(a + b)
  {
    forall i, j | 0 <= i < j < |a + b|
      ensures Rank((a + b)[i]) <= Rank((a + b)[j])
    {
      if i < |a| && j >= |a| {
        assert (a + b)[i] in a && (a + b)[j] == b[j - |a|] && b[j - |a|] in b;
      } else if i >= |a| {
        assert (a + b)[i] == b[i - |a|] && (a + b)[j] == b[j - |a|];
      }
    }
  }

  /**
   * The reasons about resolvers and certificates: suspicious DNS, untrusted
   * failing DNS, self-signed certificates, stripping, each exactly when its
   * condition holds.
   */
  function LaterReasons(dns: DnsCheck.DnsSecurityResult, ssl: Certs.SslSecurityResult, rate: real): seq<Reason>
  {
    Opt(dns.testResult.hijackingDetected, SuspiciousDns)
    + Opt(!dns.dnsAreTrusted && rate < 1.0 && rate > 0.0, UntrustedFailingDns)
    + Opt(ssl.selfSignedCount > 0, SelfSignedCerts(ssl.selfSignedCount))
    + Opt(ssl.strippingResult.strippingDetected, PossibleStripping)
  }

  /** The later reasons all rank 2 or more. */
  lemma LaterReasonsRanks(dns: DnsCheck.DnsSecurityResult, ssl: Certs.SslSecurityResult, rate: real)
    ensures forall x :: x in LaterReasons(dns, ssl, rate) ==> Rank(x) >= 2
  {
    var a := Opt(dns.testResult.hijackingDetected, SuspiciousDns);
    var b := Opt(!dns.dnsAreTrusted && rate < 1.0 && rate > 0.0, UntrustedFailingDns);
    var c := Opt(ssl.selfSignedCount > 0, SelfSignedCerts(ssl.selfSignedCount));
    var d := Opt(ssl.strippingResult.strippingDetected, PossibleStripping);
    MembersOfFour(a, b, c, d);
  }

  /** Each later reason is present exactly when its condition holds. */
  lemma LaterReasonsMembers(dns: DnsCheck.DnsSecurityResult, ssl: Certs.SslSecurityResult, rate: real)
    ensures SuspiciousDns in LaterReasons(dns, ssl, rate) <==> dns.testResult.hijackingDetected
    ensures UntrustedFailingDns in LaterReasons(dns, ssl, rate) <==> !dns.dnsAreTrusted && 0.0 < rate < 1.0
    ensures forall n :: SelfSignedCerts(n) in LaterReasons(dns, ssl, rate) <==> n == ssl.selfSignedCount && n > 0
    ensures PossibleStripping in LaterReasons(dns, ssl, rate) <==> ssl.strippingResult.strippingDetected
  {
  }

  /** The later reasons come in rank order. */
  lemma LaterReasonsOrdered(dns: DnsCheck.DnsSecurityResult, ssl: Certs.SslSecurityResult, rate: real)
    ensures Ordered(LaterReasons(dns, ssl, rate))
  {
    var a := Opt(dns.testResult.hijackingDetected, SuspiciousDns);
    var b := Opt(!dns.dnsAreTrusted && rate < 1.0 && rate > 0.0, UntrustedFailingDns);
    var c := Opt(ssl.selfSignedCount > 0, SelfSignedCerts(ssl.selfSignedCount));
    var d := Opt(ssl.strippingResult.strippingDetected, PossibleStripping);
    MembersOfFour(a, b, c, d);
    OrderedJoin(a, 2, b);
    assert forall x :: x in a + b <==> x in a || x in b;
    OrderedJoin(a + b, 3, c);
    assert forall x :: x in a + b + c <==> x in a + b || x in c;
    OrderedJoin(a + b + c, 4, d);
  }

  /** A band line, then network findings, then later reasons, is in rank order. */
  lemma OrderedThree(band: seq<Reason>, net: seq<Reason>, later: seq<Reason>)
    requires forall x :: x in band ==> Rank(x) == 0
    requires forall x :: x in net ==> x.NetworkFinding?
    requires Ordered(later) && forall x :: x in later ==> Rank(x) >= 2
    ensures Ordered(band + net + later)
  {
    var r := band + net + later;
    forall i, j | 0 <= i < j < |r|
      ensures Rank(r[i]) <= Rank(r[j])
    {
      if j >= |band| + |net| {
        if i >= |band| + |net| {
          assert r[i] == later[i - |band| - |net|] && r[j] == later[j - |band| - |net|];
        } else if i >= |band| {
          assert r[i] == net[i - |band|] && r[j] == later[j - |band| - |net|];
          assert r[i] in net && r[j] in later;
        } else {
          assert r[i] in band && r[j] == later[j - |band| - |net|] && r[j] in later;
        }
      } else if j >= |band| {
        assert r[j] == net[j - |band|] && r[j] in net;
        if i < |band| {
          assert r[i] in band;
        } else {
          assert r[i] == net[i - |band|] && r[i] in net;
        }
      } else {
        assert r[i] in band && r[j] in band;
      }
    }
  }

  /**
   * The reasons of a cycle that is not an outage, in the order DNS band,
   * network findings, suspicious DNS, untrusted failing DNS, self-signed
   * certificates, stripping; each present exactly when its condition holds
   * (`ReasonsBand`, `ReasonsLater`, `ReasonsCarryNetworkThreats`). The list
   * comes in rank order.
   */
  function Reasons(network: Hybrid.MitmThreatResult, dns: DnsCheck.DnsSecurityResult,
                   ssl: Certs.SslSecurityResult, rate: real): (r: seq<Reason>)
    ensures Ordered(r)
  {
    var band := DnsBand(rate, dns.testResult);
    var net := NetFindings(network);
    var later := LaterReasons(dns, ssl, rate);
    NetFindingsAreFindings(network);
    LaterReasonsRanks(dns, ssl, rate);
    LaterReasonsOrdered(dns, ssl, rate);
    OrderedThree(band, net, later);
    band + net + later
  }

  /** A band line leads the reasons exactly below 0.75, and the complete-failure line exactly at 0. */
  lemma ReasonsBand(network: Hybrid.MitmThreatResult, dns: DnsCheck.DnsSecurityResult,
                    ssl: Certs.SslSecurityResult, rate: real)
    ensures var r := Reasons(network, dns, ssl, rate);
            (exists x :: x in r && Rank(x) == 0) <==> rate < 0.75
    ensures var r := Reasons(network, dns, ssl, rate);
            forall s, t :: CompleteDnsFailure(s, t) in r <==>
              rate == 0.0 && s == dns.testResult.successfulTests && t == dns.testResult.totalTests
  {
    var band := DnsBand(rate, dns.testResult);
    NetFindingsAreFindings(network);
    LaterReasonsRanks(dns, ssl, rate);
    MembersOfThree(band, NetFindings(network), LaterReasons(dns, ssl, rate));
    assert rate < 0.75 ==> band[0] in band;
  }

  /** Each later reason is among the reasons exactly when its condition holds. */
  lemma ReasonsLater(network: Hybrid.MitmThreatResult, dns: DnsCheck.DnsSecurityResult,
                     ssl: Certs.SslSecurityResult, rate: real)
    ensures var r := Reasons(network, dns, ssl, rate);
            SuspiciousDns in r <==> dns.testResult.hijackingDetected
    ensures var r := Reasons(network, dns, ssl, rate);
            UntrustedFailingDns in r <==> !dns.dnsAreTrusted && 0.0 < rate < 1.0
    ensures var r := Reasons(network, dns, ssl, rate);
            forall n :: SelfSignedCerts(n) in r <==> n == ssl.selfSignedCount && n > 0
    ensures var r := Reasons(network, dns, ssl, rate);
            PossibleStripping in r <==> ssl.strippingResult.strippingDetected
  {
    NetFindingsAreFindings(network);
    LaterReasonsMembers(dns, ssl, rate);
    MembersOfThree(DnsBand(rate, dns.testResult), NetFindings(network), LaterReasons(dns, ssl, rate));
  }

  /** The network findings among the reasons are exactly the hybrid detector's threats. */
  lemma ReasonsCarryNetworkThreats(network: Hybrid.MitmThreatResult, dns: DnsCheck.DnsSecurityResult,
                                   ssl: Certs.SslSecurityResult, rate: real)
    ensures NetworkMessages(Reasons(network, dns, ssl, rate)) ==
              if network.threatDetected then network.threats else []
  {
    var band := DnsBand(rate, dns.testResult);
    var net := NetFindings(network);
    var later := LaterReasons(dns, ssl, rate);
    assert Reasons(network, dns, ssl, rate) == band + net + later;
    NetworkMessagesAppend(band, net);
    NetworkMessagesAppend(band + net, later);
    LaterReasonsRanks(dns, ssl, rate);
    NetworkMessagesNone(band);
    NetworkMessagesNone(later);
    NetworkMessagesOfFindings(if network.threatDetected then network.threats else []);
  }

  /** The text of each reason, in order. */
  function Texts(xs: seq<Reason>): seq<string>
  {
    seq(|xs|, i requires 0 <= i < |xs| => ReasonText(xs[i]))
  }

  const DownText: string := "Network appears to be down or temporarily unavailable. This is NOT a security threat - "
    + "likely WiFi power saving or temporary connectivity issue. (Score: "
  const NoThreatText: string := "No threats detected. Network appears secure. (Score: "

  function DownMessage(score: int): string
  {
    DownText + IntToString(score) + "/100)"
  }

  function NoThreatMessage(score: int): string
  {
    NoThreatText + IntToString(score) + "/100)"
  }

  /**
   * `buildReasonString`: an outage has its own text; otherwise the reasons
   * joined by `"; "`, or the all-clear text when there are none. A joined
   * text starts with the first reason and contains every reason's text.
   */
  function ReasonString(network: Hybrid.MitmThreatResult, dns: DnsCheck.DnsSecurityResult,
                        ssl: Certs.SslSecurityResult, rate: real, score: int, down: bool): (r: string)
    ensures down ==> r == DownMessage(score)
    ensures !down && |Reasons(network, dns, ssl, rate)| == 0 ==> r == NoThreatMessage(score)
    ensures var reasons := Reasons(network, dns, ssl, rate);
            !down && |reasons| > 0 ==>
              ReasonText(reasons[0]) <= r && forall i :: 0 <= i < |reasons| ==> Contains(r, ReasonText(reasons[i]))
  {
    if down then DownMessage(score)
    else
      var reasons := Reasons(network, dns, ssl, rate);
      if |reasons| == 0 then NoThreatMessage(score)
      else
        ReasonsInJoin(reasons);
        Join(Texts(reasons), "; ")
  }

  /** The joined reason text starts with the first reason and contains each of them. */
  lemma ReasonsInJoin(reasons: seq<Reason>)
    requires |reasons| > 0
    ensures ReasonText(reasons[0]) <= Join(Texts(reasons), "; ")
    ensures forall i :: 0 <= i < |reasons| ==> Contains(Join(Texts(reasons), "; "), ReasonText(reasons[i]))
  {
    var texts := Texts(reasons);
    JoinStartsWithFirst(texts, "; ");
    JoinContainsEach(texts, "; ");
    assert forall i :: 0 <= i < |reasons| ==> texts[i] == ReasonText(reasons[i]);
  }

  lemma JoinStartsWithFirst(parts: seq<string>, sep: string)
    requires |parts| > 0
    ensures parts[0] <= Join(parts, sep)
  {
  }

  /** With no finding anywhere the reason text is the all-clear. */
  lemma NoReasonsIffQuiet(network: Hybrid.MitmThreatResult, dns: DnsCheck.DnsSecurityResult,
                          ssl: Certs.SslSecurityResult, rate: real)
    ensures |Reasons(network, dns, ssl, rate)| == 0 <==>
              rate >= 0.75 && (!network.threatDetected || |network.threats| == 0)
              && !dns.testResult.hijackingDetected && (dns.dnsAreTrusted || rate <= 0.0 || rate >= 1.0)
              && ssl.selfSignedCount == 0 && !ssl.strippingResult.strippingDetected
  {
    var r := Reasons(network, dns, ssl, rate);
    ReasonsBand(network, dns, ssl, rate);
    ReasonsLater(network, dns, ssl, rate);
    ReasonsCarryNetworkThreats(network, dns, ssl, rate);
    if |r| > 0 {
      var x := r[0];
      assert x in r;
      if x.NetworkFinding? {
        NetworkMessagesHas(r, 0);
      } else if x.SelfSignedCerts? {
        assert SelfSignedCerts(x.count) in r;
      }
      if rate < 0.75 { }
    }
    if network.threatDetected && |network.threats| > 0 {
      assert |NetworkMessages(r)| > 0;
    }
  }

  lemma {:induction false} NetworkMessagesHas(xs: seq<Reason>, k: nat)
    requires k < |xs| && xs[k].NetworkFinding?
    ensures |NetworkMessages(xs)| > 0
    decreases k
  {
    if k > 0 {
      NetworkMessagesHas(xs[1..], k - 1);
    }
  }

  // ---------------------------------------------------------- verdict

  datatype MitmVerdict = MitmVerdict(
    mitmDetected: bool,
    detectionType: DetectionType,
    threatScore: int,
    isNetworkDown: bool,
    dnsSuccessRate: real,
    dnsThreatScore: int,
    networkAnomalyDetected: bool,
    reason: string)

  /** The combined score lies in the alert band below the outage threshold. */
  predicate InAlertBand(score: int)
  {
    DetectionThreshold <= score < NetworkDownThreshold
  }

  /** The primary detection type: outage, then hijacking, then network anomaly, then a self-signed certificate. */
  function PrimaryType(down: bool, hijack: bool, anomaly: bool, selfSigned: bool): (t: DetectionType)
    ensures t == NetworkDown <==> down
    ensures t == DnsHijacking <==> !down && hijack
    ensures t == NetworkAnomaly <==> !down && !hijack && anomaly
    ensures t == SslStripping <==> !down && !hijack && !anomaly && selfSigned
    ensures t == NoDetection <==> !down && !hijack && !anomaly && !selfSigned
  {
    if down then NetworkDown
    else if hijack then DnsHijacking
    else if anomaly then NetworkAnomaly
    else if selfSigned then SslStripping
    else NoDetection
  }

  /**
   * The scoring and verdict of `detectMitm`: a total DNS failure next to a
   * network score of 60 or more is an outage, never an attack; otherwise any
   * of the alert band, a network threat, an unaccepted resolver failing most
   * names, hijacking or a self-signed certificate is an attack. The
   * detection type follows outage, hijacking, network anomaly, stripping.
   */
  function DetectMitm(network: Hybrid.MitmThreatResult, dns: DnsCheck.DnsSecurityResult,
                      ssl: Certs.SslSecurityResult, rate: real): (r: MitmVerdict)
    ensures r.dnsSuccessRate == rate && r.dnsThreatScore == DnsThreatScore(r.dnsSuccessRate, dns.dnsAreTrusted)
    ensures 0 <= r.threatScore <= 100
    ensures r.threatScore == Clamp(network.threatScore + r.dnsThreatScore, 0, 100)
    ensures r.isNetworkDown <==> r.threatScore >= NetworkDownThreshold && r.dnsSuccessRate == 0.0 && network.threatScore >= 60
    ensures r.isNetworkDown ==> !r.mitmDetected && r.detectionType == NetworkDown
    ensures r.mitmDetected <==>
              !r.isNetworkDown
              && (InAlertBand(r.threatScore) || network.threatDetected
                  || (0.0 < r.dnsSuccessRate < 0.5 && !dns.dnsAreTrusted)
                  || dns.testResult.hijackingDetected || ssl.threatDetected)
    ensures r.networkAnomalyDetected <==> network.threatDetected || InAlertBand(r.threatScore)
    ensures r.detectionType == NetworkDown <==> r.isNetworkDown
    ensures r.detectionType == DnsHijacking <==> !r.isNetworkDown && dns.testResult.hijackingDetected
    ensures r.detectionType == NetworkAnomaly <==>
              !r.isNetworkDown && !dns.testResult.hijackingDetected && r.networkAnomalyDetected
    ensures r.detectionType == SslStripping <==>
              !r.isNetworkDown && !dns.testResult.hijackingDetected && !r.networkAnomalyDetected && ssl.selfSignedCount > 0
    ensures r.detectionType == NoDetection <==>
              !r.isNetworkDown && !dns.testResult.hijackingDetected && !r.networkAnomalyDetected && ssl.selfSignedCount == 0
    ensures r.reason == ReasonString(network, dns, ssl, r.dnsSuccessRate, r.threatScore, r.isNetworkDown)
  {
    var dnsScore := DnsThreatScore(rate, dns.dnsAreTrusted);
    var score := Clamp(network.threatScore + dnsScore, 0, 100);
    var down := score >= NetworkDownThreshold && rate == 0.0 && network.threatScore >= 60;
    var band := score >= DetectionThreshold && score < NetworkDownThreshold;
    var mitm := !down && (band || network.threatDetected || (rate > 0.0 && rate < 0.5 && !dns.dnsAreTrusted)
                          || dns.testResult.hijackingDetected || ssl.threatDetected);
    var kind := PrimaryType(down, dns.testResult.hijackingDetected, network.threatDetected || band, ssl.selfSignedCount > 0);
    MitmVerdict(mitm, kind, score, down, rate, dnsScore, network.threatDetected || band,
                ReasonString(network, dns, ssl, rate, score, down))
  }

  /**
   * The score condition of an outage is implied by the other two: a total
   * DNS failure adds at least 50 to a network score of at least 60.
   */
  lemma OutageIff(network: Hybrid.MitmThreatResult, dns: DnsCheck.DnsSecurityResult, ssl: Certs.SslSecurityResult,
                   rate: real)
    ensures DetectMitm(network, dns, ssl, rate).isNetworkDown <==> rate == 0.0 && network.threatScore >= 60
    ensures DetectMitm(network, dns, ssl, rate).isNetworkDown ==> DetectMitm(network, dns, ssl, rate).threatScore == 100
  {
    var r := DetectMitm(network, dns, ssl, rate);
    if rate == 0.0 && network.threatScore >= 60 {
      assert r.dnsThreatScore >= 50;
    }
  }

  /**
   * A total DNS failure on an otherwise quiet network still lands in the
   * alert band and is reported as a network anomaly.
   */
  lemma DnsOutageOnQuietNetworkIsAnomaly(network: Hybrid.MitmThreatResult, dns: DnsCheck.DnsSecurityResult,
                                         ssl: Certs.SslSecurityResult, rate: real)
    requires rate == 0.0 && 0 <= network.threatScore < 25 && !dns.testResult.hijackingDetected
    ensures DetectMitm(network, dns, ssl, rate).mitmDetected
    ensures DetectMitm(network, dns, ssl, rate).detectionType == NetworkAnomaly
  {
  }

  /**
   * Every name resolving cleanly through an accepted resolver, with no
   * network, hijacking or certificate finding, is no attack and reads as
   * the all-clear.
   */
  lemma QuietCycleIsSecure(network: Hybrid.MitmThreatResult, dns: DnsCheck.DnsSecurityResult,
                           ssl: Certs.SslSecurityResult, rate: real)
    requires rate == 1.0 && network.threatScore < DetectionThreshold && !network.threatDetected
    requires !dns.testResult.hijackingDetected
    requires !ssl.threatDetected && ssl.selfSignedCount == 0 && !ssl.strippingResult.strippingDetected
    ensures !DetectMitm(network, dns, ssl, rate).mitmDetected
    ensures DetectMitm(network, dns, ssl, rate).detectionType == NoDetection
    ensures DetectMitm(network, dns, ssl, rate).reason == NoThreatMessage(DetectMitm(network, dns, ssl, rate).threatScore)
  {
    NoReasonsIffQuiet(network, dns, ssl, 1.0);
  }

  // ---------------------------------------------------------- cycles

  /** What the plugin keeps between detection cycles. */
  datatype PluginState = PluginState(previousDevices: Option<seq<Hybrid.Device>>)

  const Attached := PluginState(None)

  /** Everything one cycle observes of the outside world. */
  datatype Observations = Observations(
    arp: ArpTable.ArpSource,
    swept: Option<seq<LocalScan.NetworkDevice>>,
    enhanced: Gateway.NetworkThreatAnalysis,
    linkDns: Option<seq<Option<string>>>,
    lookups: seq<DnsCheck.Lookup>,
    certProbes: seq<Certs.Probe>,
    strippingProbes: seq<Certs.Probe>,
    now: int)

  predicate Complete(o: Observations)
  {
    |o.lookups| == |DnsCheck.TestDomains| && |o.certProbes| == |Certs.TestTargets|
    && |o.strippingProbes| == |Certs.TestTargets|
  }

  /** The network result of a cycle: this scan diffed against what the state remembers. */
  function NetworkResult(st: PluginState, o: Observations): Hybrid.MitmThreatResult
  {
    Hybrid.DetectMitmThreats(Hybrid.ScanNetwork(o.arp, o.swept), st.previousDevices, o.enhanced)
  }

  /**
   * One `detectMitm` cycle: the verdict from this cycle's observations, and
   * the state remembering this cycle's devices for the next one.
   */
  function Cycle(st: PluginState, o: Observations): (r: (PluginState, MitmVerdict))
    requires Complete(o)
    ensures r.0.previousDevices == Some(Hybrid.ScanNetwork(o.arp, o.swept))
    ensures r.1.threatScore == Clamp(NetworkResult(st, o).threatScore + r.1.dnsThreatScore, 0, 100)
    ensures r.1.dnsSuccessRate == DnsCheck.LastSuccessRate(DnsCheck.Record(DnsCheck.TestDnsResolution(o.lookups)))
  {
    var devices := Hybrid.ScanNetwork(o.arp, o.swept);
    var network := Hybrid.DetectMitmThreats(devices, st.previousDevices, o.enhanced);
    var dns := DnsCheck.PerformDnsSecurityCheck(o.linkDns, o.lookups);
    var ssl := Certs.PerformSslSecurityCheck(o.certProbes, o.strippingProbes, o.now);
    (PluginState(Some(devices)), DetectMitm(network, dns, ssl, DnsRate(dns)))
  }

  /** The first cycle after attaching never scores device churn. */
  lemma FirstCycleHasNoChurn(o: Observations)
    requires Complete(o)
    ensures !Hybrid.UnusualChurn(Hybrid.ScanNetwork(o.arp, o.swept), Attached.previousDevices)
    ensures NetworkResult(Attached, o).threatScore ==
              o.enhanced.threatScore + (if Hybrid.SharesMac(Hybrid.ScanNetwork(o.arp, o.swept)) then 40 else 0)
  {
  }

  /** The second of two cycles diffs its devices against exactly those of the first. */
  lemma SecondCycleDiffsFirst(st: PluginState, o1: Observations, o2: Observations)
    requires Complete(o1) && Complete(o2)
    ensures var mid := Cycle(st, o1).0;
            NetworkResult(mid, o2) ==
              Hybrid.DetectMitmThreats(Hybrid.ScanNetwork(o2.arp, o2.swept), Some(Hybrid.ScanNetwork(o1.arp, o1.swept)), o2.enhanced)
    ensures Cycle(Cycle(st, o1).0, o2).0 == Cycle(st, o2).0
  {
  }

  /**
   * When every test name fails to resolve and the gateway scan alone
   * scores 60 or more, the cycle reports an outage, not an attack.
   */
  lemma TotalDnsFailureWithDeadGatewayIsOutage(st: PluginState, o: Observations)
    requires Complete(o)
    requires forall i :: 0 <= i < |o.lookups| ==> o.lookups[i].Failed?
    requires o.enhanced.threatScore >= 60
    ensures Cycle(st, o).1.isNetworkDown && !Cycle(st, o).1.mitmDetected
    ensures Cycle(st, o).1.detectionType == NetworkDown
  {
    DnsCheck.AllFailedIsNotHijack(o.lookups);
    var t := DnsCheck.TestDnsResolution(o.lookups);
    assert DnsCheck.LastSuccessRate(DnsCheck.Record(t)) == 0.0;
    var network := NetworkResult(st, o);
    assert network.threatScore >= o.enhanced.threatScore;
  }
}

=== FILE: gateway.dfy ===
/**
 * Gateway latency analysis and the comprehensive network score
 * (`EnhancedNetworkScanner`). Probe outcomes are inputs: `Some(ms)` is a
 * completed connect that took `ms` whole milliseconds, `None` one that threw.
 * Statistics are exact reals; the standard deviation `σ` is never taken:
 * `|x - mean| <= 2σ` is `(x - mean)² <= 4·var` and `σ > 40` is `var > 1600`.
 */
module Gateway {
  import opened Base
  import opened Text

  const PingCount: nat := 15
  const WarmUpPings: nat := 5
  /** A warm-up reply faster than this means the radio is awake. */
  const WarmUpCutoffMs: nat := 2000
  const SuspiciousLatencyMs: real := 100.0
  const HighLatencyMs: real := 150.0
  const LatencyStdDevThresholdMs: real := 40.0
  /** Below this fraction of answered pings connectivity is "intermittent". */
  const PartialFailureRate: real := 0.8

  datatype GatewayAnalysis = GatewayAnalysis(
    gatewayIp: string,
    avgLatency: real,
    maxLatency: real,
    minLatency: real,
    variance: real,                 // the square of the reported standard deviation
    suspiciousLatency: bool,
    highVariance: bool,
    completelyUnreachable: bool,
    partialFailure: bool)

  // ------------------------------------------------------------ warm-up

  predicate Awake(reply: Option<nat>)
  {
    reply.Some? && reply.value < WarmUpCutoffMs
  }

  /**
   * The warm-up loop: up to five probes, stopping at the first that
   * completes in under two seconds. `replies[i]` is what probe `i + 1` would
   * return; `issued` is how many were sent. The outcome is only logged.
   */
  method WarmUp(replies: seq<Option<nat>>) returns (chipAwake: bool, issued: nat)
    requires |replies| == WarmUpPings
    ensures 1 <= issued <= WarmUpPings
    ensures chipAwake <==> exists i :: 0 <= i < WarmUpPings && Awake(replies[i])
    ensures chipAwake ==> Awake(replies[issued - 1])
    ensures forall i :: 0 <= i < issued - 1 ==> !Awake(replies[i])
    ensures !chipAwake ==> issued == WarmUpPings
  {
    chipAwake := false;
    issued := 0;
    while issued < WarmUpPings && !chipAwake
      invariant 0 <= issued <= WarmUpPings
      invariant chipAwake <==> issued >= 1 && Awake(replies[issued - 1])
      invariant forall i :: 0 <= i < issued - 1 ==> !Awake(replies[i])
      decreases WarmUpPings - issued
    {
      chipAwake := Awake(replies[issued]);
      issued := issued + 1;
    }
  }

  // --------------------------------------------------------- statistics

  /** `mapNotNull`: the latencies of the probes that completed, in order. */
  function Samples(pings: seq<Option<nat>>): (r: seq<nat>)
    ensures |r| <= |pings|
    ensures |r| == 0 <==> forall i :: 0 <= i < |pings| ==> pings[i].None?
    ensures forall x :: x in r ==> Some(x) in pings
    decreases |pings|
  {
    if |pings| == 0 then []
    else
      var front := Samples(pings[..|pings| - 1]);
      assert forall i :: 0 <= i < |pings| - 1 ==> pings[..|pings| - 1][i] == pings[i];
      match pings[|pings| - 1]
      case None => front
      case Some(x) => front + [x]
  }

  /**
   * `Samples` keeps every completed probe where it stood, with its repeats:
   * it distributes over concatenation (and `SamplesSnoc` decides each probe).
   */
  lemma {:induction false} SamplesAppend(a: seq<Option<nat>>, b: seq<Option<nat>>)
    ensures Samples(a + b) == Samples(a) + Samples(b)
    decreases |b|
  {
    if |b| == 0 {
      assert a + b == a;
    } else {
      var n := |b| - 1;
      assert a + b == (a + b[..n]) + [b[n]];
      SamplesSnoc(a + b[..n], b[n]);
      SamplesAppend(a, b[..n]);
    }
  }

  /** A completed probe adds its latency at the end; a failed one adds nothing. */
  lemma SamplesSnoc(front: seq<Option<nat>>, x: Option<nat>)
    ensures Samples(front + [x]) == Samples(front) + (if x.Some? then [x.value] else [])
  {
    assert (front + [x])[..|front|] == front;
  }

  function Sum(xs: seq<nat>): (r: real)
    ensures r >= 0.0
    decreases |xs|
  {
    if |xs| == 0 then 0.0 else Sum(xs[..|xs| - 1]) + xs[|xs| - 1] as real
  }

  /** `average()`: the mean times the number of samples is their sum. */
  function Mean(xs: seq<nat>): (r: real)
    requires |xs| > 0
    ensures r >= 0.0
    ensures r * |xs| as real == Sum(xs)
  {
    Sum(xs) / |xs| as real
  }

  function Square(x: real): (r: real)
    ensures r >= 0.0
  {
    x * x
  }

  /** Sum of squared deviations from `m`. */
  function Deviations(xs: seq<nat>, m: real): (r: real)
    ensures r >= 0.0
    decreases |xs|
  {
    if |xs| == 0 then 0.0 else Deviations(xs[..|xs| - 1], m) + Square(xs[|xs| - 1] as real - m)
  }

  /** Population variance, the square of `sqrt(map { (it - mean)² }.average())`. */
  function Variance(xs: seq<nat>): (r: real)
    requires |xs| > 0
    ensures r >= 0.0
    ensures r * |xs| as real == Deviations(xs, Mean(xs))
  {
    Deviations(xs, Mean(xs)) / |xs| as real
  }

  /** The squared deviations vanish exactly when every sample equals `m`. */
  lemma {:induction false} DeviationsZero(xs: seq<nat>, m: real)
    ensures Deviations(xs, m) == 0.0 <==> forall i :: 0 <= i < |xs| ==> xs[i] as real == m
    decreases |xs|
  {
    if |xs| > 0 {
      var front := xs[..|xs| - 1];
      DeviationsZero(front, m);
      SquareZero(xs[|xs| - 1] as real - m);
      assert forall i :: 0 <= i < |front| ==> front[i] == xs[i];
    }
  }

  lemma SquareZero(d: real)
    ensures Square(d) == 0.0 <==> d == 0.0
  {
    if d > 0.0 {
      SquareOfDistance(d, d);
      SquareStrict(d, 0.0);
    } else if d < 0.0 {
      SquareOfDistance(d, -d);
      SquareStrict(-d, 0.0);
    }
  }

  /** No spread at all exactly when every sample equals the mean. */
  lemma VarianceZero(xs: seq<nat>)
    requires |xs| > 0
    ensures Variance(xs) == 0.0 <==> forall i :: 0 <= i < |xs| ==> xs[i] as real == Mean(xs)
  {
    DeviationsZero(xs, Mean(xs));
  }

  /** `abs(x - mean) <= 2 * stdDev`, squared. */
  predicate WithinTwoSigma(x: nat, m: real, v: real)
    ensures WithinTwoSigma(x, m, v) ==> v >= 0.0
    ensures x as real == m ==> (WithinTwoSigma(x, m, v) <==> v >= 0.0)
  {
    Square(x as real - m) <= 4.0 * v
  }

  /**
   * For the standard deviation `sd` (the non-negative root of `v`), the
   * squared test is the source's `abs(x - mean) <= 2 * sd`.
   */
  lemma TwoSigmaIsDistance(x: nat, m: real, v: real, sd: real)
    requires sd >= 0.0 && sd * sd == v
    ensures WithinTwoSigma(x, m, v) <==> Distance(x as real, m) <= 2.0 * sd
  {
    var y := x as real - m;
    var a := Distance(x as real, m);
    var b := 2.0 * sd;
    SquareOfDistance(y, a);
    DoubleSquare(sd, b);
    SquaresCompare(a, b);
  }

  /** `a` is `y` up to sign, so their squares agree. */
  lemma SquareOfDistance(y: real, a: real)
    requires a == y || a == -y
    ensures Square(y) == a * a
  {
  }

  lemma DoubleSquare(s: real, b: real)
    requires b == 2.0 * s
    ensures b * b == 4.0 * (s * s)
  {
  }

  /** Between non-negative reals, order is the order of the squares. */
  lemma SquaresCompare(a: real, b: real)
    requires a >= 0.0 && b >= 0.0
    ensures a <= b <==> a * a <= b * b
  {
    if a <= b {
      assert a * a <= a * b <= b * b;
    } else {
      SquareStrict(a, b);
    }
  }

  lemma SquareStrict(a: real, b: real)
    requires a > b >= 0.0
    ensures b * b < a * a
  {
    var d := a - b;
    assert a * a == b * b + 2.0 * b * d + d * d;
    assert d * d > 0.0;
    assert b * d >= 0.0;
  }

  /** `kotlin.math.abs(x - y)`. */
  function Distance(x: real, y: real): (r: real)
    ensures r >= 0.0 && (r == x - y || r == y - x)
  {
    if x >= y then x - y else y - x
  }

  /** The samples within two standard deviations of the mean, in order. */
  function Kept(xs: seq<nat>, m: real, v: real): (r: seq<nat>)
    ensures |r| <= |xs|
    ensures forall x :: x in r <==> x in xs && WithinTwoSigma(x, m, v)
    decreases |xs|
  {
    if |xs| == 0 then []
    else
      var front := Kept(xs[..|xs| - 1], m, v);
      var x := xs[|xs| - 1];
      assert forall y :: y in xs <==> y in xs[..|xs| - 1] || y == x;
      if WithinTwoSigma(x, m, v) then front + [x] else front
  }

  /** The same for `Kept`: the filter keeps order and repeats. */
  lemma {:induction false} KeptAppend(a: seq<nat>, b: seq<nat>, m: real, v: real)
    ensures Kept(a + b, m, v) == Kept(a, m, v) + Kept(b, m, v)
    decreases |b|
  {
    if |b| == 0 {
      assert a + b == a;
    } else {
      var n := |b| - 1;
      assert a + b == (a + b[..n]) + [b[n]];
      KeptSnoc(a + b[..n], b[n], m, v);
      KeptAppend(a, b[..n], m, v);
    }
  }

  /** A sample is kept at the end exactly when it lies within two standard deviations. */
  lemma KeptSnoc(front: seq<nat>, x: nat, m: real, v: real)
    ensures Kept(front + [x], m, v) == Kept(front, m, v) + (if WithinTwoSigma(x, m, v) then [x] else [])
  {
    assert (front + [x])[..|front|] == front;
  }

  function MinOf(xs: seq<nat>): (r: nat)
    requires |xs| > 0
    ensures r in xs && forall x :: x in xs ==> r <= x
    decreases |xs|
  {
    if |xs| == 1 then xs[0]
    else
      var m := MinOf(xs[..|xs| - 1]);
      assert forall x :: x in xs ==> x in xs[..|xs| - 1] || x == xs[|xs| - 1];
      if xs[|xs| - 1] < m then xs[|xs| - 1] else m
  }

  function MaxOf(xs: seq<nat>): (r: nat)
    requires |xs| > 0
    ensures r in xs && forall x :: x in xs ==> x <= r
    decreases |xs|
  {
    if |xs| == 1 then xs[0]
    else
      var m := MaxOf(xs[..|xs| - 1]);
      assert forall x :: x in xs ==> x in xs[..|xs| - 1] || x == xs[|xs| - 1];
      if xs[|xs| - 1] > m then xs[|xs| - 1] else m
  }

  /** Every sample lies between `lo` and `hi`, so the sum lies between `n·lo` and `n·hi`. */
  lemma {:induction false} SumBetween(xs: seq<nat>, lo: nat, hi: nat)
    requires forall x :: x in xs ==> lo <= x <= hi
    ensures (|xs| * lo) as real <= Sum(xs) <= (|xs| * hi) as real
    decreases |xs|
  {
    if |xs| > 0 {
      var front := xs[..|xs| - 1];
      var x := xs[|xs| - 1];
      assert forall y :: y in front ==> y in xs;
      SumBetween(front, lo, hi);
      assert x in xs;
      MulSucc(|front|, lo);
      MulSucc(|front|, hi);
    }
  }

  lemma MulSucc(n: nat, k: nat)
    ensures (n + 1) * k == n * k + k
  {
  }

  /** A quotient by a positive count lies between the bounds its multiples do. */
  lemma QuotientBetween(s: real, n: nat, lo: nat, hi: nat)
    requires n > 0 && (n * lo) as real <= s <= (n * hi) as real
    ensures lo as real <= s / n as real <= hi as real
  {
    var q := s / n as real;
    var nr := n as real;
    assert q * nr == s;
    assert (n * lo) as real == nr * lo as real;
    assert (n * hi) as real == nr * hi as real;
  }

  /** The mean lies between the smallest and the largest sample. */
  lemma MeanBetween(xs: seq<nat>)
    requires |xs| > 0
    ensures MinOf(xs) as real <= Mean(xs) <= MaxOf(xs) as real
  {
    SumBetween(xs, MinOf(xs), MaxOf(xs));
    QuotientBetween(Sum(xs), |xs|, MinOf(xs), MaxOf(xs));
  }

  /** `k` copies of `w` added up. */
  function Times(w: real, k: nat): real
  {
    if k == 0 then 0.0 else Times(w, k - 1) + w
  }

  lemma {:induction false} TimesIsProduct(w: real, k: nat)
    ensures Times(w, k) == w * k as real
  {
    if k > 0 {
      TimesIsProduct(w, k - 1);
      assert w * k as real == w * (k - 1) as real + w;
    }
  }

  /** How many samples the filter drops. */
  function DroppedCount(xs: seq<nat>, m: real, v: real): nat
  {
    |xs| - |Kept(xs, m, v)|
  }

  /** Each dropped sample contributes more than `4·v` to the squared deviations. */
  lemma {:induction false} DroppedDeviations(xs: seq<nat>, m: real, v: real)
    requires v >= 0.0
    ensures Deviations(xs, m) >= Times(4.0 * v, DroppedCount(xs, m, v))
    ensures DroppedCount(xs, m, v) > 0 ==> Deviations(xs, m) > Times(4.0 * v, DroppedCount(xs, m, v))
    decreases |xs|
  {
    if |xs| > 0 {
      var front := xs[..|xs| - 1];
      var x := xs[|xs| - 1];
      DroppedDeviations(front, m, v);
      assert Deviations(xs, m) == Deviations(front, m) + Square(x as real - m);
      if WithinTwoSigma(x, m, v) {
        assert Kept(xs, m, v) == Kept(front, m, v) + [x];
      } else {
        assert Kept(xs, m, v) == Kept(front, m, v);
      }
    }
  }

  lemma {:induction false} KeptEverything(xs: seq<nat>, m: real, v: real)
    requires |Kept(xs, m, v)| == |xs|
    ensures Kept(xs, m, v) == xs
    decreases |xs|
  {
    if |xs| > 0 {
      var front := xs[..|xs| - 1];
      KeptEverything(front, m, v);
      assert xs == front + [xs[|xs| - 1]];
    }
  }

  /**
   * Chebyshev's bound: fewer than a quarter of the samples lie beyond two
   * standard deviations. So three or more samples always leave at least
   * three after filtering, and one or two are never filtered at all.
   */
  lemma FilterKeepsEnough(xs: seq<nat>)
    requires |xs| > 0
    ensures |xs| >= 3 ==> |Kept(xs, Mean(xs), Variance(xs))| >= 3
    ensures |xs| < 3 ==> Kept(xs, Mean(xs), Variance(xs)) == xs
  {
    var m, v := Mean(xs), Variance(xs);
    DroppedFewerThanQuarter(xs);
    if |xs| < 3 {
      KeptEverything(xs, m, v);
    }
  }

  lemma DroppedFewerThanQuarter(xs: seq<nat>)
    requires |xs| > 0
    ensures DroppedCount(xs, Mean(xs), Variance(xs)) == 0 || 4 * DroppedCount(xs, Mean(xs), Variance(xs)) < |xs|
  {
    var m, v := Mean(xs), Variance(xs);
    var d := Deviations(xs, m);
    DroppedDeviations(xs, m, v);
    QuotientTimes(d, |xs|);
    if DroppedCount(xs, m, v) > 0 {
      FewDropped(|xs|, DroppedCount(xs, m, v), v, d);
    }
  }

  /** `n·v > 4·v·k` with `v >= 0` forces `n > 4k`. */
  lemma FewDropped(n: nat, k: nat, v: real, d: real)
    requires v >= 0.0 && v * n as real == d && d > Times(4.0 * v, k)
    ensures n > 4 * k
  {
    TimesIsProduct(4.0 * v, k);
    var nr, kr := n as real, k as real;
    assert v * (nr - 4.0 * kr) > 0.0;
    assert nr > 4.0 * kr;
  }

  lemma QuotientTimes(d: real, n: nat)
    requires n > 0
    ensures (d / n as real) * n as real == d
  {
  }

  // ----------------------------------------------------------- analysis

  /** Samples kept for the final statistics: the filtered ones, or all when fewer than three survive. */
  function FinalSamples(xs: seq<nat>): (r: seq<nat>)
    requires |xs| > 0
    ensures |r| > 0
    ensures r == Kept(xs, Mean(xs), Variance(xs))
  {
    var filtered := Kept(xs, Mean(xs), Variance(xs));
    FilterKeepsEnough(xs);
    if |filtered| >= 3 then filtered else xs
  }

  /**
   * `analyzeGateway` after the warm-up, over the fifteen measured pings.
   * No gateway address means no analysis.
   */
  function AnalyzeGateway(gatewayIp: Option<string>, pings: seq<Option<nat>>): (r: Option<GatewayAnalysis>)
    requires |pings| == PingCount
    ensures r.Some? <==> gatewayIp.Some?
    ensures r.Some? ==> r.value.gatewayIp == gatewayIp.value
    ensures r.Some? ==> (r.value.completelyUnreachable <==> forall i :: 0 <= i < PingCount ==> pings[i].None?)
    ensures r.Some? && r.value.completelyUnreachable ==>
              r.value == GatewayAnalysis(gatewayIp.value, 0.0, 0.0, 0.0, 0.0, false, false, true, false)
    ensures r.Some? ==> (r.value.partialFailure <==> 1 <= |Samples(pings)| <= 11)
    ensures r.Some? && !r.value.completelyUnreachable ==>
              var kept := Kept(Samples(pings), Mean(Samples(pings)), Variance(Samples(pings)));
              |kept| > 0 && r.value.avgLatency == Mean(kept) && r.value.variance == Variance(kept)
              && r.value.minLatency == MinOf(kept) as real && r.value.maxLatency == MaxOf(kept) as real
    ensures r.Some? ==> r.value.minLatency <= r.value.avgLatency <= r.value.maxLatency
    ensures r.Some? ==> (r.value.suspiciousLatency <==> r.value.avgLatency > 100.0)
    ensures r.Some? ==> (r.value.highVariance <==> r.value.variance > 1600.0)
    ensures r.Some? ==> Consistent(r.value)
  {
    if gatewayIp.None? then None
    else
      var xs := Samples(pings);
      var rate := |xs| as real / PingCount as real;
      var partial := rate < PartialFailureRate && rate > 0.0;
      if |xs| == 0 then
        Some(GatewayAnalysis(gatewayIp.value, 0.0, 0.0, 0.0, 0.0, false, false, true, false))
      else
        var final := FinalSamples(xs);
        var avg := Mean(final);
        var variance := Variance(final);
        MeanBetween(final);
        Some(GatewayAnalysis(gatewayIp.value, avg, MaxOf(final) as real, MinOf(final) as real, variance,
                             avg > SuspiciousLatencyMs,
                             variance > LatencyStdDevThresholdMs * LatencyStdDevThresholdMs,
                             false, partial))
  }

  /** The analyses `AnalyzeGateway` can produce: an unreachable gateway raises no latency flag. */
  predicate Consistent(a: GatewayAnalysis)
  {
    a.completelyUnreachable ==> !a.suspiciousLatency && !a.highVariance && !a.partialFailure
  }

  // ----------------------------------------------------- routing anomaly

  /**
   * `detectRoutingAnomaly`: with a gateway, and both probes completing
   * (`(gateway ms, external ms)`), the gateway is anomalous when it is
   * slower than four fifths of the external host; any failure is no anomaly.
   */
  function RoutingAnomaly(gatewayIp: Option<string>, latencies: Option<(nat, nat)>): (r: bool)
    ensures r <==> gatewayIp.Some? && latencies.Some? && 5 * latencies.value.0 > 4 * latencies.value.1
  {
    if gatewayIp.None? then false
    else match latencies
      case None => false
      case Some((gw, ext)) => gw as real > ext as real * 0.8
  }

  // ------------------------------------------------------- threat score

  datatype NetworkThreatAnalysis = NetworkThreatAnalysis(
    threatDetected: bool,
    threatScore: int,
    threats: seq<string>,
    gatewayAnalysis: Option<GatewayAnalysis>,
    deviceCount: nat)

  /** One finding of `performComprehensiveScan`; latencies are whole milliseconds. */
  datatype Finding =
    | GatewayUnreachable
    | IntermittentConnectivity
    | VeryHighLatency(ms: int)
    | HighLatency(ms: int)
    | InconsistentPerformance
    | MitmPattern
    | GatewayNotAnalysed
    | RoutingAnomalyFound

  /** The findings of the latency ladder, of which at most one fires. */
  predicate IsLadderStep(f: Finding)
  {
    f.GatewayUnreachable? || f.IntermittentConnectivity? || f.VeryHighLatency? || f.HighLatency?
  }

  function Message(f: Finding): string
  {
    match f
    case GatewayUnreachable => "Gateway completely unreachable"
    case IntermittentConnectivity => "Intermittent gateway connectivity"
    case VeryHighLatency(ms) => "Very high gateway latency (" + IntToString(ms) + "ms)"
    case HighLatency(ms) => "High gateway latency (" + IntToString(ms) + "ms)"
    case InconsistentPerformance => "Inconsistent network performance"
    case MitmPattern => "Gateway behavior consistent with MITM attack"
    case GatewayNotAnalysed => "Unable to analyze gateway"
    case RoutingAnomalyFound => "Routing anomaly detected"
  }

  function Points(f: Finding): int
  {
    match f
    case GatewayUnreachable => 60
    case IntermittentConnectivity => 40
    case VeryHighLatency(_) => 35
    case HighLatency(_) => 25
    case InconsistentPerformance => 20
    case MitmPattern => 15
    case GatewayNotAnalysed => 30
    case RoutingAnomalyFound => 20
  }

  function TotalPoints(fs: seq<Finding>): int
  {
    if |fs| == 0 then 0 else Points(fs[0]) + TotalPoints(fs[1..])
  }

  function Messages(fs: seq<Finding>): (r: seq<string>)
    ensures |r| == |fs|
    ensures forall i :: 0 <= i < |fs| ==> r[i] == Message(fs[i])
  {
    seq(|fs|, i requires 0 <= i < |fs| => Message(fs[i]))
  }

  /** Kotlin's `Double.toInt()`: rounds toward zero. */
  function Truncate(x: real): (r: int)
    ensures x >= 0.0 ==> r as real <= x < r as real + 1.0
    ensures x < 0.0 ==> r as real - 1.0 < x <= r as real
  {
    if x >= 0.0 then x.Floor else -((-x).Floor)
  }

  /** The first rung of the latency ladder that applies, if any. */
  function Ladder(g: GatewayAnalysis): (r: seq<Finding>)
    ensures |r| <= 1
    ensures forall f :: f in r ==> IsLadderStep(f)
    ensures forall f :: f in r && (f.VeryHighLatency? || f.HighLatency?) ==> f.ms == Truncate(g.avgLatency)
    ensures GatewayUnreachable in r <==> g.completelyUnreachable
    ensures IntermittentConnectivity in r <==> !g.completelyUnreachable && g.partialFailure
    ensures VeryHighLatency(Truncate(g.avgLatency)) in r <==>
              !g.completelyUnreachable && !g.partialFailure && g.avgLatency > 150.0
    ensures HighLatency(Truncate(g.avgLatency)) in r <==>
              !g.completelyUnreachable && !g.partialFailure && g.avgLatency <= 150.0 && g.suspiciousLatency
  {
    if g.completelyUnreachable then [GatewayUnreachable]
    else if g.partialFailure then [IntermittentConnectivity]
    else if g.avgLatency > HighLatencyMs then [VeryHighLatency(Truncate(g.avgLatency))]
    else if g.suspiciousLatency then [HighLatency(Truncate(g.avgLatency))]
    else []
  }

  /** The findings about an analysed gateway: the ladder, then the variance findings. */
  function GatewayFindings(g: GatewayAnalysis): (r: seq<Finding>)
    ensures forall i, j :: 0 <= i < j < |r| ==> !(IsLadderStep(r[i]) && IsLadderStep(r[j]))
    ensures forall i, j :: 0 <= i < j < |r| ==> r[i] != r[j]
    ensures forall f :: IsLadderStep(f) ==> (f in r <==> f in Ladder(g))
    ensures InconsistentPerformance in r <==> g.highVariance
    ensures MitmPattern in r <==> g.suspiciousLatency && g.highVariance
    ensures GatewayNotAnalysed !in r && RoutingAnomalyFound !in r
  {
    var ladder := Ladder(g);
    var variance := if g.highVariance then [InconsistentPerformance] else [];
    var both := if g.suspiciousLatency && g.highVariance then [MitmPattern] else [];
    var r := ladder + variance + both;
    assert forall i :: |ladder| <= i < |r| ==> !IsLadderStep(r[i]);
    r
  }

  /**
   * The findings of `performComprehensiveScan`, in the order it adds them:
   * the first matching rung of the latency ladder, high variance, the
   * combination of slow and erratic, a missing analysis, a routing anomaly.
   */
  function Findings(a: Option<GatewayAnalysis>, routingAnomaly: bool): (r: seq<Finding>)
    ensures forall i, j :: 0 <= i < j < |r| ==> !(IsLadderStep(r[i]) && IsLadderStep(r[j]))
    ensures forall i, j :: 0 <= i < j < |r| ==> r[i] != r[j]
    ensures a.Some? ==> forall f :: IsLadderStep(f) ==> (f in r <==> f in Ladder(a.value))
    ensures a.None? ==> forall f :: f in r ==> !IsLadderStep(f)
    ensures InconsistentPerformance in r <==> a.Some? && a.value.highVariance
    ensures MitmPattern in r <==> a.Some? && a.value.suspiciousLatency && a.value.highVariance
    ensures GatewayNotAnalysed in r <==> a.None?
    ensures RoutingAnomalyFound in r <==> routingAnomaly
    ensures routingAnomaly ==> r[|r| - 1] == RoutingAnomalyFound
  {
    var gateway := if a.Some? then GatewayFindings(a.value) else [GatewayNotAnalysed];
    gateway + (if routingAnomaly then [RoutingAnomalyFound] else [])
  }

  /**
   * `performComprehensiveScan` given the gateway analysis, the routing
   * check and the number of devices the sweep found: the points of the
   * findings, capped to `0..100`; a threat from 50 on.
   */
  function ComprehensiveScan(a: Option<GatewayAnalysis>, routingAnomaly: bool, deviceCount: nat)
    : (r: NetworkThreatAnalysis)
    ensures 0 <= r.threatScore <= 100
    ensures r.threatDetected <==> r.threatScore >= 50
    ensures r.threatScore == Clamp(TotalPoints(Findings(a, routingAnomaly)), 0, 100)
    ensures r.threats == Messages(Findings(a, routingAnomaly))
    ensures r.gatewayAnalysis == a && r.deviceCount == deviceCount
  {
    var findings := Findings(a, routingAnomaly);
    var score := Clamp(TotalPoints(findings), 0, 100);
    NetworkThreatAnalysis(score >= 50, score, Messages(findings), a, deviceCount)
  }

  lemma {:induction false} TotalPointsAppend(a: seq<Finding>, b: seq<Finding>)
    ensures TotalPoints(a + b) == TotalPoints(a) + TotalPoints(b)
    decreases |a|
  {
    if |a| > 0 {
      assert (a + b)[1..] == a[1..] + b;
      TotalPointsAppend(a[1..], b);
    } else {
      assert a + b == b;
    }
  }

  lemma {:induction false} TotalPointsAtLeast(fs: seq<Finding>, f: Finding)
    requires f in fs
    ensures TotalPoints(fs) >= Points(f)
    decreases |fs|
  {
    if fs[0] != f {
      TotalPointsAtLeast(fs[1..], f);
      TotalPointsNonNegative(fs[1..]);
    } else {
      TotalPointsNonNegative(fs[1..]);
    }
  }

  lemma {:induction false} TotalPointsNonNegative(fs: seq<Finding>)
    ensures TotalPoints(fs) >= 0
    decreases |fs|
  {
    if |fs| > 0 {
      TotalPointsNonNegative(fs[1..]);
    }
  }

  lemma TotalPointsSingle(f: Finding)
    ensures TotalPoints([f]) == Points(f)
  {
    assert [f][1..] == [];
  }

  /** A consistent analysis earns at most 75 points from the gateway findings. */
  lemma GatewayPointsBound(g: GatewayAnalysis)
    requires Consistent(g)
    ensures 0 <= TotalPoints(GatewayFindings(g)) <= 75
  {
    var ladder := Ladder(g);
    var variance: seq<Finding> := if g.highVariance then [InconsistentPerformance] else [];
    var both: seq<Finding> := if g.suspiciousLatency && g.highVariance then [MitmPattern] else [];
    assert GatewayFindings(g) == ladder + variance + both;
    TotalPointsAppend(ladder, variance);
    TotalPointsAppend(ladder + variance, both);
    if |ladder| == 1 {
      TotalPointsSingle(ladder[0]);
      assert ladder[0] in ladder;
    }
    TotalPointsSingle(InconsistentPerformance);
    TotalPointsSingle(MitmPattern);
  }

  /**
   * For every analysis `AnalyzeGateway` can produce, the points add up to
   * at most 95, so the cap to 100 never changes the score.
   */
  lemma ScoreNeverCapped(a: Option<GatewayAnalysis>, routingAnomaly: bool, deviceCount: nat)
    requires a.Some? ==> Consistent(a.value)
    ensures 0 <= TotalPoints(Findings(a, routingAnomaly)) <= 95
    ensures ComprehensiveScan(a, routingAnomaly, deviceCount).threatScore == TotalPoints(Findings(a, routingAnomaly))
  {
    var tail: seq<Finding> := if routingAnomaly then [RoutingAnomalyFound] else [];
    var head := if a.Some? then GatewayFindings(a.value) else [GatewayNotAnalysed];
    assert Findings(a, routingAnomaly) == head + tail;
    TotalPointsAppend(head, tail);
    TotalPointsSingle(RoutingAnomalyFound);
    TotalPointsSingle(GatewayNotAnalysed);
    if a.Some? {
      GatewayPointsBound(a.value);
    }
  }

  /** A gateway that answers no ping is always reported as a threat. */
  lemma UnreachableGatewayIsThreat(g: GatewayAnalysis, routingAnomaly: bool, deviceCount: nat)
    requires g.completelyUnreachable
    ensures ComprehensiveScan(Some(g), routingAnomaly, deviceCount).threatDetected
  {
    assert GatewayUnreachable in Ladder(g);
    TotalPointsAtLeast(Findings(Some(g), routingAnomaly), GatewayUnreachable);
  }

  /**
   * Without a gateway address nothing can be measured: the scan scores 30
   * with the single "Unable to analyze gateway" finding, below the threat line.
   */
  lemma NoGatewayIsNoThreat(pings: seq<Option<nat>>, latencies: Option<(nat, nat)>, deviceCount: nat)
    requires |pings| == PingCount
    ensures var r := ComprehensiveScan(AnalyzeGateway(None, pings), RoutingAnomaly(None, latencies), deviceCount);
            r.threatScore == 30 && !r.threatDetected && r.threats == ["Unable to analyze gateway"]
  {
    assert Findings(None, false) == [GatewayNotAnalysed];
    TotalPointsSingle(GatewayNotAnalysed);
  }
}

=== FILE: grouping.dfy ===
/**
 * Grouping addresses by hardware address, as both `findDuplicateMacs`
 * functions do: a `mutableMapOf` (insertion-ordered) from each key to the
 * list of values seen with it, keeping the keys seen more than once.
 * A pair is `(key, value)`: `(mac, ip)` for duplicate detection, `(ip, mac)`
 * when the neighbour table is indexed by address.
 */
module Grouping {

  datatype Group = Group(key: string, members: seq<string>)

  predicate HasKey(pairs: seq<(string, string)>, k: string)
  {
    exists i :: 0 <= i < |pairs| && pairs[i].0 == k
  }

  /** The map's keys: every key of `pairs`, each once. */
  function KeysInOrder(pairs: seq<(string, string)>): (r: seq<string>)
    ensures forall i, j :: 0 <= i < j < |r| ==> r[i] != r[j]
    ensures forall k :: k in r <==> HasKey(pairs, k)
    decreases |pairs|
  {
    if |pairs| == 0 then []
    else
      var front := KeysInOrder(pairs[..|pairs| - 1]);
      var k := pairs[|pairs| - 1].0;
      var init := pairs[..|pairs| - 1];
      assert forall i :: 0 <= i < |init| ==> init[i] == pairs[i];
      assert forall k' :: HasKey(init, k') ==> HasKey(pairs, k');
      forall k' | HasKey(pairs, k')
        ensures HasKey(init, k') || k' == k
      {
        var i :| 0 <= i < |pairs| && pairs[i].0 == k';
        if i < |init| {
          assert init[i].0 == k';
        }
      }
      if k in front then front else front + [k]
  }

  /** The list the map holds for `k`: the values paired with `k`, in input order. */
  function MembersOf(pairs: seq<(string, string)>, k: string): (r: seq<string>)
    ensures |r| <= |pairs|
    ensures forall x :: x in r ==> (k, x) in pairs
    decreases |pairs|
  {
    if |pairs| == 0 then []
    else
      var front := MembersOf(pairs[..|pairs| - 1], k);
      var last := pairs[|pairs| - 1];
      if last.0 == k then front + [last.1] else front
  }

  /**
   * `MembersOf` keeps the values in input order, with repeats: it
   * distributes over concatenation (and `MembersOfSnoc` decides each pair).
   */
  lemma {:induction false} MembersOfAppend(a: seq<(string, string)>, b: seq<(string, string)>, k: string)
    ensures MembersOf(a + b, k) == MembersOf(a, k) + MembersOf(b, k)
    decreases |b|
  {
    if |b| == 0 {
      assert a + b == a;
    } else {
      var n := |b| - 1;
      assert a + b == (a + b[..n]) + [b[n]];
      MembersOfSnoc(a + b[..n], b[n], k);
      MembersOfAppend(a, b[..n], k);
    }
  }

  /** A pair adds its value at the end exactly when its key is `k`. */
  lemma MembersOfSnoc(front: seq<(string, string)>, x: (string, string), k: string)
    ensures MembersOf(front + [x], k) == MembersOf(front, k) + (if x.0 == k then [x.1] else [])
  {
    assert (front + [x])[..|front|] == front;
  }

  /** `filter { it.value.size > 1 }.map { ... }` over the keys in map order. */
  function KeepRepeated(keys: seq<string>, pairs: seq<(string, string)>): (r: seq<Group>)
    requires forall i, j :: 0 <= i < j < |keys| ==> keys[i] != keys[j]
    ensures forall g :: g in r ==> g.key in keys && |g.members| >= 2 && g.members == MembersOf(pairs, g.key)
    ensures forall k :: k in keys && |MembersOf(pairs, k)| >= 2 ==> exists g :: g in r && g.key == k
    ensures forall i, j :: 0 <= i < j < |r| ==> r[i].key != r[j].key
    decreases |keys|
  {
    if |keys| == 0 then []
    else
      var rest := KeepRepeated(keys[1..], pairs);
      var ms := MembersOf(pairs, keys[0]);
      assert keys[0] !in keys[1..];
      if |ms| >= 2 then [Group(keys[0], ms)] + rest else rest
  }

  /**
   * The groups of keys that occur at least twice, each once and with all
   * its values in input order.
   */
  function Repeated(pairs: seq<(string, string)>): (r: seq<Group>)
    ensures forall g :: g in r ==> |g.members| >= 2 && g.members == MembersOf(pairs, g.key)
    ensures forall k :: (exists g :: g in r && g.key == k) <==> |MembersOf(pairs, k)| >= 2
    ensures forall i, j :: 0 <= i < j < |r| ==> r[i].key != r[j].key
  {
    var keys := KeysInOrder(pairs);
    var r := KeepRepeated(keys, pairs);
    forall k | |MembersOf(pairs, k)| >= 2
      ensures k in keys
    {
      var x := MembersOf(pairs, k)[0];
      assert x in MembersOf(pairs, k);
      var i :| 0 <= i < |pairs| && pairs[i] == (k, x);
      assert HasKey(pairs, k);
    }
    r
  }

  lemma {:induction false} MembersNonEmpty(pairs: seq<(string, string)>, k: string)
    ensures |MembersOf(pairs, k)| >= 1 <==> HasKey(pairs, k)
    decreases |pairs|
  {
    if |pairs| > 0 {
      var front := pairs[..|pairs| - 1];
      MembersNonEmpty(front, k);
      assert HasKey(front, k) ==> HasKey(pairs, k);
      if HasKey(pairs, k) && pairs[|pairs| - 1].0 != k {
        var i :| 0 <= i < |pairs| && pairs[i].0 == k;
        assert front[i].0 == k;
      }
    }
  }

  /** Every value paired with `k` is on `k`'s list. */
  lemma {:induction false} MembersComplete(pairs: seq<(string, string)>, k: string)
    ensures forall i :: 0 <= i < |pairs| && pairs[i].0 == k ==> pairs[i].1 in MembersOf(pairs, k)
    decreases |pairs|
  {
    if |pairs| > 0 {
      var front := pairs[..|pairs| - 1];
      MembersComplete(front, k);
      forall i | 0 <= i < |pairs| - 1 && pairs[i].0 == k
        ensures pairs[i].1 in MembersOf(pairs, k)
      {
        assert front[i] == pairs[i];
      }
    }
  }

  /** A key has two or more values exactly when it occurs at two positions. */
  lemma {:induction false} MembersAtLeastTwo(pairs: seq<(string, string)>, k: string)
    ensures |MembersOf(pairs, k)| >= 2 <==>
              exists i, j :: 0 <= i < j < |pairs| && pairs[i].0 == k && pairs[j].0 == k
    decreases |pairs|
  {
    if |pairs| > 0 {
      var n := |pairs| - 1;
      var front := pairs[..n];
      MembersAtLeastTwo(front, k);
      MembersNonEmpty(front, k);
      if exists i, j :: 0 <= i < j < |pairs| && pairs[i].0 == k && pairs[j].0 == k {
        var i, j :| 0 <= i < j < |pairs| && pairs[i].0 == k && pairs[j].0 == k;
        if j == n {
          assert front[i].0 == k;
        } else {
          assert front[i].0 == k && front[j].0 == k;
        }
      }
      if |MembersOf(pairs, k)| >= 2 {
        if pairs[n].0 == k {
          var i :| 0 <= i < |front| && front[i].0 == k;
          assert pairs[i].0 == k;
        } else {
          var i, j :| 0 <= i < j < |front| && front[i].0 == k && front[j].0 == k;
          assert pairs[i].0 == k && pairs[j].0 == k;
        }
      }
    }
  }

  /** Some group is reported exactly when two pairs share a key. */
  lemma SomeRepeatedIff(pairs: seq<(string, string)>)
    ensures |Repeated(pairs)| > 0 <==>
              exists i, j :: 0 <= i < j < |pairs| && pairs[i].0 == pairs[j].0
  {
    var r := Repeated(pairs);
    if |r| > 0 {
      assert r[0] in r;
      MembersAtLeastTwo(pairs, r[0].key);
    }
    if exists i, j :: 0 <= i < j < |pairs| && pairs[i].0 == pairs[j].0 {
      var i, j :| 0 <= i < j < |pairs| && pairs[i].0 == pairs[j].0;
      MembersAtLeastTwo(pairs, pairs[i].0);
      var g :| g in r && g.key == pairs[i].0;
    }
  }
}

=== FILE: hybrid.dfy ===
/**
 * The hybrid scanner (`HybridNetworkScanner`): devices come from the
 * neighbour table when it yields any, otherwise from the active sweep; the
 * MITM score adds neighbour-table evidence to the gateway score.
 */
module Hybrid {
  import opened Base
  import opened Text
  import ArpTable
  import LocalScan
  import Grouping
  import Gateway

  datatype DetectionMethod = ArpTableScan | NetworkScan

  datatype Device = Device(ipAddress: string, macAddress: Option<string>,
                           hostname: Option<string>, detectionMethod: DetectionMethod)

  datatype MitmThreatResult = MitmThreatResult(
    threatDetected: bool,
    threats: seq<string>,
    deviceCount: nat,
    detectionMethod: DetectionMethod,
    threatScore: int,
    gatewayAnalysis: Option<Gateway.GatewayAnalysis>)

  const DuplicateMacPoints: int := 40
  const NewDevicePoints: int := 15
  /** More new devices than this since the previous cycle is unusual. */
  const NewDeviceLimit: nat := 3
  const HybridThreatThreshold: int := 40
  const DuplicateMacMessage := "Duplicate MAC addresses detected (ARP spoofing)"

  // -------------------------------------------------------------- devices

  /** `tryArpScan`: every table entry becomes a device with its hardware address, in table order. */
  function TryArpScan(src: ArpTable.ArpSource): (r: seq<Device>)
    ensures var entries := ArpTable.ScanArpTable(src).entries;
            |r| == |entries| && forall i :: 0 <= i < |r| ==>
              r[i] == Device(entries[i].ipAddress, Some(entries[i].macAddress), None, ArpTableScan)
  {
    var entries := ArpTable.ScanArpTable(src).entries;
    seq(|entries|, i requires 0 <= i < |entries| =>
      Device(entries[i].ipAddress, Some(entries[i].macAddress), None, ArpTableScan))
  }

  /** `tryNetworkScan`: the swept devices without hardware addresses; a failed sweep gives none. */
  function TryNetworkScan(swept: Option<seq<LocalScan.NetworkDevice>>): (r: seq<Device>)
    ensures swept.None? ==> r == []
    ensures swept.Some? ==> |r| == |swept.value| && forall i :: 0 <= i < |r| ==>
              r[i] == Device(swept.value[i].ipAddress, None, swept.value[i].hostname, NetworkScan)
  {
    match swept
    case None => []
    case Some(ds) =>
      seq(|ds|, i requires 0 <= i < |ds| => Device(ds[i].ipAddress, None, ds[i].hostname, NetworkScan))
  }

  /**
   * `scanNetwork`: the neighbour-table devices when there are any, else the
   * sweep. An empty table falls back too, even when it could be read.
   */
  function ScanNetwork(src: ArpTable.ArpSource, swept: Option<seq<LocalScan.NetworkDevice>>): (r: seq<Device>)
    ensures |ArpTable.ScanArpTable(src).entries| > 0 ==>
              r == TryArpScan(src) && |r| > 0 && forall d :: d in r ==> d.macAddress.Some? && d.detectionMethod == ArpTableScan
    ensures |ArpTable.ScanArpTable(src).entries| == 0 ==>
              r == TryNetworkScan(swept) && forall d :: d in r ==> d.macAddress.None? && d.detectionMethod == NetworkScan
  {
    var arp := TryArpScan(src);
    if |arp| > 0 then arp else TryNetworkScan(swept)
  }

  /** A readable table holding only its header still sends the scan to the sweep. */
  lemma EmptyTableFallsBack(header: string, swept: Option<seq<LocalScan.NetworkDevice>>)
    ensures ArpTable.ScanArpTable(ArpTable.Read([header])).permission == ArpTable.Granted
    ensures ScanNetwork(ArpTable.Read([header]), swept) == TryNetworkScan(swept)
  {
  }

  // --------------------------------------------------------------- threats

  /** `(mac, ip)` for every device that has a hardware address, in order. */
  function MacPairs(devices: seq<Device>): (r: seq<(string, string)>)
    ensures forall p :: p in r <==> exists d :: d in devices && d.macAddress == Some(p.0) && d.ipAddress == p.1
    decreases |devices|
  {
    if |devices| == 0 then []
    else
      var rest := MacPairs(devices[1..]);
      assert forall d :: d in devices <==> d == devices[0] || d in devices[1..];
      match devices[0].macAddress
      case None => rest
      case Some(mac) => [(mac, devices[0].ipAddress)] + rest
  }

  /** Two devices carry the same (known) hardware address. */
  predicate SharesMac(devices: seq<Device>)
  {
    exists i, j :: 0 <= i < j < |devices| && devices[i].macAddress.Some? && devices[i].macAddress == devices[j].macAddress
  }

  predicate PairsRepeat(ps: seq<(string, string)>)
  {
    exists i, j :: 0 <= i < j < |ps| && ps[i].0 == ps[j].0
  }

  lemma SharesMacOfTail(devices: seq<Device>)
    requires |devices| > 0 && SharesMac(devices[1..])
    ensures SharesMac(devices)
  {
    var rest := devices[1..];
    var i, j :| 0 <= i < j < |rest| && rest[i].macAddress.Some? && rest[i].macAddress == rest[j].macAddress;
    assert devices[i + 1] == rest[i] && devices[j + 1] == rest[j];
  }

  lemma PairsRepeatOfTail(p: (string, string), ps: seq<(string, string)>)
    requires PairsRepeat(ps)
    ensures PairsRepeat([p] + ps)
  {
    var i, j :| 0 <= i < j < |ps| && ps[i].0 == ps[j].0;
    assert ([p] + ps)[i + 1] == ps[i] && ([p] + ps)[j + 1] == ps[j];
  }

  lemma {:induction false} SharedMacRepeats(devices: seq<Device>)
    requires SharesMac(devices)
    ensures PairsRepeat(MacPairs(devices))
    decreases |devices|
  {
    var rest := devices[1..];
    var tail := MacPairs(rest);
    var i, j :| 0 <= i < j < |devices| && devices[i].macAddress.Some? && devices[i].macAddress == devices[j].macAddress;
    if i == 0 {
      var m := devices[0].macAddress.value;
      assert devices[j] in rest;
      assert (m, devices[j].ipAddress) in tail;
      var k :| 0 <= k < |tail| && tail[k] == (m, devices[j].ipAddress);
      var ps := MacPairs(devices);
      assert ps == [(m, devices[0].ipAddress)] + tail;
      assert 0 < k + 1 < |ps| && ps[0].0 == ps[k + 1].0;
    } else {
      assert rest[i - 1].macAddress == rest[j - 1].macAddress;
      SharedMacRepeats(rest);
      if devices[0].macAddress.Some? {
        PairsRepeatOfTail((devices[0].macAddress.value, devices[0].ipAddress), tail);
      }
    }
  }

  /** A repeat in `[p] + ps` is either a repeat in `ps` or `p`'s key again. */
  lemma RepeatOfCons(p: (string, string), ps: seq<(string, string)>)
    requires PairsRepeat([p] + ps)
    ensures PairsRepeat(ps) || exists k :: 0 <= k < |ps| && ps[k].0 == p.0
  {
    var qs := [p] + ps;
    var i, j :| 0 <= i < j < |qs| && qs[i].0 == qs[j].0;
    assert qs[j] == ps[j - 1];
    if i > 0 {
      assert qs[i] == ps[i - 1];
    }
  }

  lemma {:induction false} RepeatsShareMac(devices: seq<Device>)
    requires PairsRepeat(MacPairs(devices))
    ensures SharesMac(devices)
    decreases |devices|
  {
    var rest := devices[1..];
    var tail := MacPairs(rest);
    if devices[0].macAddress.None? {
      assert MacPairs(devices) == tail;
      RepeatsShareMac(rest);
      SharesMacOfTail(devices);
    } else {
      var p := (devices[0].macAddress.value, devices[0].ipAddress);
      assert MacPairs(devices) == [p] + tail;
      RepeatOfCons(p, tail);
      if PairsRepeat(tail) {
        RepeatsShareMac(rest);
        SharesMacOfTail(devices);
      } else {
        var k :| 0 <= k < |tail| && tail[k].0 == p.0;
        assert tail[k] in tail;
        HeadMacRepeated(devices, tail[k]);
      }
    }
  }

  lemma HeadMacRepeated(devices: seq<Device>, p: (string, string))
    requires |devices| > 0 && devices[0].macAddress == Some(p.0)
    requires p in MacPairs(devices[1..])
    ensures SharesMac(devices)
  {
    var rest := devices[1..];
    var d :| d in rest && d.macAddress == Some(p.0) && d.ipAddress == p.1;
    var k :| 0 <= k < |rest| && rest[k] == d;
    assert devices[k + 1] == d;
  }

  /** Keeping only the devices with a hardware address keeps the same pairs. */
  lemma {:induction false} MacPairsOfWithMac(devices: seq<Device>)
    ensures MacPairs(WithMac(devices)) == MacPairs(devices)
    decreases |devices|
  {
    if |devices| > 0 {
      MacPairsOfWithMac(devices[1..]);
      if devices[0].macAddress.Some? {
        var w := WithMac(devices);
        assert w[0] == devices[0] && w[1..] == WithMac(devices[1..]);
      }
    }
  }

  /** `findDuplicateMacs`: devices without a hardware address are skipped. */
  function FindDuplicateMacs(devices: seq<Device>): (r: seq<Grouping.Group>)
    ensures |r| > 0 <==> SharesMac(devices)
    ensures forall g :: g in r ==> |g.members| >= 2
  {
    var pairs := MacPairs(devices);
    Grouping.SomeRepeatedIff(pairs);
    assert SharesMac(devices) <==> PairsRepeat(pairs) by {
      if SharesMac(devices) {
        SharedMacRepeats(devices);
      }
      if PairsRepeat(pairs) {
        RepeatsShareMac(devices);
      }
    }
    Grouping.Repeated(pairs)
  }

  /** No device of the previous cycle had `d`'s address. */
  predicate IsNew(d: Device, previous: seq<Device>)
  {
    forall p :: p in previous ==> p.ipAddress != d.ipAddress
  }

  /** The devices whose address the previous cycle did not see, in order. */
  function NewDevices(current: seq<Device>, previous: seq<Device>): (r: seq<Device>)
    ensures |r| <= |current|
    ensures forall d :: d in r <==> d in current && forall p :: p in previous ==> p.ipAddress != d.ipAddress
    decreases |current|
  {
    if |current| == 0 then []
    else
      var rest := NewDevices(current[1..], previous);
      assert forall d :: d in current <==> d == current[0] || d in current[1..];
      if IsNew(current[0], previous) then [current[0]] + rest else rest
  }

  /** `NewDevices` keeps the new devices where they stood, with their repeats. */
  lemma {:induction false} NewDevicesAppend(a: seq<Device>, b: seq<Device>, previous: seq<Device>)
    ensures NewDevices(a + b, previous) == NewDevices(a, previous) + NewDevices(b, previous)
    decreases |a|
  {
    if |a| == 0 {
      assert a + b == b;
    } else {
      assert a + b == [a[0]] + (a[1..] + b);
      NewDevicesCons(a[0], a[1..] + b, previous);
      NewDevicesAppend(a[1..], b, previous);
    }
  }

  /** One device is kept exactly when the previous cycle did not see its address. */
  lemma NewDevicesCons(x: Device, rest: seq<Device>, previous: seq<Device>)
    ensures NewDevices([x] + rest, previous) == (if IsNew(x, previous) then [x] else []) + NewDevices(rest, previous)
  {
    assert ([x] + rest)[1..] == rest;
  }

  /** The churn finding applies: a previous cycle exists and more than three devices are new. */
  predicate UnusualChurn(current: seq<Device>, previous: Option<seq<Device>>)
  {
    previous.Some? && |NewDevices(current, previous.value)| > NewDeviceLimit
  }

  function ChurnMessage(newCount: nat): string
  {
    "Unusual number of new devices (" + NatToString(newCount) + ")"
  }

  /**
   * `detectMitmThreats` given the gateway scan: its score, plus 40 for a
   * hardware address shared by two devices, plus 15 for unusual churn,
   * without a cap; a threat from 40 on.
   */
  function DetectMitmThreats(current: seq<Device>, previous: Option<seq<Device>>,
                             enhanced: Gateway.NetworkThreatAnalysis): (r: MitmThreatResult)
    ensures r.threatScore == enhanced.threatScore
              + (if SharesMac(current) then DuplicateMacPoints else 0)
              + (if UnusualChurn(current, previous) then NewDevicePoints else 0)
    ensures r.threatDetected <==> r.threatScore >= HybridThreatThreshold
    ensures r.threats == enhanced.threats
              + (if SharesMac(current) then [DuplicateMacMessage] else [])
              + (if UnusualChurn(current, previous) then [ChurnMessage(|NewDevices(current, previous.value)|)] else [])
    ensures r.detectionMethod == ArpTableScan <==> exists d :: d in current && d.macAddress.Some?
    ensures r.deviceCount == |current| && r.gatewayAnalysis == enhanced.gatewayAnalysis
  {
    var withMac := WithMac(current);
    var duplicate := |withMac| > 0 && |FindDuplicateMacs(withMac)| > 0;
    assert FindDuplicateMacs(withMac) == FindDuplicateMacs(current) by { MacPairsOfWithMac(current); }
    var churn := if previous.Some? then NewDevices(current, previous.value) else [];
    var unusual := previous.Some? && |churn| > NewDeviceLimit;
    var threats := enhanced.threats
                   + (if duplicate then [DuplicateMacMessage] else [])
                   + (if unusual then [ChurnMessage(|churn|)] else []);
    var score := enhanced.threatScore
                 + (if duplicate then DuplicateMacPoints else 0)
                 + (if unusual then NewDevicePoints else 0);
    assert |withMac| > 0 <==> exists d :: d in current && d.macAddress.Some?;
    MitmThreatResult(score >= HybridThreatThreshold, threats, |current|,
                     if |withMac| > 0 then ArpTableScan else NetworkScan, score, enhanced.gatewayAnalysis)
  }

  /** `filter { it.macAddress != null }`. */
  function WithMac(devices: seq<Device>): (r: seq<Device>)
    ensures forall d :: d in r <==> d in devices && d.macAddress.Some?
    decreases |devices|
  {
    if |devices| == 0 then []
    else
      var rest := WithMac(devices[1..]);
      assert forall d :: d in devices <==> d == devices[0] || d in devices[1..];
      if devices[0].macAddress.Some? then [devices[0]] + rest else rest
  }

  /** A device without a hardware address contributes no `(mac, ip)` pair. */
  lemma {:induction false} MacPairsOfMacless(current: seq<Device>, d: Device)
    requires d.macAddress.None?
    ensures MacPairs(current + [d]) == MacPairs(current)
    decreases |current|
  {
    var c := current + [d];
    if |current| == 0 {
      assert c[1..] == [];
    } else {
      assert c[0] == current[0];
      assert c[1..] == current[1..] + [d];
      MacPairsOfMacless(current[1..], d);
    }
  }

  /**
   * A device without a hardware address never adds duplicate evidence,
   * whatever the earlier snapshot: the groups, the shared-MAC test and so
   * the duplicate term of the score are those of the other devices. With
   * no earlier snapshot the whole score is unchanged.
   */
  lemma MaclessDeviceAddsNothing(current: seq<Device>, d: Device, enhanced: Gateway.NetworkThreatAnalysis)
    requires d.macAddress.None?
    ensures FindDuplicateMacs(current + [d]) == FindDuplicateMacs(current)
    ensures SharesMac(current + [d]) <==> SharesMac(current)
    ensures DetectMitmThreats(current + [d], None, enhanced).threatScore == DetectMitmThreats(current, None, enhanced).threatScore
  {
    MacPairsOfMacless(current, d);
    var c := current + [d];
    if SharesMac(c) {
      var i, j :| 0 <= i < j < |c| && c[i].macAddress.Some? && c[i].macAddress == c[j].macAddress;
      assert j < |current|;
      assert current[i].macAddress == current[j].macAddress;
    }
    if SharesMac(current) {
      var i, j :| 0 <= i < j < |current| && current[i].macAddress.Some? && current[i].macAddress == current[j].macAddress;
      assert c[i] == current[i] && c[j] == current[j];
    }
  }
}

=== FILE: local_scan.dfy ===
/**
 * The active subnet sweep (`NetworkScanner`): every host `1..254` of the
 * device's /24 is probed once, and the reachable ones become devices. The
 * probes themselves (reachability, timing, reverse lookup) are inputs.
 */
module LocalScan {
  import opened Base
  import opened Text
  import opened NetworkInfo

  datatype NetworkDevice = NetworkDevice(ipAddress: string, isReachable: bool,
                                         hostname: Option<string>, responseTime: int)

  /** The outcome of probing one host. */
  datatype Probe = Unreachable | Reachable(hostname: Option<string>, responseTime: int)

  datatype SuspiciousDeviceResult = SuspiciousDeviceResult(
    threatDetected: bool,
    suspiciousDevices: seq<string>,
    newDevices: seq<NetworkDevice>,
    totalDevices: nat,
    gatewayIp: Option<string>)

  /** Number of hosts swept: `1..254`. */
  const HostCount: nat := 254

  /** Replies faster than this many milliseconds count as "fast". */
  const FastResponseMs: int := 5

  /** `"$subnet.$lastOctet"`. */
  function HostAddress(subnet: string, host: nat): string
  {
    subnet + "." + NatToString(host)
  }

  lemma HostAddressInjective(subnet: string, a: nat, b: nat)
    requires HostAddress(subnet, a) == HostAddress(subnet, b)
    ensures a == b
  {
    var p := subnet + ".";
    assert HostAddress(subnet, a)[|p|..] == NatToString(a);
    assert HostAddress(subnet, b)[|p|..] == NatToString(b);
    NatToStringInjective(a, b);
  }

  /** `getSubnet`: the first three octets of the device address, if it can be read. */
  function Subnet(dhcpAddress: Option<Int32>): (r: Option<string>)
    ensures r.Some? <==> dhcpAddress.Some?
    ensures r.Some? ==> r.value + "." + NatToString(Octet(dhcpAddress.value, 3)) == IntToIp(dhcpAddress.value)
  {
    match dhcpAddress
    case None => None
    case Some(ip) => SubnetThenHost(ip); Some(SubnetOf(ip))
  }

  /** `getGatewayIp`: the DHCP gateway in dotted form, if it can be read (`0.0.0.0` included). */
  function GatewayIp(dhcpGateway: Option<Int32>): (r: Option<string>)
    ensures r.Some? <==> dhcpGateway.Some?
    ensures r.Some? ==> r.value == IntToIp(dhcpGateway.value)
  {
    match dhcpGateway
    case None => None
    case Some(g) => Some(IntToIp(g))
  }

  /** The devices found among hosts `host..254`; `replies[h - 1]` answers host `h`. */
  function SweepFrom(subnet: string, replies: seq<Probe>, host: nat): (r: seq<NetworkDevice>)
    requires |replies| == HostCount && 1 <= host <= HostCount + 1
    ensures |r| <= HostCount + 1 - host
    ensures forall d :: d in r ==> d.isReachable
    ensures forall d :: d in r ==>
              exists h :: host <= h <= HostCount && d.ipAddress == HostAddress(subnet, h)
                          && replies[h - 1] == Reachable(d.hostname, d.responseTime)
    ensures forall h :: host <= h <= HostCount && replies[h - 1].Reachable? ==>
              NetworkDevice(HostAddress(subnet, h), true, replies[h - 1].hostname, replies[h - 1].responseTime) in r
    ensures forall i, j :: 0 <= i < j < |r| ==> r[i].ipAddress != r[j].ipAddress
    decreases HostCount + 1 - host
  {
    if host > HostCount then []
    else
      var rest := SweepFrom(subnet, replies, host + 1);
      match replies[host - 1]
      case Unreachable => rest
      case Reachable(name, ms) =>
        var d := NetworkDevice(HostAddress(subnet, host), true, name, ms);
        assert forall e :: e in rest ==> e.ipAddress != d.ipAddress by {
          forall e | e in rest
            ensures e.ipAddress != d.ipAddress
          {
            var h :| host + 1 <= h <= HostCount && e.ipAddress == HostAddress(subnet, h)
                     && replies[h - 1] == Reachable(e.hostname, e.responseTime);
            if e.ipAddress == d.ipAddress {
              HostAddressInjective(subnet, h, host);
            }
          }
        }
        [d] + rest
  }

  /**
   * `scanNetwork`: no subnet, no devices; otherwise exactly the reachable
   * hosts of the /24, one device per address.
   */
  function ScanNetwork(subnet: Option<string>, replies: seq<Probe>): (r: seq<NetworkDevice>)
    requires |replies| == HostCount
    ensures subnet.None? ==> r == []
    ensures subnet.Some? ==> forall d :: d in r ==>
              exists h :: 1 <= h <= HostCount && d.ipAddress == HostAddress(subnet.value, h)
                          && replies[h - 1] == Reachable(d.hostname, d.responseTime)
    ensures subnet.Some? ==> forall h :: 1 <= h <= HostCount && replies[h - 1].Reachable? ==>
              exists d :: d in r && d.ipAddress == HostAddress(subnet.value, h)
    ensures forall i, j :: 0 <= i < j < |r| ==> r[i].ipAddress != r[j].ipAddress
    ensures |r| <= HostCount
  {
    match subnet
    case None => []
    case Some(s) =>
      var r := SweepFrom(s, replies, 1);
      assert forall h :: 1 <= h <= HostCount && replies[h - 1].Reachable? ==>
               NetworkDevice(HostAddress(s, h), true, replies[h - 1].hostname, replies[h - 1].responseTime) in r;
      r
  }

  // -------------------------------------------------------- suspicion

  function Addresses(devices: seq<NetworkDevice>): (r: set<string>)
    ensures forall d :: d in devices ==> d.ipAddress in r
    ensures forall a :: a in r ==> exists d :: d in devices && d.ipAddress == a
  {
    set d | d in devices :: d.ipAddress
  }

  /** The devices whose address is not among `known`, in order. */
  function Unseen(devices: seq<NetworkDevice>, known: set<string>): (r: seq<NetworkDevice>)
    ensures |r| <= |devices|
    decreases |devices|
  {
    if |devices| == 0 then []
    else
      var rest := Unseen(devices[1..], known);
      if devices[0].ipAddress !in known then [devices[0]] + rest else rest
  }

  /** A device is kept exactly when it is among `devices` and its address is unknown. */
  lemma {:induction false} UnseenMembers(devices: seq<NetworkDevice>, known: set<string>)
    ensures forall d :: d in Unseen(devices, known) <==> d in devices && d.ipAddress !in known
    decreases |devices|
  {
    if |devices| > 0 {
      UnseenMembers(devices[1..], known);
      assert forall d :: d in devices <==> d == devices[0] || d in devices[1..];
    }
  }

  /** The devices that answered in under five milliseconds, in order. */
  function FastResponders(devices: seq<NetworkDevice>): (r: seq<NetworkDevice>)
    ensures forall d :: d in r <==> d in devices && d.responseTime < FastResponseMs
    ensures |r| <= |devices|
    decreases |devices|
  {
    if |devices| == 0 then []
    else
      var rest := FastResponders(devices[1..]);
      assert forall d :: d in devices <==> d == devices[0] || d in devices[1..];
      if devices[0].responseTime < FastResponseMs then [devices[0]] + rest else rest
  }

  /**
   * `Unseen` keeps each unseen device where it stood, with its repeats: it
   * distributes over concatenation (and `UnseenCons` decides each device).
   */
  lemma {:induction false} UnseenAppend(a: seq<NetworkDevice>, b: seq<NetworkDevice>, known: set<string>)
    ensures Unseen(a + b, known) == Unseen(a, known) + Unseen(b, known)
    decreases |a|
  {
    if |a| == 0 {
      assert a + b == b;
    } else {
      assert a + b == [a[0]] + (a[1..] + b);
      UnseenCons(a[0], a[1..] + b, known);
      UnseenAppend(a[1..], b, known);
    }
  }

  /** One device is kept exactly when its address is unknown. */
  lemma UnseenCons(x: NetworkDevice, rest: seq<NetworkDevice>, known: set<string>)
    ensures Unseen([x] + rest, known) == (if x.ipAddress !in known then [x] else []) + Unseen(rest, known)
  {
    assert ([x] + rest)[1..] == rest;
  }

  /** The same for `FastResponders`: order and repeats are kept. */
  lemma {:induction false} FastRespondersAppend(a: seq<NetworkDevice>, b: seq<NetworkDevice>)
    ensures FastResponders(a + b) == FastResponders(a) + FastResponders(b)
    decreases |a|
  {
    if |a| == 0 {
      assert a + b == b;
    } else {
      assert a + b == [a[0]] + (a[1..] + b);
      FastRespondersCons(a[0], a[1..] + b);
      FastRespondersAppend(a[1..], b);
    }
  }

  /** One device is kept exactly when it answered in under five milliseconds. */
  lemma FastRespondersCons(x: NetworkDevice, rest: seq<NetworkDevice>)
    ensures FastResponders([x] + rest) == (if x.responseTime < FastResponseMs then [x] else []) + FastResponders(rest)
  {
    assert ([x] + rest)[1..] == rest;
  }

  /** The addresses of `devices` other than `gateway`, in order. */
  function OtherThan(devices: seq<NetworkDevice>, gateway: string): (r: seq<string>)
    ensures forall a :: a in r <==> a != gateway && exists d :: d in devices && d.ipAddress == a
    decreases |devices|
  {
    if |devices| == 0 then []
    else
      var rest := OtherThan(devices[1..], gateway);
      assert forall d :: d in devices <==> d == devices[0] || d in devices[1..];
      if devices[0].ipAddress != gateway then [devices[0].ipAddress] + rest else rest
  }

  /** Dropping the gateway's address distributes over concatenation, so the order and repeats are kept. */
  lemma {:induction false} OtherThanAppend(a: seq<NetworkDevice>, b: seq<NetworkDevice>, gateway: string)
    ensures OtherThan(a + b, gateway) == OtherThan(a, gateway) + OtherThan(b, gateway)
    decreases |a|
  {
    if |a| == 0 {
      assert a + b == b;
    } else {
      assert a + b == [a[0]] + (a[1..] + b);
      OtherThanCons(a[0], a[1..] + b, gateway);
      OtherThanAppend(a[1..], b, gateway);
    }
  }

  /** One device contributes its address exactly when it is not the gateway. */
  lemma OtherThanCons(x: NetworkDevice, rest: seq<NetworkDevice>, gateway: string)
    ensures OtherThan([x] + rest, gateway) == (if x.ipAddress != gateway then [x.ipAddress] else []) + OtherThan(rest, gateway)
  {
    assert ([x] + rest)[1..] == rest;
  }

  /**
   * `detectSuspiciousDevices`: devices new since the previous sweep, and,
   * when the gateway is known and at least two devices answered fast, the
   * fast ones other than the gateway; only the latter make a threat.
   */
  function DetectSuspiciousDevices(devices: seq<NetworkDevice>, previous: Option<seq<NetworkDevice>>,
                                   gatewayIp: Option<string>): (r: SuspiciousDeviceResult)
    ensures previous.None? ==> r.newDevices == []
    ensures previous.Some? ==> r.newDevices == Unseen(devices, Addresses(previous.value))
    ensures previous.Some? ==> forall d :: d in r.newDevices <==>
              d in devices && forall p :: p in previous.value ==> p.ipAddress != d.ipAddress
    ensures r.threatDetected <==> |r.suspiciousDevices| > 0
    ensures r.threatDetected <==>
              (gatewayIp.Some? && |FastResponders(devices)| > 1
               && exists d :: d in devices && d.responseTime < FastResponseMs && d.ipAddress != gatewayIp.value)
    ensures forall a :: a in r.suspiciousDevices ==> exists d :: d in devices && d.ipAddress == a && d.responseTime < FastResponseMs
    ensures r.suspiciousDevices ==
              if gatewayIp.Some? && |FastResponders(devices)| > 1 then OtherThan(FastResponders(devices), gatewayIp.value) else []
    ensures gatewayIp.Some? ==> gatewayIp.value !in r.suspiciousDevices
    ensures r.totalDevices == |devices| && r.gatewayIp == gatewayIp
  {
    var added := if previous.Some? then Unseen(devices, Addresses(previous.value)) else [];
    UnseenMembers(devices, if previous.Some? then Addresses(previous.value) else {});
    var fast := FastResponders(devices);
    var suspicious := if |fast| > 1 && gatewayIp.Some? then OtherThan(fast, gatewayIp.value) else [];
    assert |suspicious| > 0 ==> suspicious[0] in suspicious;
    assert (gatewayIp.Some? && |fast| > 1
            && exists d :: d in devices && d.responseTime < FastResponseMs && d.ipAddress != gatewayIp.value)
           ==> |suspicious| > 0 by {
      if gatewayIp.Some? && |fast| > 1
         && exists d :: d in devices && d.responseTime < FastResponseMs && d.ipAddress != gatewayIp.value {
        var d :| d in devices && d.responseTime < FastResponseMs && d.ipAddress != gatewayIp.value;
        assert d in fast;
        assert d.ipAddress in suspicious;
      }
    }
    SuspiciousDeviceResult(|suspicious| > 0, suspicious, added, |devices|, gatewayIp)
  }
}

=== FILE: network_info.dfy ===
/**
 * Address helpers of the main activity and the network scanner: rendering
 * the little-endian `Int` addresses of `DhcpInfo` as dotted quads, turning a
 * dotted netmask into a prefix length by counting bits, the encryption label
 * of an access point, the DNS server list, and the SSID clean-up.
 */
module NetworkInfo {
  import opened Base
  import opened Text

  /** A Kotlin `Int`: 32-bit two's complement. */
  type Int32 = x: int | IntMin <= x <= IntMax

  const TwoTo32: int := 0x1_0000_0000

  function Pow256(k: nat): (r: nat)
    ensures r > 0
  {
    if k == 0 then 1 else 256 * Pow256(k - 1)
  }

  /**
   * `(ip shr 8k) and 0xff`. With a positive divisor Dafny's `/` rounds
   * down, which is exactly an arithmetic right shift, and `% 256` is
   * exactly `and 0xff`, negative `ip` included.
   */
  function Octet(ip: Int32, k: nat): (r: nat)
    requires k < 4
    ensures r < 256
  {
    (ip / Pow256(k)) % 256
  }

  /** The 32-bit pattern of `ip` read as an unsigned number. */
  function Unsigned(ip: Int32): (u: nat)
    ensures u < TwoTo32
  {
    if ip < 0 then ip + TwoTo32 else ip
  }

  /** Taking two arithmetic shifts in a row is one larger shift. */
  lemma ShiftTwice(x: int)
    ensures x / 256 / 256 == x / 65536
    ensures x / 65536 / 256 == x / 16777216
  {
  }

  /** A multiple of `2^32` added to `ip` leaves its low 32 bits alone. */
  lemma OctetsOfUnsigned(ip: Int32)
    ensures forall k :: 0 <= k < 4 ==> Octet(ip, k) == (Unsigned(ip) / Pow256(k)) % 256
  {
    Pow256Values();
    var u := Unsigned(ip);
    if ip < 0 {
      WrapKeepsOctets(ip);
      WrapKeepsLowByte(ip);
      assert u == ip + TwoTo32;
    } else {
      assert u == ip;
    }
    assert Octet(ip, 0) == (u / Pow256(0)) % 256;
    assert Octet(ip, 1) == (u / Pow256(1)) % 256;
    assert Octet(ip, 2) == (u / Pow256(2)) % 256;
    assert Octet(ip, 3) == (u / Pow256(3)) % 256;
  }

  lemma Pow256Values()
    ensures Pow256(0) == 1 && Pow256(1) == 256 && Pow256(2) == 65536 && Pow256(3) == 16777216
  {
  }

  /** Adding `2^32`, a multiple of 256, leaves the low byte alone. */
  lemma WrapKeepsLowByte(x: int)
    ensures (x + TwoTo32) % 256 == x % 256
  {
    ShiftBy256(x, 0x100_0000);
  }

  /** Shifting `x + 2^32` right by 8, 16 or 24 adds a multiple of 256, which `% 256` removes. */
  lemma WrapKeepsOctets(x: int)
    ensures ((x + TwoTo32) / 256) % 256 == (x / 256) % 256
    ensures ((x + TwoTo32) / 65536) % 256 == (x / 65536) % 256
    ensures ((x + TwoTo32) / 16777216) % 256 == (x / 16777216) % 256
  {
    ShiftBy256(x, 0x100_0000);
    ShiftBy256(x / 256, 0x1_0000);
    ShiftBy65536(x, 65536);
    ShiftBy256(x / 65536, 256);
    ShiftBy16777216(x, 256);
    ShiftBy256(x / 16777216, 1);
  }

  lemma ShiftBy256(x: int, c: int)
    ensures (x + 256 * c) / 256 == x / 256 + c && (x + 256 * c) % 256 == x % 256
  {
  }

  lemma ShiftBy65536(x: int, c: int)
    ensures (x + 65536 * c) / 65536 == x / 65536 + c
  {
  }

  lemma ShiftBy16777216(x: int, c: int)
    ensures (x + 16777216 * c) / 16777216 == x / 16777216 + c
  {
  }

  lemma BytesOfUnsigned(u: nat)
    requires u < TwoTo32
    ensures u == u % 256 + 256 * ((u / 256) % 256) + 65536 * ((u / 65536) % 256) + 16777216 * ((u / 16777216) % 256)
  {
    ShiftTwice(u);
  }

  /** The octets in the order `"%d.%d.%d.%d"` prints them: least significant first. */
  function Octets(ip: Int32): (r: seq<nat>)
    ensures |r| == 4
    ensures Unsigned(ip) == r[0] + 256 * r[1] + 65536 * r[2] + 16777216 * r[3]
    ensures forall k :: 0 <= k < 4 ==> r[k] < 256
  {
    OctetsOfUnsigned(ip);
    BytesOfUnsigned(Unsigned(ip));
    assert Pow256(1) == 256 && Pow256(2) == 65536 && Pow256(3) == 16777216;
    [Octet(ip, 0), Octet(ip, 1), Octet(ip, 2), Octet(ip, 3)]
  }

  /** Numbers printed with `%d` and separated by dots. */
  function Dotted(parts: seq<nat>): string
  {
    Join(seq(|parts|, i requires 0 <= i < |parts| => NatToString(parts[i])), ".")
  }

  /**
   * `intToIp` (and `getGatewayIp`): `"%d.%d.%d.%d"` of the four octets of a
   * `DhcpInfo` address, least significant byte first.
   */
  function IntToIp(ip: Int32): (r: string)
    ensures var o := Octets(ip);
            r == NatToString(o[0]) + "." + NatToString(o[1]) + "." + NatToString(o[2]) + "." + NatToString(o[3])
  {
    var o := Octets(ip);
    assert o == [o[0], o[1], o[2], o[3]];
    DottedFour(o[0], o[1], o[2], o[3]);
    Dotted(o)
  }

  /** The printed address splits at its dots into four pieces that read back as the octets. */
  lemma IntToIpReadsBack(ip: Int32)
    ensures |Split(IntToIp(ip), '.')| == 4
    ensures forall k :: 0 <= k < 4 ==> ParseInt(Split(IntToIp(ip), '.')[k]) == Some(Octets(ip)[k])
  {
    var o := Octets(ip);
    SplitDotted(o);
    forall k | 0 <= k < 4
      ensures ParseInt(Split(IntToIp(ip), '.')[k]) == Some(o[k])
    {
      ParseIntOfNatToString(o[k]);
    }
  }

  /** `NetworkScanner.getSubnet`: the first three octets, e.g. `"192.168.1"`. */
  function SubnetOf(ip: Int32): string
  {
    Dotted(Octets(ip)[..3])
  }

  /** Dotted text reads back, piece by piece, as the numbers it was built from. */
  lemma SplitDotted(parts: seq<nat>)
    requires |parts| >= 1
    ensures Split(Dotted(parts), '.') == seq(|parts|, i requires 0 <= i < |parts| => NatToString(parts[i]))
  {
    var strs := seq(|parts|, i requires 0 <= i < |parts| => NatToString(parts[i]));
    forall i | 0 <= i < |strs|
      ensures '.' !in strs[i]
    {
      assert AllDigits(strs[i]);
    }
    SplitJoin(strs, '.');
  }

  /**
   * Dotted text starts with the number `p` and a dot exactly when its first
   * number is `p`: a number never runs on past a dot.
   */
  lemma DottedPrefix(t: string, rest: string, p: string, more: string)
    requires AllDigits(t) && AllDigits(p)
    ensures p + "." + more <= t + "." + rest <==> t == p && more <= rest
  {
    var q := p + "." + more;
    var s := t + "." + rest;
    if q <= s {
      var k := if |t| < |p| then |t| else |p|;
      assert q[k] == s[k];
      assert q[k] == '.' <==> k == |p|;
      assert s[k] == '.' <==> k == |t|;
      assert t == s[..|t|] && p == q[..|p|];
      assert more == q[|p| + 1..] && rest == s[|t| + 1..];
    }
    if t == p && more <= rest {
      assert s[..|q|] == p + "." + rest[..|more|];
    }
  }

  /** The same with the first number given as a value. */
  lemma StartsWithNumber(a: nat, rest: string, n: nat, more: string)
    ensures NatToString(n) + "." + more <= NatToString(a) + "." + rest <==> a == n && more <= rest
  {
    DottedPrefix(NatToString(a), rest, NatToString(n), more);
    if NatToString(a) == NatToString(n) {
      NatToStringInjective(a, n);
    }
  }

  lemma DottedFour(a: nat, b: nat, c: nat, d: nat)
    ensures Dotted([a, b, c, d]) == NatToString(a) + "." + NatToString(b) + "." + NatToString(c) + "." + NatToString(d)
  {
    var ps: seq<nat> := [a, b, c, d];
    var s := seq(4, i requires 0 <= i < 4 => NatToString(ps[i]));
    assert s == [NatToString(a), NatToString(b), NatToString(c), NatToString(d)];
    JoinFour(NatToString(a), NatToString(b), NatToString(c), NatToString(d), ".");
  }

  lemma DottedThree(a: nat, b: nat, c: nat)
    ensures Dotted([a, b, c]) == NatToString(a) + "." + NatToString(b) + "." + NatToString(c)
  {
    var ps: seq<nat> := [a, b, c];
    var s := seq(3, i requires 0 <= i < 3 => NatToString(ps[i]));
    assert s == [NatToString(a), NatToString(b), NatToString(c)];
    JoinThree(NatToString(a), NatToString(b), NatToString(c), ".");
  }

  /** The subnet text followed by the last octet is the whole address. */
  lemma SubnetThenHost(ip: Int32)
    ensures SubnetOf(ip) + "." + NatToString(Octet(ip, 3)) == IntToIp(ip)
  {
    var o := Octets(ip);
    assert o[..3] == [o[0], o[1], o[2]];
    assert o == [o[0], o[1], o[2], o[3]];
    DottedThree(o[0], o[1], o[2]);
    DottedFour(o[0], o[1], o[2], o[3]);
  }

  // ------------------------------------------------------ popcount

  /** Number of one bits of a non-negative number. */
  function Popcount(n: nat): nat
  {
    if n == 0 then 0 else n % 2 + Popcount(n / 2)
  }

  /** `Integer.bitCount`: the one bits of the 32-bit pattern. */
  function BitCount(x: Int32): nat
  {
    Popcount(Unsigned(x))
  }

  function Pow2(k: nat): (r: nat)
    ensures r > 0
  {
    if k == 0 then 1 else 2 * Pow2(k - 1)
  }

  /** The bits of `a + 2^k * b` are those of `a` (below bit `k`) and those of `b`. */
  lemma {:induction false} PopcountSplit(a: nat, b: nat, k: nat)
    requires a < Pow2(k)
    ensures Popcount(a + Pow2(k) * b) == Popcount(a) + Popcount(b)
    decreases k
  {
    if k > 0 {
      var t := Pow2(k - 1) * b;
      assert Pow2(k) * b == 2 * t;
      var n := a + 2 * t;
      if n != 0 {
        assert n % 2 == a % 2 && n / 2 == a / 2 + t;
        PopcountSplit(a / 2, b, k - 1);
      }
    }
  }

  /** A number below `2^k` has at most `k` one bits. */
  lemma {:induction false} PopcountBound(n: nat, k: nat)
    requires n < Pow2(k)
    ensures Popcount(n) <= k
    decreases k
  {
    if k > 0 && n > 0 {
      PopcountBound(n / 2, k - 1);
    }
  }

  lemma {:induction false} Pow2Add(a: nat, b: nat)
    ensures Pow2(a + b) == Pow2(a) * Pow2(b)
    decreases a
  {
    if a > 0 {
      Pow2Add(a - 1, b);
    }
  }

  lemma Pow2Values()
    ensures Pow2(8) == 256 && Pow2(32) == TwoTo32
  {
    assert Pow2(2) == 4;
    Pow2Add(2, 2);
    Pow2Add(4, 4);
    Pow2Add(8, 8);
    Pow2Add(16, 16);
  }

  /** The one bits of a 32-bit pattern are the one bits of its four bytes. */
  lemma PopcountOfOctets(ip: Int32)
    ensures BitCount(ip) == Popcount(Octets(ip)[0]) + Popcount(Octets(ip)[1]) + Popcount(Octets(ip)[2]) + Popcount(Octets(ip)[3])
  {
    var o := Octets(ip);
    PopcountOfBytes(o[0], o[1], o[2], o[3]);
  }

  /** The one bits of a number written with four base-256 digits are those of its digits. */
  lemma PopcountOfBytes(a: nat, b: nat, c: nat, d: nat)
    requires a < 256 && b < 256 && c < 256
    ensures Popcount(a + 256 * b + 65536 * c + 16777216 * d) == Popcount(a) + Popcount(b) + Popcount(c) + Popcount(d)
  {
    var cd := c + 256 * d;
    var bcd := b + 256 * cd;
    PopcountByte(c, d);
    PopcountByte(b, cd);
    PopcountByte(a, bcd);
    assert a + 256 * b + 65536 * c + 16777216 * d == a + 256 * bcd;
  }

  /** The low byte and the rest of a number split its one bits. */
  lemma PopcountByte(a: nat, rest: nat)
    requires a < 256
    ensures Popcount(a + 256 * rest) == Popcount(a) + Popcount(rest)
  {
    Pow2Values();
    PopcountSplit(a, rest, 8);
  }

  // ------------------------------------------------------ netmask

  /**
   * `netmaskToCidr`: 24 unless the mask has exactly four dot-separated
   * parts; otherwise the total number of one bits, a part that is not a
   * number counting as 0.
   */
  function NetmaskToCidr(netmask: string): (r: int)
    ensures |Split(netmask, '.')| != 4 ==> r == 24
    ensures var parts := Split(netmask, '.');
            |parts| == 4 ==> r == PartBits(parts[0]) + PartBits(parts[1]) + PartBits(parts[2]) + PartBits(parts[3])
    ensures 0 <= r <= 128
  {
    var parts := Split(netmask, '.');
    if |parts| != 4 then 24
    else PartBits(parts[0]) + PartBits(parts[1]) + PartBits(parts[2]) + PartBits(parts[3])
  }

  /** `Integer.bitCount(part.toIntOrNull() ?: 0)`. */
  function PartBits(part: string): (r: nat)
    ensures r <= 32
    ensures ParseInt(part).Some? ==> r == BitCount(ParseInt(part).value)
    ensures r == 0 <==> ParseInt(part).None? || ParseInt(part) == Some(0)
  {
    var v := match ParseInt(part) case Some(n) => n case None => 0;
    Pow2Values();
    PopcountBound(Unsigned(v), 32);
    PopcountZero(Unsigned(v));
    BitCount(v)
  }

  /** Only zero has no one bits. */
  lemma {:induction false} PopcountZero(n: nat)
    ensures Popcount(n) == 0 <==> n == 0
  {
    if n > 0 && n % 2 == 0 {
      PopcountZero(n / 2);
    }
  }

  lemma PartBitsOfOctet(n: nat)
    requires n < 256
    ensures PartBits(NatToString(n)) == Popcount(n)
  {
    ParseIntOfNatToString(n);
  }

  /**
   * A mask rendered by `intToIp` converts back to its number of one bits,
   * which is at most 32.
   */
  lemma NetmaskOfRenderedMask(m: Int32)
    ensures NetmaskToCidr(IntToIp(m)) == BitCount(m)
    ensures BitCount(m) <= 32
  {
    var o := Octets(m);
    SplitDotted(o);
    var parts := Split(IntToIp(m), '.');
    assert parts == [NatToString(o[0]), NatToString(o[1]), NatToString(o[2]), NatToString(o[3])];
    PartBitsOfOctet(o[0]);
    PartBitsOfOctet(o[1]);
    PartBitsOfOctet(o[2]);
    PartBitsOfOctet(o[3]);
    PopcountOfOctets(m);
    Pow2Values();
    PopcountBound(Unsigned(m), 32);
  }

  // ------------------------------------------------------ DNS list

  /** `intToIp` prints `"0.0.0.0"` for exactly one address: zero. */
  lemma ZeroAddressText(x: Int32)
    ensures IntToIp(x) == "0.0.0.0" <==> x == 0
  {
    var zeros: seq<nat> := [0, 0, 0, 0];
    DottedFour(0, 0, 0, 0);
    assert Dotted(zeros) == "0.0.0.0";
    var o := Octets(x);
    if x == 0 {
      assert o == zeros;
    }
    if IntToIp(x) == "0.0.0.0" {
      SplitDotted(o);
      SplitDotted(zeros);
      var a := seq(4, i requires 0 <= i < 4 => NatToString(o[i]));
      var b := seq(4, i requires 0 <= i < 4 => NatToString(zeros[i]));
      assert a == b;
      forall k | 0 <= k < 4
        ensures o[k] == 0
      {
        assert a[k] == b[k];
        NatToStringInjective(o[k], 0);
      }
    }
  }

  /**
   * The DNS servers listed for the current network: `dns1` then `dns2`,
   * each omitted when it prints as `"0.0.0.0"`.
   */
  function DnsServerList(dns1: Int32, dns2: Int32): (r: seq<string>)
    ensures r == (if dns1 != 0 then [IntToIp(dns1)] else []) + (if dns2 != 0 then [IntToIp(dns2)] else [])
  {
    ZeroAddressText(dns1);
    ZeroAddressText(dns2);
    var first := if IntToIp(dns1) != "0.0.0.0" then [IntToIp(dns1)] else [];
    var second := if IntToIp(dns2) != "0.0.0.0" then [IntToIp(dns2)] else [];
    first + second
  }

  // ------------------------------------------------------ encryption label

  datatype Encryption = Wpa3 | Wpa2 | Wpa | Wep | Open

  function LabelText(e: Encryption): string
  {
    match e
    case Wpa3 => "WPA3"
    case Wpa2 => "WPA2"
    case Wpa => "WPA"
    case Wep => "WEP"
    case Open => "Open"
  }

  /** Strength of a label: a label is reported only if no stronger one applies. */
  function Rank(e: Encryption): nat
  {
    match e
    case Wpa3 => 4
    case Wpa2 => 3
    case Wpa => 2
    case Wep => 1
    case Open => 0
  }

  /**
   * The encryption label of an access point: the strongest of WPA3, WPA2,
   * WPA, WEP whose name occurs in its capability string, else Open.
   */
  function EncryptionLabel(capabilities: string): (r: Encryption)
    ensures r != Open ==> Contains(capabilities, LabelText(r))
    ensures forall e :: Rank(e) > Rank(r) ==> !Contains(capabilities, LabelText(e))
  {
    if Contains(capabilities, "WPA3") then Wpa3
    else if Contains(capabilities, "WPA2") then Wpa2
    else if Contains(capabilities, "WPA") then Wpa
    else if Contains(capabilities, "WEP") then Wep
    else Open
  }

  /**
   * Open is reported exactly when neither "WPA" nor "WEP" occurs: a WPA2
   * or WPA3 capability always mentions "WPA" too.
   */
  lemma OpenIffNoWpaNoWep(capabilities: string)
    ensures EncryptionLabel(capabilities) == Open <==>
              !Contains(capabilities, "WPA") && !Contains(capabilities, "WEP")
  {
    if Contains(capabilities, "WPA3") {
      ContainsPrefixOf(capabilities, "WPA3", "WPA");
    } else if Contains(capabilities, "WPA2") {
      ContainsPrefixOf(capabilities, "WPA2", "WPA");
    }
  }

  // ------------------------------------------------------ SSID

  const UnknownSsid: string := "<unknown ssid>"

  /** Kotlin's `removeSurrounding("\"")`. */
  function RemoveSurroundingQuotes(s: string): (r: string)
    ensures |s| >= 2 && s[0] == '"' && s[|s| - 1] == '"' ==> "\"" + r + "\"" == s
    ensures !(|s| >= 2 && s[0] == '"' && s[|s| - 1] == '"') ==> r == s
  {
    if |s| >= 2 && s[0] == '"' && s[|s| - 1] == '"' then s[1..|s| - 1] else s
  }

  /**
   * The connected network's name as `getCurrentNetwork` reports it: the SSID
   * without surrounding quotes, or nothing when there is no SSID, it is
   * empty, or it is the platform's `<unknown ssid>` placeholder.
   */
  function CurrentNetwork(ssid: Option<string>): (r: Option<string>)
    ensures r.None? <==> ssid.None? || RemoveSurroundingQuotes(ssid.value) == ""
                          || RemoveSurroundingQuotes(ssid.value) == UnknownSsid
    ensures r.Some? ==> r.value != "" && r.value != UnknownSsid
    ensures r.Some? ==> ssid.Some? && (ssid.value == r.value || ssid.value == "\"" + r.value + "\"")
  {
    match ssid
    case None => None
    case Some(raw) =>
      var name := RemoveSurroundingQuotes(raw);
      if name == "" || name == UnknownSsid then None else Some(name)
  }

  /** A quoted empty name or a quoted placeholder means no network, as do the bare ones. */
  lemma NoNetworkOfPlaceholders()
    ensures CurrentNetwork(Some("\"\"")) == None && CurrentNetwork(Some("")) == None
    ensures CurrentNetwork(Some("\"" + UnknownSsid + "\"")) == None
    ensures CurrentNetwork(Some(UnknownSsid)) == None
  {
    var q := "\"" + UnknownSsid + "\"";
    assert q[1..|q| - 1] == UnknownSsid;
  }

  /** A quoted name comes back unquoted; a bare name comes back unchanged. */
  lemma CurrentNetworkOfQuoted(name: string)
    requires name != "" && name != UnknownSsid
    ensures CurrentNetwork(Some("\"" + name + "\"")) == Some(name)
    ensures (|name| < 2 || name[0] != '"' || name[|name| - 1] != '"') ==> CurrentNetwork(Some(name)) == Some(name)
  {
    var q := "\"" + name + "\"";
    assert q[1..|q| - 1] == name;
  }
}

=== FILE: text.dfy ===
/**
 * The handful of Kotlin string operations the detector relies on, written
 * out over `seq<char>`: substring search, ASCII case folding, decimal
 * rendering and parsing (`"%d"` and `toIntOrNull`), `split(".")`,
 * `joinToString` and the whitespace splitting `trim().split(Regex("\\s+"))`.
 */
module Text {
  import opened Base

  const IntMin: int := -0x8000_0000
  const IntMax: int := 0x7FFF_FFFF

  predicate IsDigit(c: char) { '0' <= c <= '9' }

  /** The characters of Java's regex class `\s`. */
  predicate IsSpace(c: char)
  {
    c == ' ' || c == '\t' || c == '\n' || c == '\U{0B}' || c == '\U{0C}' || c == '\r'
  }

  predicate AllDigits(s: string)
  {
    forall i :: 0 <= i < |s| ==> IsDigit(s[i])
  }

  // ---------------------------------------------------------------- search

  /** Kotlin's `s.contains(sub)`: `sub` occurs somewhere in `s`. */
  predicate Contains(s: string, sub: string)
    decreases |s|
  {
    sub <= s || (|s| > 0 && Contains(s[1..], sub))
  }

  /** An occurrence of `sub` is also an occurrence of each of its prefixes. */
  lemma {:induction false} ContainsPrefixOf(s: string, sub: string, p: string)
    requires Contains(s, sub) && p <= sub
    ensures Contains(s, p)
    decreases |s|
  {
    if !(sub <= s) {
      ContainsPrefixOf(s[1..], sub, p);
    }
  }

  /** `Contains` agrees with the positional reading of "occurs at some index". */
  lemma {:induction false} ContainsAt(s: string, sub: string, k: nat)
    requires k + |sub| <= |s| && s[k..k + |sub|] == sub
    ensures Contains(s, sub)
    decreases k
  {
    if k > 0 {
      assert s[1..][k - 1..k - 1 + |sub|] == s[k..k + |sub|];
      ContainsAt(s[1..], sub, k - 1);
    } else {
      assert sub <= s;
    }
  }

  /** `sub` occurs nowhere when it is a prefix of no suffix. */
  lemma {:induction false} NotContainedAnywhere(s: string, sub: string)
    requires forall j :: 0 <= j <= |s| ==> !(sub <= s[j..])
    ensures !Contains(s, sub)
    decreases |s|
  {
    assert s[0..] == s;
    if |s| > 0 {
      forall j | 0 <= j <= |s[1..]|
        ensures !(sub <= s[1..][j..])
      {
        assert s[1..][j..] == s[j + 1..];
      }
      NotContainedAnywhere(s[1..], sub);
    }
  }

  /**
   * `sub` occurs nowhere in `s` when its characters `k` and `k + 1` never
   * stand side by side where an occurrence would put them.
   */
  lemma PairRulesOut(s: string, sub: string, k: nat)
    requires k + 1 < |sub|
    requires forall i :: k <= i && i + |sub| - k <= |s| ==> s[i] != sub[k] || s[i + 1] != sub[k + 1]
    ensures !Contains(s, sub)
  {
    forall j | 0 <= j <= |s|
      ensures !(sub <= s[j..])
    {
      if j + |sub| <= |s| {
        assert s[j..][k] == s[j + k] && s[j..][k + 1] == s[j + k + 1];
      }
    }
    NotContainedAnywhere(s, sub);
  }

  function LowerChar(c: char): char
  {
    if 'A' <= c <= 'Z' then (c as int + 32) as char else c
  }

  function Lower(s: string): (r: string)
    ensures |r| == |s|
    ensures forall i :: 0 <= i < |s| ==> r[i] == LowerChar(s[i])
  {
    seq(|s|, i requires 0 <= i < |s| => LowerChar(s[i]))
  }

  /** Kotlin's `s.contains(sub, ignoreCase = true)`, folding ASCII letters only. */
  predicate ContainsIgnoreCase(s: string, sub: string)
  {
    Contains(Lower(s), Lower(sub))
  }

  // ------------------------------------------------------ decimal numbers

  function DigitChar(d: nat): (c: char)
    requires d < 10
    ensures IsDigit(c)
  {
    (48 + d) as char
  }

  function DigitValue(c: char): (d: nat)
    requires IsDigit(c)
    ensures d < 10
  {
    c as int - 48
  }

  /** Kotlin's `"%d".format(n)` for a non-negative `n`. */
  function NatToString(n: nat): (r: string)
    ensures |r| >= 1 && AllDigits(r)
    decreases n
  {
    if n < 10 then [DigitChar(n)] else NatToString(n / 10) + [DigitChar(n % 10)]
  }

  /** The value of a string of decimal digits (most significant first). */
  function DigitsValue(s: string): nat
    requires AllDigits(s)
    decreases |s|
  {
    if |s| == 0 then 0 else 10 * DigitsValue(s[..|s| - 1]) + DigitValue(s[|s| - 1])
  }

  /** Rendering a number and reading it back gives the number. */
  lemma {:induction false} DigitsValueOfNatToString(n: nat)
    ensures DigitsValue(NatToString(n)) == n
    decreases n
  {
    var s := NatToString(n);
    if n >= 10 {
      assert s[..|s| - 1] == NatToString(n / 10);
      DigitsValueOfNatToString(n / 10);
    }
  }

  lemma NatToStringInjective(a: nat, b: nat)
    requires NatToString(a) == NatToString(b)
    ensures a == b
  {
    DigitsValueOfNatToString(a);
    DigitsValueOfNatToString(b);
  }

  /**
   * Kotlin's `String.toIntOrNull()`: an optional sign followed by at least
   * one decimal digit, whose value fits in a 32-bit `Int`; anything else is
   * `null`.
   */
  function ParseInt(s: string): (r: Option<int>)
    ensures r.Some? ==> IntMin <= r.value <= IntMax
    ensures r.Some? ==> |s| > 0 && (AllDigits(s) || ((s[0] == '-' || s[0] == '+') && |s| > 1 && AllDigits(s[1..])))
  {
    if |s| == 0 then None
    else if s[0] == '-' || s[0] == '+' then
      if |s| == 1 || !AllDigits(s[1..]) then None
      else
        var d: int := DigitsValue(s[1..]);
        var v: int := if s[0] == '-' then -d else d;
        if IntMin <= v <= IntMax then Some(v) else None
    else if !AllDigits(s) then None
    else if DigitsValue(s) <= IntMax then Some(DigitsValue(s))
    else None
  }

  /** `toIntOrNull` reads back what `"%d"` wrote, for every value an `Int` holds. */
  lemma ParseIntOfNatToString(n: nat)
    requires n <= IntMax
    ensures ParseInt(NatToString(n)) == Some(n)
  {
    DigitsValueOfNatToString(n);
  }

  /** Kotlin's string template of an `Int`: a minus sign, then the magnitude. */
  function IntToString(x: int): (r: string)
    ensures x >= 0 ==> r == NatToString(x)
    ensures x < 0 ==> |r| >= 2 && r[0] == '-' && AllDigits(r[1..])
  {
    if x >= 0 then NatToString(x) else "-" + NatToString(-x)
  }

  /** `toIntOrNull` reads back every `Int` its template wrote. */
  lemma ParseIntOfIntToString(x: int)
    requires IntMin <= x <= IntMax
    ensures ParseInt(IntToString(x)) == Some(x)
  {
    if x >= 0 {
      ParseIntOfNatToString(x);
    } else {
      var s := IntToString(x);
      assert s[1..] == NatToString(-x);
      DigitsValueOfNatToString(-x);
    }
  }

  // ------------------------------------------------------- split and join

  /** Kotlin's `joinToString(sep)`. */
  function Join(parts: seq<string>, sep: string): (r: string)
    ensures |parts| == 0 ==> r == []
    decreases |parts|
  {
    if |parts| == 0 then []
    else if |parts| == 1 then parts[0]
    else parts[0] + sep + Join(parts[1..], sep)
  }

  /** An occurrence in `t` is an occurrence in any text ending with `t`. */
  lemma {:induction false} ContainsAfter(p: string, t: string, sub: string)
    requires Contains(t, sub)
    ensures Contains(p + t, sub)
    decreases |p|
  {
    if |p| == 0 {
      assert p + t == t;
    } else {
      assert (p + t)[1..] == p[1..] + t;
      ContainsAfter(p[1..], t, sub);
    }
  }

  /** Every piece occurs in the joined text. */
  lemma {:induction false} JoinContainsEach(parts: seq<string>, sep: string)
    ensures forall i :: 0 <= i < |parts| ==> Contains(Join(parts, sep), parts[i])
    decreases |parts|
  {
    if |parts| > 1 {
      var rest := Join(parts[1..], sep);
      JoinContainsEach(parts[1..], sep);
      assert Join(parts, sep) == (parts[0] + sep) + rest;
      forall i | 1 <= i < |parts|
        ensures Contains(Join(parts, sep), parts[i])
      {
        assert parts[1..][i - 1] == parts[i];
        ContainsAfter(parts[0] + sep, rest, parts[i]);
      }
    }
  }

  lemma JoinThree(a: string, b: string, c: string, sep: string)
    ensures Join([a, b, c], sep) == a + sep + b + sep + c
  {
    assert [a, b, c][1..] == [b, c];
    assert [b, c][1..] == [c];
    assert Join([b, c], sep) == b + sep + Join([c], sep);
    assert Join([a, b, c], sep) == a + sep + Join([b, c], sep);
  }

  lemma JoinFour(a: string, b: string, c: string, d: string, sep: string)
    ensures Join([a, b, c, d], sep) == a + sep + b + sep + c + sep + d
  {
    assert [a, b, c, d][1..] == [b, c, d];
    assert Join([a, b, c, d], sep) == a + sep + Join([b, c, d], sep);
    JoinThree(b, c, d, sep);
  }

  /**
   * Kotlin's `s.split(d)` for a one-character delimiter and no limit: every
   * piece between delimiters, empty pieces included, so never an empty list.
   */
  function Split(s: string, d: char): (r: seq<string>)
    ensures |r| >= 1
    decreases |s|
  {
    if |s| == 0 then [[]]
    else
      var rest := Split(s[1..], d);
      if s[0] == d then [[]] + rest else [[s[0]] + rest[0]] + rest[1..]
  }

  lemma {:induction false} SplitWithoutDelimiter(a: string, d: char)
    requires d !in a
    ensures Split(a, d) == [a]
    decreases |a|
  {
    if |a| > 0 {
      SplitWithoutDelimiter(a[1..], d);
      assert [a[0]] + a[1..] == a;
    }
  }

  lemma {:induction false} SplitAfterPiece(a: string, d: char, rest: string)
    requires d !in a
    ensures Split(a + [d] + rest, d) == [a] + Split(rest, d)
    decreases |a|
  {
    var s := a + [d] + rest;
    if |a| == 0 {
      assert s[1..] == rest;
    } else {
      assert s[1..] == a[1..] + [d] + rest;
      SplitAfterPiece(a[1..], d, rest);
      assert [a[0]] + a[1..] == a;
    }
  }

  /** Splitting a joined list on a delimiter that no piece contains gives the list back. */
  lemma {:induction false} SplitJoin(parts: seq<string>, d: char)
    requires |parts| >= 1
    requires forall i :: 0 <= i < |parts| ==> d !in parts[i]
    ensures Split(Join(parts, [d]), d) == parts
    decreases |parts|
  {
    if |parts| == 1 {
      SplitWithoutDelimiter(parts[0], d);
    } else {
      SplitJoin(parts[1..], d);
      SplitAfterPiece(parts[0], d, Join(parts[1..], [d]));
      assert [parts[0]] + parts[1..] == parts;
    }
  }

  // --------------------------------------------------- whitespace tokens

  /** A maximal run of non-whitespace characters: what `\s+` splitting yields. */
  predicate IsWord(w: string)
  {
    |w| > 0 && forall j :: 0 <= j < |w| ==> !IsSpace(w[j])
  }

  /** Length of the leading run of non-whitespace characters. */
  function WordLen(s: string): (n: nat)
    ensures n <= |s|
    ensures forall i :: 0 <= i < n ==> !IsSpace(s[i])
    ensures n < |s| ==> IsSpace(s[n])
    decreases |s|
  {
    if |s| == 0 || IsSpace(s[0]) then 0 else 1 + WordLen(s[1..])
  }

  /** The whitespace-separated words of `s`, in order. */
  function Tokens(s: string): (r: seq<string>)
    ensures forall i :: 0 <= i < |r| ==> IsWord(r[i])
    decreases |s|
  {
    if |s| == 0 then []
    else if IsSpace(s[0]) then Tokens(s[1..])
    else
      var n := WordLen(s);
      [s[..n]] + Tokens(s[n..])
  }

  /**
   * Kotlin's `s.trim().split(Regex("\\s+"))`. Once the ends are trimmed the
   * separator runs lie strictly between words, so the pieces are exactly the
   * words; an all-blank line trims to `""`, which splits to `[""]`.
   */
  function Fields(s: string): (r: seq<string>)
    ensures |r| >= 1
    ensures |Tokens(s)| > 0 ==> r == Tokens(s)
  {
    var t := Tokens(s);
    if |t| == 0 then [[]] else t
  }

  lemma {:induction false} WordLenOfWord(w: string, rest: string)
    requires IsWord(w)
    requires |rest| == 0 || IsSpace(rest[0])
    ensures WordLen(w + rest) == |w|
    decreases |w|
  {
    if |w| > 1 {
      assert (w + rest)[1..] == w[1..] + rest;
      WordLenOfWord(w[1..], rest);
    } else {
      assert (w + rest)[1..] == rest;
    }
  }

  /** A word, a space and more text: the word is the first token. */
  lemma TokensOfWordThen(w: string, rest: string)
    requires IsWord(w)
    ensures Tokens(w + " " + rest) == [w] + Tokens(rest)
  {
    var s := w + " " + rest;
    assert s == w + (" " + rest);
    WordLenOfWord(w, " " + rest);
    assert s[..|w|] == w;
    assert s[|w|..] == " " + rest;
    assert (" " + rest)[1..] == rest;
  }

  /** Splitting words joined by single spaces gives the words back. */
  lemma {:induction false} TokensJoin(words: seq<string>)
    requires forall i :: 0 <= i < |words| ==> IsWord(words[i])
    ensures Tokens(Join(words, " ")) == words
    decreases |words|
  {
    if |words| == 1 {
      var w := words[0];
      WordLenOfWord(w, []);
      assert w + [] == w;
      assert w[..|w|] == w;
    } else if |words| > 1 {
      TokensOfWordThen(words[0], Join(words[1..], " "));
      TokensJoin(words[1..]);
      assert [words[0]] + words[1..] == words;
    }
  }

  /** Words followed by more text: the words come first among the tokens. */
  lemma {:induction false} TokensJoinThenMore(words: seq<string>, more: string)
    requires |words| >= 1
    requires forall i :: 0 <= i < |words| ==> IsWord(words[i])
    ensures Tokens(Join(words, " ") + " " + more) == words + Tokens(more)
    decreases |words|
  {
    var w := words[0];
    if |words| == 1 {
      TokensOfWordThen(w, more);
    } else {
      var rest := words[1..];
      var tail := Join(rest, " ");
      calc {
        Tokens(Join(words, " ") + " " + more);
        == { JoinCons(words, " "); Regroup(w, " ", tail, more); }
        Tokens(w + " " + (tail + " " + more));
        == { TokensOfWordThen(w, tail + " " + more); }
        [w] + Tokens(tail + " " + more);
        == { TokensJoinThenMore(rest, more); }
        [w] + (rest + Tokens(more));
        == { assert [w] + rest == words; }
        words + Tokens(more);
      }
    }
  }

  /** Nothing but white space (possibly nothing at all). */
  predicate IsBlank(s: string)
  {
    forall j :: 0 <= j < |s| ==> IsSpace(s[j])
  }

  /**
   * Gaps to lay `n` words out with: all white space, and every gap but the
   * last (the trailing one) non-empty.
   */
  predicate Separators(gaps: seq<string>, n: nat)
  {
    |gaps| == n && (forall i :: 0 <= i < n ==> IsBlank(gaps[i]))
    && forall i :: 0 <= i < n - 1 ==> |gaps[i]| > 0
  }

  /** Each word followed by its gap: `words[0] + gaps[0] + words[1] + ...`. */
  function Spaced(words: seq<string>, gaps: seq<string>): string
    requires |gaps| == |words|
    decreases |words|
  {
    if |words| == 0 then [] else words[0] + gaps[0] + Spaced(words[1..], gaps[1..])
  }

  /** Leading white space does not change the words. */
  lemma {:induction false} TokensAfterBlank(b: string, s: string)
    requires IsBlank(b)
    ensures Tokens(b + s) == Tokens(s)
    decreases |b|
  {
    if |b| > 0 {
      assert (b + s)[0] == b[0];
      assert (b + s)[1..] == b[1..] + s;
      TokensAfterBlank(b[1..], s);
    } else {
      assert b + s == s;
    }
  }

  /** A word, then white space (required unless nothing follows), then more. */
  lemma TokensOfWordGap(w: string, gap: string, rest: string)
    requires IsWord(w) && IsBlank(gap)
    requires |gap| > 0 || |rest| == 0
    ensures Tokens(w + gap + rest) == [w] + Tokens(rest)
  {
    var s := w + gap + rest;
    assert s == w + (gap + rest);
    WordLenOfWord(w, gap + rest);
    assert s[..|w|] == w;
    assert s[|w|..] == gap + rest;
    TokensAfterBlank(gap, rest);
  }

  /**
   * `trim().split(Regex("\s+"))` on words laid out with any white-space
   * runs between them, any indentation and any trailing white space gives
   * the words back.
   */
  lemma {:induction false} TokensOfSpaced(lead: string, words: seq<string>, gaps: seq<string>)
    requires IsBlank(lead) && Separators(gaps, |words|)
    requires forall i :: 0 <= i < |words| ==> IsWord(words[i])
    ensures Tokens(lead + Spaced(words, gaps)) == words
    ensures |words| > 0 ==> Fields(lead + Spaced(words, gaps)) == words
    decreases |words|
  {
    TokensAfterBlank(lead, Spaced(words, gaps));
    if |words| == 0 {
      assert lead + [] == lead;
      TokensAfterBlank(lead, []);
    } else {
      var tail := Spaced(words[1..], gaps[1..]);
      assert Separators(gaps[1..], |words| - 1);
      TokensOfSpaced([], words[1..], gaps[1..]);
      assert [] + tail == tail;
      assert |words| == 1 ==> tail == [];
      TokensOfWordGap(words[0], gaps[0], tail);
      assert words[0] + gaps[0] + tail == Spaced(words, gaps);
      assert [words[0]] + words[1..] == words;
    }
  }

  /** Joining two or more parts puts the separator after the first. */
  lemma JoinCons(words: seq<string>, sep: string)
    requires |words| >= 2
    ensures Join(words, sep) == words[0] + sep + Join(words[1..], sep)
  { }

  /** Moves the brackets of a five-piece concatenation to the right. */
  lemma Regroup(a: string, sep: string, b: string, c: string)
    ensures a + sep + b + sep + c == a + sep + (b + sep + c)
  { }
}
